=== FILE: README.md ===
# Plotscript interpreter core, modelled in Dafny

Plotscript is a small Lisp-like language. This project models its interpreter core:

- **Values.** An expression is a head atom, an ordered tail and a property map. An atom is None, a real number, a complex number or a symbol.
- **Symbol table.** A map from names to slots. A slot holds a value, a built-in procedure, a special procedure or a closure. `add_exp` and `add_lamb` refuse to overwrite; `reset` installs the default table.
- **Built-ins.** Arithmetic with complex promotion, the unary numeric procedures, and the list procedures `list first rest length append join range`. Each has its exact arity and type errors.
- **Evaluator.** Leaf lookup, `begin`, `define`, `lambda`, `apply`/`map`, the property forms, and generic application. Closures are called with a save / bind / evaluate / unbind / restore protocol over the one shared table.
- **Scanner.** Text becomes parentheses, string delimiters and strings. It handles `;` comments and quoted strings.
- **Consumer loop.** Lines are read one at a time. `%stop`, `%reset` and `%exit` end the loop and `%start` is ignored. Every other line gets exactly one answer: a value or an error message.

How the model is built:

- Everything is pure. An evaluation step takes the table and returns the table as it stands afterwards, with a value or an error (`Evaluator.Out`). So the bindings an error leaves behind are kept, as in the source, which throws without cleaning up.
- A semantic error carries a message kind (`Results.Msg`). `Results.Text` spells each kind exactly as the source's message, and the consumer loop uses that text. Most built-in messages share a pattern that names the procedure, such as `CallArity("range")`.
- Numbers are `real` and complex numbers are pairs of reals (`Externals.Cx`).
- The floating-point library, the IEEE results of division by zero and the plot builders are fields of a `Host` record, passed as a parameter (externals.dfy). Every property holds for every choice of them.
- Evaluation can recurse without bound through closures, so `Eval` takes a fuel argument. Running out gives the model-only error `Exhausted`.

Modules, by file:

| file | module | models |
|---|---|---|
| results.dfy | `Results` | the two kinds of failure (semantic errors and fuel exhaustion) and the error messages |
| values.dfy | `Values` | expressions, equality, properties, printing |
| externals.dfy | `Externals` | host numerics and plot builders |
| environment.dfy | `Environment` | the symbol table and `reset` |
| builtins.dfy | `Builtins` | the 22 built-in procedures |
| builtin_laws.dfy | `BuiltinLaws` | laws relating the built-ins |
| evaluator.dfy | `Evaluator` | `eval`, the special forms, closures, `apply`, `map` |
| evaluator_laws.dfy | `EvaluatorLaws` | laws of the evaluator |
| tokenizer.dfy | `Tokenizer` | the scanner |
| consumer.dfy | `ConsumerLoop` | the consumer thread's loop |

## Model

| member | source | states |
|---|---|---|
| Results.Text | expression.cpp:192-1073 | the text of each semantic error, verbatim as the source throws it: the evaluator's messages here, the form-not-procedure message of expression.cpp:1069-1074, and through `CallText` and `Attempt` those of environment.cpp; every message starts with the `E` of `Error`, except the two table messages, which start with the `A` of `Attempt` |
| Results.CallText | environment.cpp:46-888 | helper for Text: the `Error in call to <procedure>…` messages of the built-ins and of `apply` and `map` (and set-property's, expression.cpp:459-479), each starting with `E` |
| Results.DuringText | expression.cpp:192-436 | helper for Text: the `Error during evaluation: …` messages of lookup, `define`, `lambda` and calls, each starting with `E` |
| Results.Attempt | environment.cpp:935-1008 | helper for Text: the two `Attempt to …` messages of `add_exp` and `add_lamb`, starting with `A` |
| Values.Strip | expression.cpp:1207-1222 | stripping every property map keeps each head and tail length and empties the map |
| Values.Equal | expression.cpp:1207-1222 | `==` on expressions: same head, same number of children, children pairwise equal, property maps ignored; every expression equals itself |
| Values.EqualIffSameStripped | expression.cpp:1207-1222 | two expressions are `==` exactly when they agree once all property maps are dropped: equality compares heads and tails only |
| Values.EqualIsEquivalence | expression.cpp:1207-1222 | expression equality is reflexive, symmetric and transitive |
| Values.SetProperty | expression.cpp:448-463 | `set-property` needs three arguments with a symbol key; the result equals the target, holds the new entry, and keeps the target's other entries |
| Values.GetProperty | expression.cpp:465-483 | `get-property` needs two arguments with a symbol key; a present key gives the stored value and a missing key gives None |
| Values.GetAfterSet | expression.cpp:448-483 | reading back a key just set gives the stored value |
| Values.Render | expression.cpp:1142-1205 | the printed form of an expression: a complex number, and an atom whose symbol contains `Error`, go to the atom printer alone; a `List` is enclosed in parentheses |
| Values.RenderRespectsEqual | expression.cpp:1142-1205 | equal expressions print the same text |
| Values.RenderList | expression.cpp:1150-1165 | a `List` prints as its items between parentheses, separated by single spaces |
| Values.RenderClosure | expression.cpp:1166-1181 | a closure prints as `(` parameters, a space, the body, `)` |
| Values.RenderNone | expression.cpp:1182-1184 | the None expression prints as `NONE` |
| Values.RenderApplication | expression.cpp:1185-1201 | any other expression (a number, string or symbol head with its children) prints as `(`, the head atom, a space only when there are children, the children's texts separated by single spaces, and `)` |
| Values.RenderLeaf | expression.cpp:1185-1201 | so a lone number, string or plain symbol prints as its atom in parentheses, `(1)` |
| Values.RenderError | expression.cpp:1146-1148 | an expression whose head symbol contains `Error` prints as the bare head atom; its children are not printed |
| Environment.SlotKindsExclusive | environment.cpp:905-998 | a name is at most one of value, built-in and closure, and each kind implies the name is known; with one slot per name this holds by the slot type itself |
| Environment.GetExp | environment.cpp:918-930 | `get_exp` returns the stored value, or None when the slot is not a value |
| Environment.GetLamb | environment.cpp:986-998 | `get_lamb` returns the stored closure, or None when the slot is not a closure |
| Environment.GetProc | environment.cpp:960-970 | `get_proc` returns the stored built-in exactly when the slot holds one; otherwise the default procedure |
| Environment.GetSpec | environment.cpp:972-976 | `get_spec` returns the stored special procedure |
| Environment.IsKnown | environment.cpp:905-909 | helper for SlotKindsExclusive: `is_known`, a symbol with any slot |
| Environment.IsExp | environment.cpp:911-916 | helper for SlotKindsExclusive: `is_exp`, a symbol with a value slot |
| Environment.IsProc | environment.cpp:952-958 | helper for SlotKindsExclusive: `is_proc`, a symbol with a built-in slot |
| Environment.IsLamb | environment.cpp:978-984 | helper for SlotKindsExclusive: `is_lamb`, a symbol with a closure slot |
| Environment.AddSlot | environment.cpp:932-944 | adding fails for a non-symbol or a name already present in any kind of slot; on success exactly that one key is added and nothing else changes |
| Environment.AddExp | environment.cpp:932-944 | `add_exp`: adding a value succeeds exactly for a fresh symbol; exactly that key is added |
| Environment.AddLamb | environment.cpp:1000-1012 | `add_lamb`: adding a closure succeeds exactly for a fresh symbol; exactly that key is added |
| Environment.RmExp | environment.cpp:946-950 | `rm_exp` deletes exactly that key |
| Environment.AddThenRemove | environment.cpp:932-950 | adding a binding and removing it gives back the table |
| Environment.RemoveThenAdd | environment.cpp:932-950 | removing a value binding and adding it back gives back the table |
| Environment.Install | environment.cpp:1037-1111 | entering built-ins one after another under their names: every entry is a built-in stored under its own name, and every built-in entered is in the table |
| Environment.InstallEntries | environment.cpp:1018-1111 | every entry the installation loop makes is a built-in under its own name |
| Environment.InstallFinds | environment.cpp:1018-1111 | every built-in installed can be found under its own name |
| Environment.ConstantTable | environment.cpp:1022-1035 | the five constants `pi`, `-pi`, `e`, `I` and `-I`, each a property-free number or complex leaf held as a value |
| Environment.DefaultEnv | environment.cpp:1018-1111 | the table `reset` builds: its values are exactly the constants, it holds no closure, and each built-in sits under its own name |
| Environment.DefaultEnvBuiltins | environment.cpp:1018-1111 | `reset` installs each of the 22 built-ins under its name |
| Environment.DefaultEnvSpecials | environment.cpp:1018-1111 | `reset` installs `lambda`, `apply` and `map` as special procedures |
| Environment.DefaultEnvConstants | environment.cpp:894-898 | `reset` binds `pi`, `-pi`, `e`, `I` and `-I` to their values |
| Environment.DefaultEnvOnly | environment.cpp:1018-1111 | nothing else is installed: every entry is a built-in, a special procedure or a constant |
| Environment.BuiltinNamesDistinct | environment.cpp:1018-1111 | the 22 built-in names are pairwise distinct, so none shadows another |
| Environment.BuiltinListed | environment.cpp:1018-1111 | every built-in is in the installed list, and no built-in name is a special procedure's name |
| Environment.ConstantNotBuiltin | environment.cpp:1018-1111 | no constant name is a built-in name |
| Builtins.CDivThenMul | environment.cpp:137-184 | complex division by a non-zero divisor is undone by multiplying by it |
| Builtins.Reals | environment.cpp:32-82 | the real operands in order |
| Builtins.CSum | environment.cpp:32-57 | helper for Add and CSumOfReals: the complex running sum of `add`'s loop, from 0, one operand at a time |
| Builtins.CProduct | environment.cpp:59-84 | helper for Mul and CProductOfReals: the complex running product of `mul`'s loop, from 1, one operand at a time |
| Builtins.Quotient | environment.cpp:137-184 | helper for Div: the two-operand quotient, real for two reals (the host's value for a zero divisor), complex otherwise (the host's value for a zero-norm divisor) |
| Builtins.Add | environment.cpp:32-57 | `+` takes any number of numeric arguments; the result is complex exactly when some operand is; any non-numeric argument is the add error |
| Builtins.Mul | environment.cpp:59-84 | `*` takes any number of numeric arguments; the result is complex exactly when some operand is; any non-numeric argument is the mul error |
| Builtins.SubNeg | environment.cpp:86-135 | `-` negates one argument or subtracts two; the result is complex exactly when an operand is; other counts and non-numbers give their errors |
| Builtins.Div | environment.cpp:137-184 | `/` takes one or two numeric arguments; for reals with a non-zero divisor it is the real quotient, and for one real the reciprocal; errors otherwise |
| Builtins.Sqrt | environment.cpp:186-226 | square root of one number: real for a non-negative real, the source's complex rule for a negative real, the host's complex root otherwise |
| Builtins.Expo | environment.cpp:228-264 | `^` takes two numeric arguments, complex exactly when one is complex, the host power for reals |
| Builtins.RealUnary | environment.cpp:291-346 | `sin`, `cos` and `tan` take exactly one real, with the arity and type errors |
| Builtins.Ln | environment.cpp:266-289 | `ln` succeeds exactly on one positive real; a non-positive real is the "must be positive" error |
| Builtins.ComplexUnary | environment.cpp:348-431 | `real`, `imag`, `mag`, `arg` and `conj` take exactly one complex number, with the arity and type errors |
| Builtins.MakeList | environment.cpp:433-441 | `list` gives a `List` of exactly its arguments, in order |
| Builtins.First | environment.cpp:443-465 | `first` needs one non-empty `List` and gives its item 0 |
| Builtins.Rest | environment.cpp:467-490 | `rest` needs one non-empty `List` and gives the remaining items in order |
| Builtins.Length | environment.cpp:492-509 | `length` needs one `List` and gives its item count |
| Builtins.Appended | environment.cpp:511-539 | what `append` adds: a `List` as one nested item, a non-symbol atom as one item, nothing for any other value |
| Builtins.Append | environment.cpp:511-539 | `append` needs two arguments, the first a `List`; the result keeps the first list's items and adds, as its last item, a second `List` nested whole or a non-symbol atom, and nothing for any other value |
| Builtins.Join | environment.cpp:541-567 | `join` needs two `List`s and gives their in-order concatenation |
| Builtins.RangeCount | environment.cpp:569-600 | the number of values `range` produces |
| Builtins.RangeBound | environment.cpp:569-600 | `start + k*step` stays within `end` exactly for the first `RangeCount` values of `k` |
| Builtins.RangeValues | environment.cpp:569-600 | the values of `range`, one per step |
| Builtins.Range | environment.cpp:569-600 | `range` succeeds exactly on three reals with start < end and step > 0, and gives its values; each failure has its own message |
| Builtins.RangeLoop | environment.cpp:579-581 | the source's accumulating loop produces exactly the values of `range` |
| Builtins.CallBuiltin | environment.cpp:1018-1111 | a built-in can only fail with a semantic error, never by running out of fuel |
| Builtins.CallArithmetic | environment.cpp:32-264 | the arithmetic built-ins can only fail with semantic errors |
| Builtins.CallUnary | environment.cpp:266-431 | the unary numeric built-ins can only fail with semantic errors |
| Builtins.CallListProcedure | environment.cpp:433-600 | the list built-ins can only fail with semantic errors |
| BuiltinLaws.RealSumSnoc | environment.cpp:32-57 | the running real sum over one more operand adds it |
| BuiltinLaws.RealProductSnoc | environment.cpp:59-84 | the running real product over one more operand multiplies by it |
| BuiltinLaws.CSumOfReals | environment.cpp:32-57 | on real operands the complex running sum has no imaginary part and its real part is the plain sum |
| BuiltinLaws.AddOfReals | environment.cpp:32-57 | `+` of reals is their sum, a real number |
| BuiltinLaws.CProductOfReals | environment.cpp:59-84 | on real operands the complex running product is the plain product |
| BuiltinLaws.RealTimesReal | environment.cpp:59-84 | helper for `MulOfReals`: complex multiplication of two reals is real multiplication |
| BuiltinLaws.MulOfReals | environment.cpp:59-84 | `*` of reals is their product, a real number |
| BuiltinLaws.AllNumericConcat | environment.cpp:32-57 | the operands of a concatenation are all numeric exactly when both parts' are |
| BuiltinLaws.AnyComplexConcat | environment.cpp:32-57 | a concatenation has a complex operand exactly when one part does |
| BuiltinLaws.CSumConcat | environment.cpp:32-57 | the sum over a concatenation is the sum of the two sums |
| BuiltinLaws.AddOrderIndependent | environment.cpp:32-57 | `+` gives the same result, or the same error, for its operands in either order |
| BuiltinLaws.SubtractIsAddNegated | environment.cpp:86-135 | `(- a b)` equals `(+ a (- b))` |
| BuiltinLaws.SumWithNegation | environment.cpp:86-135 | helper for `SubtractIsAddNegated`: adding a negation is subtraction, on complex numbers |
| BuiltinLaws.NegateTwice | environment.cpp:86-135 | negating twice gives back the operand |
| BuiltinLaws.DivideThenMultiply | environment.cpp:59-184 | `(* (/ a b) b)` is `a` for reals with `b` non-zero |
| BuiltinLaws.QuotientTimesDivisor | environment.cpp:137-184 | helper for `DivideThenMultiply`: real division by a non-zero divisor is undone by multiplication |
| BuiltinLaws.DivideThenMultiplyComplex | environment.cpp:59-184 | complex division by a non-zero divisor is undone by complex multiplication |
| BuiltinLaws.ConjugateTwice | environment.cpp:416-431 | `conj` twice gives back the operand |
| BuiltinLaws.RealImagRebuild | environment.cpp:348-380 | `real` and `imag` together recover the complex number |
| BuiltinLaws.FirstJoinRest | environment.cpp:433-567 | a non-empty list is `(join (list (first l)) (rest l))` |
| BuiltinLaws.LengthOfJoin | environment.cpp:492-567 | the length of a join is the sum of the lengths |
| BuiltinLaws.AppendThenLast | environment.cpp:511-539 | appending a non-symbol atom adds it as the last item |
| BuiltinLaws.AppendNestsJoinSplices | environment.cpp:511-567 | `append` of a list nests it as one item, while `join` splices its items |
| BuiltinLaws.RangeBetween | environment.cpp:569-600 | `range` starts at start, never passes end, and one more step would pass it |
| BuiltinLaws.RangeSteps | environment.cpp:569-600 | consecutive values of `range` differ by the step |
| BuiltinLaws.NextMultiple | environment.cpp:579-581 | helper for `RangeSteps`: one more step adds the step |
| Evaluator.Lookup | expression.cpp:272-290 | a leaf looks up to its value binding, a string literal to itself, a number to itself; any other symbol is unknown, and any other atom an invalid terminal |
| Evaluator.ParamHeads | expression.cpp:406-446 | the parameters are the head of the first child followed by that child's children |
| Evaluator.MakeClosure | expression.cpp:406-446 | `lambda` succeeds exactly with two children whose parameters are all symbols, none special or built-in; the closure is a property-free `lambda` expression whose first child is the `List` of those parameters and whose second is the body; each failure has its message |
| Evaluator.Bind | expression.cpp:213-229 | the corrected binding loop (see Findings) never touches built-ins, special procedures or closures |
| Evaluator.BindAsWritten | expression.cpp:213-229 | the source's binding loop never touches built-ins, special procedures or closures |
| Evaluator.Unbind | expression.cpp:245-248 | unbinding the parameters never touches built-ins, special procedures or closures |
| Evaluator.Restore | expression.cpp:250-252 | restoring succeeds exactly when no saved name is present, and gives the table with the saved values added |
| Evaluator.BindKeepsInv | expression.cpp:213-229 | the corrected binding loop (see Findings) keeps: bound names hold values, other names are untouched, and exactly the earlier values are saved |
| Evaluator.UnbindRemovesNames | expression.cpp:245-248 | unbinding removes exactly the parameter names |
| Evaluator.BindThenRestore | expression.cpp:213-253 | for the corrected binding loop (see Findings), a successful bind, then unbind, then restore gives back the table the call started from |
| Evaluator.CallProc | environment.cpp:27-30 | calling the default procedure gives None; calling a built-in runs it |
| Evaluator.MapProc | environment.cpp:716-737 | mapping a built-in succeeds exactly when every single-item call does, with one result per item in order |
| Evaluator.Eval | expression.cpp:1052-1117 | evaluation never removes or changes a built-in, special procedure or closure binding; closure calls use the corrected binding (see Findings) |
| Evaluator.EvalArgs | expression.cpp:1097-1101 | evaluating arguments keeps every procedure binding and gives one value per argument |
| Evaluator.HandleBegin | expression.cpp:292-307 | `begin` keeps every procedure binding |
| Evaluator.HandleDefine | expression.cpp:310-404 | `define` needs two arguments (arity message) and a symbol target (non-symbol message); a target named `define`, `begin` or `lambda` is the special-form refusal and a built-in's name the built-in refusal, both leaving the table; afterwards the name holds the result; a `lambda` right-hand side needs a fresh name and adds exactly that binding; any right-hand side other than `lambda` and `set-property` needs the name to be unbound once it has been evaluated, and adds exactly that binding |
| Evaluator.DefineLambda | expression.cpp:335-375 | `define` with a `lambda` right-hand side adds exactly the new closure binding under a fresh name, and leaves the table unchanged when it fails |
| Evaluator.DefineValue | expression.cpp:377-403 | `define` with any other right-hand side keeps every procedure binding; a failing right-hand side is passed on; otherwise a name still bound after the evaluation is the overwrite error and an unbound one gets exactly the value added, except that a `set-property` right-hand side replaces a value binding |
| Evaluator.EvalBodies | expression.cpp:1119-1131 | a body that succeeds leaves the table exactly as it found it, definitions inside included |
| Evaluator.CallClosureAll | expression.cpp:203-259 | a closure call with the wrong number of arguments is the arity error; with the corrected binding a successful call leaves the table exactly as before |
| Evaluator.CallClosure | expression.cpp:203-259 | with the corrected binding a successful closure call leaves the table as before |
| Evaluator.MapClosure | environment.cpp:738-878 | mapping a closure without parameters gives nothing; one with several parameters over a non-empty list is the arity error; a success leaves the table as before |
| Evaluator.MapClosureLength | environment.cpp:738-878 | a successful mapping of a closure with parameters has one result per item and body |
| Evaluator.MapClosureItems | environment.cpp:738-808 | mapping a closure with parameters calls it on each item alone from the same table: the map succeeds exactly when every call does, gives the calls' values end to end in item order, and otherwise ends as the first failing call |
| Evaluator.MapClosureOneBody | environment.cpp:738-808 | for a closure with one body, as `lambda` builds, a successful map has one value per item, the i-th being the closure's value on the i-th item alone |
| Evaluator.SpecialApply | environment.cpp:609-706 | `apply` needs two arguments, a built-in or closure first and a `list` form second, with the message for each failure |
| Evaluator.SpecialMap | environment.cpp:708-892 | `map` needs two arguments and a built-in or closure first; a built-in needs a `list` form, a closure a `list`, `List` or `range` form, each with the second-argument message otherwise; a success is a `List` |
| Evaluator.ApplyOp | expression.cpp:188-270 | a non-symbol operator is rejected; a built-in is called on the arguments; a symbol naming no procedure is rejected; with the corrected binding a closure call that succeeds leaves the table unchanged |
| EvaluatorLaws.DefaultsSurvive | environment.cpp:1018-1111 | after any evaluation from the default table, every built-in and special procedure is still installed |
| EvaluatorLaws.NumberSelfEvaluates | expression.cpp:272-290 | a number evaluates to itself |
| EvaluatorLaws.LeafEvaluation | expression.cpp:1054-1056 | a leaf evaluates to its value binding, a string literal to itself, and any other symbol to the unknown-symbol error |
| EvaluatorLaws.LeafValue | expression.cpp:272-290 | a leaf naming a value binding evaluates to that value |
| EvaluatorLaws.EmptyBeginIsLookup | expression.cpp:1054-1056 | `(begin)` is looked up as a symbol, so it fails as an unknown symbol |
| EvaluatorLaws.BeginGivesLast | expression.cpp:292-307 | `begin` evaluates its children in order and gives the last value |
| EvaluatorLaws.BeginSingle | expression.cpp:292-307 | `(begin e)` is `e` |
| EvaluatorLaws.DefineDispatch | expression.cpp:310-404 | `(define x rhs)` with an admissible `x` is the closure branch when `rhs` is a `lambda` form and the value branch otherwise |
| EvaluatorLaws.DefineThenLookup | expression.cpp:310-404 | a name bound by `define` then evaluates to the bound value |
| EvaluatorLaws.DefineLambdaBindsClosure | expression.cpp:332-373 | `define` with a `lambda` binds the name to exactly the closure it returns and adds nothing else |
| EvaluatorLaws.DefineRefusesBoundName | expression.cpp:310-404 | `(define x rhs)` with any right-hand side other than `lambda` and `set-property`: a built-in's name is refused before anything is evaluated; otherwise a failing right-hand side is passed on, a name still bound afterwards is the overwrite error, and an unbound one gets exactly the value |
| EvaluatorLaws.DefineNumberRefused | environment.cpp:932-944 | redefining a value binding with a number is the overwrite error and leaves the table unchanged |
| EvaluatorLaws.DefineRefusesProcedureName | expression.cpp:310-404 | a name holding a closure, a built-in or a special procedure can never be redefined, whatever the right-hand side |
| EvaluatorLaws.SetPropertyRebinds | expression.cpp:377-394 | a `set-property` right-hand side may replace an existing value binding |
| EvaluatorLaws.SetPropertyValue | expression.cpp:377-394 | the value branch with a `set-property` right-hand side replaces the name's value binding |
| EvaluatorLaws.CallEvaluatesArgumentsFirst | expression.cpp:1097-1115 | a procedure call evaluates all its arguments, left to right, before dispatch; an argument error stops it |
| EvaluatorLaws.ProcedureArgumentChecked | expression.cpp:1069-1074 | `apply` and `map` refuse a call form other than `lambda` as first argument, before evaluating anything |
| EvaluatorLaws.BuiltinNameNotForm | environment.cpp:1018-1111 | no built-in is named like a special form |
| EvaluatorLaws.ApplyIsCall | environment.cpp:609-650 | `(apply f (list es...))` with a built-in `f` is the call `(f es...)` |
| EvaluatorLaws.SpecialDispatch | expression.cpp:1069-1081 | `(apply f x)` and `(map f x)` with a leaf `f` go, unevaluated, to the special procedure of that name |
| EvaluatorLaws.MapIsPointwise | environment.cpp:716-737 | `(map f (list es...))` with a built-in is the `List` of `f` on each item alone, and fails exactly when one of those calls does |
| EvaluatorLaws.MapOfBuiltin | environment.cpp:708-737 | `map` over a built-in and a `list` form evaluates the items and maps the built-in over them |
| EvaluatorLaws.MapClosureIsPointwise | environment.cpp:738-808 | `map` with a one-body closure over a `list` or `List` form evaluates the items, then succeeds exactly when the closure succeeds on every item alone, giving the `List` of those values in item order |
| EvaluatorLaws.MapClosureOverRange | environment.cpp:809-870 | `map` with a one-body closure over a `range` form computes the range from its unevaluated arguments, passes on its error, and otherwise gives the closure's value on each range value, in order |
| EvaluatorLaws.CallBindsParameter | expression.cpp:203-259 | calling a one-parameter closure evaluates the body with the parameter bound to the argument |
| EvaluatorLaws.ClosureCallRestoresEnv | expression.cpp:203-259 | with the corrected binding a successful closure call leaves the table exactly as before and gives the bodies' values |
| EvaluatorLaws.BindAgreesOnDistinct | expression.cpp:213-229 | with distinct parameter names the source's binding loop and the corrected one agree |
| EvaluatorLaws.DuplicateParameterLeaksBinding | expression.cpp:213-253 | with the source's loop, a call to `(lambda (x x) ...)` in a table without `x` leaves `x` bound to the first argument |
| EvaluatorLaws.DuplicateParameterRestored | expression.cpp:213-253 | with the corrected loop, the same call leaves the table empty |
| Tokenizer.Feed | token.cpp:50-89 | the scanning loop over a whole input: tokens already emitted are kept as a prefix, and at most two are added per character |
| Tokenizer.Step | token.cpp:54-88 | one character of the scanning loop: tokens are only appended, at most two per character (a flush and a parenthesis or delimiter), and inside a comment only the comment flag can change |
| Tokenizer.Tokenize | token.cpp:44-93 | scanning a whole input and flushing what is pending at the end never gives an empty string token |
| Tokenizer.TokenText | token.cpp:21-33 | `asString` gives the string's text, or one character that tells `(`, `)` and the delimiter apart |
| Tokenizer.Flush | token.cpp:36-42 | pending text becomes one string token only when it is not empty |
| Tokenizer.FeedConcat | token.cpp:50-89 | scanning two texts in turn is scanning their concatenation |
| Tokenizer.TokenizeLoop | token.cpp:44-93 | the character loop produces exactly the tokens of the scanner |
| Tokenizer.FeedNoEmptyText | token.cpp:36-42 | the scanning loop never emits an empty string token |
| Tokenizer.NoEmptyStrings | token.cpp:36-42 | no string token is empty |
| Tokenizer.FeedSpaceFree | token.cpp:83-88 | on an input without any quote the loop never puts whitespace into a token |
| Tokenizer.SpacesSeparate | token.cpp:83-85 | on an input without any quote, no string token contains whitespace |
| Tokenizer.StepInv | token.cpp:61-88 | each step keeps: a literal is open exactly after an odd number of delimiters, text pending outside a literal has no whitespace, and only tokens inside literals hold whitespace |
| Tokenizer.FeedInv | token.cpp:50-89 | the whole loop keeps the same invariant, for every input |
| Tokenizer.SpacesOnlyInLiterals | token.cpp:69-90 | for every input, a string token holding whitespace has an odd number of delimiters before it, so it lies inside a string literal |
| Tokenizer.FeedComment | token.cpp:54-60 | inside a comment every character up to the newline is dropped |
| Tokenizer.CommentInvisible | token.cpp:54-60 | a comment up to its newline changes nothing; it does not even separate tokens |
| Tokenizer.TrailingCommentInvisible | token.cpp:54-60 | a comment running to the end of the input changes nothing |
| Tokenizer.FeedQuoted | token.cpp:69-88 | inside a string literal every character, whitespace included, is kept |
| Tokenizer.QuotedString | token.cpp:69-82 | a quoted text without parentheses or comments gives a delimiter, one string with both quotes, and a delimiter |
| Tokenizer.CountTokenSnoc | token.cpp:61-67 | helper for `StepCounts`: counting tokens over one more token |
| Tokenizer.CountCharSnoc | token.cpp:61-67 | helper for `FeedCounts`: counting characters over one more character |
| Tokenizer.StepCounts | token.cpp:61-67 | one step emits an OPEN (CLOSE) token exactly for `(` (`)`) outside a comment |
| Tokenizer.FlushCounts | token.cpp:36-42 | flushing adds no parenthesis token |
| Tokenizer.FeedCounts | token.cpp:61-67 | without comments, the loop emits one OPEN per `(` and one CLOSE per `)` |
| Tokenizer.CountCharPrefix | token.cpp:61-67 | helper for `FeedCounts`: character counts add over concatenation |
| Tokenizer.ParensEmitTokens | token.cpp:61-67 | without comments, every `(` and `)` gives exactly one OPEN or CLOSE token, inside quotes too |
| Tokenizer.TokenizeCounts | token.cpp:61-67 | without comments, the OPEN (CLOSE) tokens of a whole input are exactly as many as its `(` (`)`) characters |
| Tokenizer.TextOfSnoc | token.cpp:86-88 | helper for `FeedKeepsText`: the text of one more token is appended |
| Tokenizer.FeedKeepsText | token.cpp:50-89 | for every input and starting state, the loop adds to the text exactly the characters `KeptIn` keeps, in order |
| Tokenizer.FlushKeepsText | token.cpp:36-42 | flushing moves the pending text into the tokens unchanged |
| Tokenizer.StepKeepsText | token.cpp:54-88 | one step changes the literal and comment modes as a quote, `;` and a newline say, and adds to the text just what `KeptChar` keeps |
| Tokenizer.TextInOrder | token.cpp:44-93 | for every input, the string tokens hold, in input order, every character outside comments except parentheses and the whitespace between literals |
| Tokenizer.KeptPlain | token.cpp:83-88 | without quotes or comments, the kept text is the input less whitespace and parentheses |
| Tokenizer.PlainTextInOrder | token.cpp:83-90 | without quotes or comments, the string tokens hold the input's characters less whitespace and parentheses, in order |
| Tokenizer.FeedWord | token.cpp:86-88 | a plain word is added to the pending text |
| Tokenizer.FeedUnlex | token.cpp:61-88 | scanning written-out parentheses and plain words gives them back |
| Tokenizer.FeedToken | token.cpp:61-88 | a parenthesis or a plain word followed by a space, scanned outside quotes and comments, adds exactly that one token |
| Tokenizer.UnlexThenTokenize | token.cpp:21-93 | writing tokens out with `asString` and spaces, then scanning, gives the same tokens |
| ConsumerLoop.IsStop | consumer.hpp:26 | helper for Run: `%stop`, `%reset` and `%exit` end the loop |
| ConsumerLoop.Respond | consumer.hpp:31-49 | a line that does not parse gives the parse error; otherwise the value, or the semantic error's message as a symbol |
| ConsumerLoop.Run | consumer.hpp:22-52 | the loop stops only on a control word, takes no line after it, and, if it was never stopped, answers every line except `%start` |
| ConsumerLoop.Consume | consumer.hpp:22-52 | the loop as written produces exactly what `Run` states |
| ConsumerLoop.LaterInputUnread | consumer.hpp:26-28 | once the loop has ended, input that follows is never read |
| ConsumerLoop.RunConcat | consumer.hpp:22-52 | a run over two inputs is the first run followed by the second, so outputs keep input order |
| ConsumerLoop.ConcatStep | consumer.hpp:22-52 | one line of the concatenation law |
| ConsumerLoop.ConcatStart | consumer.hpp:29 | the concatenation law survives a leading `%start` |
| ConsumerLoop.ConcatAnswer | consumer.hpp:30-49 | the concatenation law survives a leading answered line |
| ConsumerLoop.StartStep | consumer.hpp:29 | a `%start` line is taken without output |
| ConsumerLoop.AnswerStep | consumer.hpp:30-49 | an answered line puts its answer first |
| ConsumerLoop.StartIsSilent | consumer.hpp:29 | `%start` produces no output and changes nothing |
| ConsumerLoop.ParseFailureReported | consumer.hpp:35-37 | a line that does not parse is answered with the parse error and the loop goes on |
| ConsumerLoop.SemanticErrorReported | consumer.hpp:44-47 | a line whose evaluation fails is answered with the error message and the loop goes on |

## Left out

- Plot geometry (`discrete-plot` and `continuous-plot`, with points, lines and text) is left out. It is floating-point scaling and formatting. Both forms pass their arguments to a host builder. `continuous-plot` gets its first argument unevaluated, and the builder's own use of the table is not modelled.
- Transcendental functions are uninterpreted host functions: `sqrt`, `^` and complex power, `ln`, `sin`/`cos`/`tan`, `mag`, `arg`. Only their arity, type and domain checks are proved. The complex reciprocal `(/ z)` is the host's complex power with exponent -1, as in the source.
- IEEE arithmetic is not modelled. Reals are exact. A real division by zero gives the host's value. A complex divisor counts as zero when its squared norm is zero. So `range` is computed with exact reals, and the count of its values is exact where the source accumulates rounding.
- Builtins.Sqrt: the result for negative reals other than -1 is `sqrt(-x)` plus `1i`, as the source writes it (environment.cpp:200-205). The model follows the code, not the mathematical square root.
- The parser and `Interpreter` are not part of this model. The consumer takes parsing and evaluation as parameters; `ConsumerLoop.ModelEvaluate` plugs in this model's `Eval`. How an error message becomes an atom (a symbol here) is not shown in the source.
- Threads and the message queues are left out; the queues are plain sequences. The loop on finite input ends by running out of lines, where the real loop would wait for more.
- The fuel bound is a modelling device. `Eval` gives up with `Exhausted` after a fixed number of nested steps. The consumer stops when that happens, and no property is claimed about programs that need more fuel.
- Restoring after a closure call is all or nothing (`Restore`). The source adds saved bindings one at a time, and could fail half-way. With the corrected binding it never fails (`BindThenRestore`).
- Evaluator.Bind: the evaluator binds closure arguments with the corrected loop of "## Findings", not the source's `BindAsWritten`. The two differ only when a closure repeats a parameter name; `EvaluatorLaws.BindAgreesOnDistinct` proves they agree otherwise.
- Evaluator.CallClosureAll: a successful call gives the table back exactly only because it uses the corrected binding. In the source a closure with a repeated parameter name leaves that name bound after the call (`EvaluatorLaws.DuplicateParameterLeaksBinding`). For distinct names the source behaves as modelled.
- Evaluator.BindKeepsInv: "exactly the earlier values are saved" holds for the corrected loop only. The source's loop (`BindAsWritten`) also saves, for a repeated parameter name, the value the same call bound a moment earlier.
- Evaluator.BindThenRestore: the table is given back for the corrected loop only. With the source's loop a repeated parameter name stays bound after restoring (`EvaluatorLaws.DuplicateParameterLeaksBinding`).
- Evaluator.CallClosure: the same restoration claim holds for the corrected binding only, as for `Evaluator.CallClosureAll`.
- Evaluator.ApplyOp: a successful closure call leaves the table unchanged only under the corrected binding, as for `Evaluator.CallClosureAll`.
- Evaluator.Eval: closure calls everywhere in evaluation use the corrected binding. So for `(begin (define f (lambda (x x) x)) (f 1 2) x)` the model gives the unknown-symbol error where the source gives 1.
- EvaluatorLaws.ClosureCallRestoresEnv: restoration is proved for the corrected binding only. The source leaks a repeated parameter, as `EvaluatorLaws.DuplicateParameterLeaksBinding` shows.
- EvaluatorLaws.MapClosureIsPointwise: states the per-item values for a closure with one body, the only kind `lambda` builds (`Evaluator.MakeClosure`). `Evaluator.MapClosureItems` covers any number of bodies, with the values laid end to end.
- Closure bindings are not restored when a body fails: the source throws without cleanup. Restoration is stated for successful calls only.
- Evaluator.EvalBodies: a failing body leaves the table as the failure left it. The source's copy-and-restore is skipped by the exception.
- `apply` and `map` are dispatched by name, as in the source: a table where those names hold something else is not treated specially.
- `map` over a closure without parameters gives an empty list, and `map` over an empty list never fails. This follows the code (environment.cpp:761-800), even though the arity rule might suggest a failure.
- `handle_begin`'s None result for zero children cannot be reached. `(begin)` has an empty tail and is evaluated as a lookup (`EvaluatorLaws.EmptyBeginIsLookup`).
- C++ undefined behaviour is excluded by preconditions: `rm_exp` of a missing name, and `get_spec` of a missing name. `m_tail[0]` of an empty `apply`/`map` is unreachable in the model, because an empty tail is a lookup.
- The scanner reads Dafny characters, where token.cpp reads bytes and tests whitespace with C `isspace`. `IsSpace` is the C-locale set: space, tab, newline, carriage return, vertical tab and form feed. Multi-byte encodings are not modelled.
- Tokenizer.FeedSpaceFree: stated for inputs without any quote. Inside a literal whitespace is kept, and a parenthesis inside a literal splits it, so a token with whitespace need not start with a quote. The all-input statement is `Tokenizer.SpacesOnlyInLiterals`: such a token has an odd number of delimiters before it.
- Tokenizer.SpacesSeparate: stated for inputs without any quote; `Tokenizer.SpacesOnlyInLiterals` covers every input.
- Printing of atoms is a parameter of `Render`, since `Atom` printing is not part of this model.
- Presentation and I/O are left out: the REPL, the notebook GUI, and the property getters used only by it.

## Findings

| source | as written | input that shows it | evidently intended | confidence | as-written member | corrected member |
|---|---|---|---|---|---|---|
| expression.cpp:213-253 | each parameter that names a value has that value saved into a map, even when this same call bound it a moment earlier; after the call the saved values are added back | calling a closure made by `(lambda (x x) body)` with arguments `a0 a1` when `x` is unbound: afterwards `x` is bound to `a0` | a successful call leaves the table exactly as before the call | not executed; high for the table contents, since the map write and the restore loop are plain | EvaluatorLaws.DuplicateParameterLeaksBinding | EvaluatorLaws.DuplicateParameterRestored |

The corrected binding (`Evaluator.Bind`) saves a name only the first time the call binds it. It is the one the evaluator uses. `Evaluator.BindThenRestore` proves that the table is given back for every parameter list. `EvaluatorLaws.BindAgreesOnDistinct` proves the two loops agree whenever the parameter names are distinct.

=== FILE: builtin_laws.dfy ===
/** Laws the built-in procedures satisfy, each relating a procedure to an
    independent reference or to another procedure. */
module BuiltinLaws {
  import opened Results
  import opened Values
  import opened Externals
  import opened Builtins

  // ------------------------------------------------------------ arithmetic

  lemma {:induction false} RealSumSnoc(xs: seq<real>, x: real)
    ensures RealSum(xs + [x]) == RealSum(xs) + x
    decreases |xs|
  {
    if xs != [] {
      assert (xs + [x])[1..] == xs[1..] + [x];
      RealSumSnoc(xs[1..], x);
    } else {
      assert RealSum([x]) == x + RealSum([]);
    }
  }

  lemma {:induction false} RealProductSnoc(xs: seq<real>, x: real)
    ensures RealProduct(xs + [x]) == RealProduct(xs) * x
    decreases |xs|
  {
    if xs != [] {
      assert (xs + [x])[1..] == xs[1..] + [x];
      RealProductSnoc(xs[1..], x);
      assert xs[0] * (RealProduct(xs[1..]) * x) == (xs[0] * RealProduct(xs[1..])) * x;
    } else {
      assert RealProduct([x]) == x * RealProduct([]);
    }
  }

  /** On real operands the running sum has no imaginary part and its real
      part is the plain sum. */
  lemma {:induction false} CSumOfReals(args: seq<Expr>)
    requires AllReal(args)
    ensures AllNumeric(args) && CSum(args) == Cx(RealSum(Reals(args)), 0.0)
    decreases |args|
  {
    if args != [] {
      var init := args[..|args| - 1];
      CSumOfReals(init);
      assert Reals(args) == Reals(init) + [args[|args| - 1].head.num];
      RealSumSnoc(Reals(init), args[|args| - 1].head.num);
    }
  }

  /** `add` of real numbers is their sum. */
  lemma AddOfReals(args: seq<Expr>)
    requires AllReal(args)
    ensures Add(args) == Ok(Leaf(Number(RealSum(Reals(args)))))
  {
    CSumOfReals(args);
  }

  lemma {:induction false} CProductOfReals(args: seq<Expr>)
    requires AllReal(args)
    ensures AllNumeric(args) && CProduct(args) == Cx(RealProduct(Reals(args)), 0.0)
    decreases |args|
  {
    if args != [] {
      var init := args[..|args| - 1];
      var x := args[|args| - 1].head.num;
      CProductOfReals(init);
      assert Reals(args) == Reals(init) + [x];
      RealProductSnoc(Reals(init), x);
      RealTimesReal(RealProduct(Reals(init)), x);
    }
  }

  lemma RealTimesReal(p: real, x: real)
    ensures CMul(Cx(p, 0.0), Cx(x, 0.0)) == Cx(p * x, 0.0)
  {
  }

  /** `mul` of real numbers is their product. */
  lemma MulOfReals(args: seq<Expr>)
    requires AllReal(args)
    ensures Mul(args) == Ok(Leaf(Number(RealProduct(Reals(args)))))
  {
    CProductOfReals(args);
  }

  lemma AllNumericConcat(a: seq<Expr>, b: seq<Expr>)
    ensures AllNumeric(a + b) <==> AllNumeric(a) && AllNumeric(b)
  {
    if AllNumeric(a) && AllNumeric(b) {
      forall i | 0 <= i < |a + b| ensures IsNumeric((a + b)[i].head) {
        if i >= |a| { assert (a + b)[i] == b[i - |a|]; }
      }
    }
    if AllNumeric(a + b) {
      forall i | 0 <= i < |a| ensures IsNumeric(a[i].head) {
        assert (a + b)[i] == a[i];
      }
      forall i | 0 <= i < |b| ensures IsNumeric(b[i].head) {
        assert (a + b)[i + |a|] == b[i];
      }
    }
  }

  lemma AnyComplexConcat(a: seq<Expr>, b: seq<Expr>)
    ensures AnyComplex(a + b) <==> AnyComplex(a) || AnyComplex(b)
  {
    if AnyComplex(a + b) {
      var i :| 0 <= i < |a + b| && (a + b)[i].head.Complex?;
      if i >= |a| { assert b[i - |a|] == (a + b)[i]; }
    }
    if AnyComplex(b) {
      var i :| 0 <= i < |b| && b[i].head.Complex?;
      assert (a + b)[i + |a|] == b[i];
    }
    if AnyComplex(a) {
      var i :| 0 <= i < |a| && a[i].head.Complex?;
      assert (a + b)[i] == a[i];
    }
  }

  /** The running sum over a concatenation is the sum of the two sums. */
  lemma {:induction false} CSumConcat(a: seq<Expr>, b: seq<Expr>)
    requires AllNumeric(a) && AllNumeric(b)
    ensures AllNumeric(a + b) && CSum(a + b) == CAdd(CSum(a), CSum(b))
    decreases |b|
  {
    AllNumericConcat(a, b);
    if b == [] {
      assert a + b == a;
    } else {
      var init := b[..|b| - 1];
      assert (a + b)[..|a + b| - 1] == a + init;
      assert AllNumeric(init) by {
        forall i | 0 <= i < |init| ensures IsNumeric(init[i].head) {
          assert init[i] == b[i];
        }
      }
      CSumConcat(a, init);
    }
  }

  /** `add` does not depend on the order of its operands. */
  lemma AddOrderIndependent(a: seq<Expr>, b: seq<Expr>)
    ensures Add(a + b) == Add(b + a)
  {
    AllNumericConcat(a, b);
    AllNumericConcat(b, a);
    AnyComplexConcat(a, b);
    AnyComplexConcat(b, a);
    if AllNumeric(a) && AllNumeric(b) {
      CSumConcat(a, b);
      CSumConcat(b, a);
    }
  }

  /** Subtraction is addition of the negation. */
  lemma SubtractIsAddNegated(a: Expr, b: Expr)
    requires IsNumeric(a.head) && IsNumeric(b.head)
    ensures Add([a, SubNeg([b]).value]) == SubNeg([a, b])
  {
    var n := SubNeg([b]).value;
    assert AnyComplex([a, n]) <==> a.head.Complex? || b.head.Complex? by {
      if a.head.Complex? { assert [a, n][0] == a; }
      if n.head.Complex? { assert [a, n][1] == n; }
    }
    assert [a, n][..1] == [a];
    assert [a][..0] == [];
    assert CSum([a]) == CAdd(Cx(0.0, 0.0), AsCx(a.head));
    assert CSum([a, n]) == CAdd(CSum([a]), AsCx(n.head));
    assert AsCx(n.head) == CNeg(AsCx(b.head));
    SumWithNegation(AsCx(a.head), AsCx(b.head));
  }

  lemma SumWithNegation(x: Cx, y: Cx)
    ensures CAdd(CAdd(Cx(0.0, 0.0), x), CNeg(y)) == CSub(x, y)
  {
  }

  /** Negating twice gives back the operand. */
  lemma NegateTwice(a: Expr)
    requires IsNumeric(a.head)
    ensures SubNeg([SubNeg([a]).value]) == Ok(Leaf(a.head))
  {
  }

  /** Division by a non-zero real undoes multiplication by it. */
  lemma DivideThenMultiply(h: Host, a: real, b: real)
    requires b != 0.0
    ensures Mul([Div(h, [Leaf(Number(a)), Leaf(Number(b))]).value, Leaf(Number(b))]) == Ok(Leaf(Number(a)))
  {
    var q := Leaf(Number(a / b));
    assert Div(h, [Leaf(Number(a)), Leaf(Number(b))]).value == q;
    var args := [q, Leaf(Number(b))];
    assert AllReal(args);
    MulOfReals(args);
    assert Reals(args) == [a / b, b];
    assert [a / b, b][1..] == [b] && [b][1..] == [];
    assert RealProduct([b]) == b;
    assert RealProduct([a / b, b]) == a / b * RealProduct([b]);
    QuotientTimesDivisor(a, b);
    assert RealProduct(Reals(args)) == a;
    assert Mul(args) == Ok(Leaf(Number(a)));
  }

  lemma QuotientTimesDivisor(a: real, b: real)
    requires b != 0.0
    ensures a / b * b == a
  {
  }

  /** Complex division undoes complex multiplication by the divisor. */
  lemma DivideThenMultiplyComplex(h: Host, x: Cx, y: Cx)
    requires Norm2(y) != 0.0
    ensures var q := Div(h, [Leaf(Complex(x.re, x.im)), Leaf(Complex(y.re, y.im))]).value;
            q.head.Complex? && CMul(AsCx(q.head), y) == x
  {
    var args := [Leaf(Complex(x.re, x.im)), Leaf(Complex(y.re, y.im))];
    assert args[0].head.Complex?;
    CDivThenMul(x, y);
  }

  /** Conjugating twice gives back the operand. */
  lemma ConjugateTwice(c: Expr)
    requires c.head.Complex?
    ensures ComplexUnary([ComplexUnary([c], Conjugate, "conj").value], Conjugate, "conj") == Ok(Leaf(c.head))
  {
  }

  /** `real` and `imag` recover the two parts of a complex number. */
  lemma RealImagRebuild(c: Expr)
    requires c.head.Complex?
    ensures Complex(ComplexUnary([c], RealPartOf, "real").value.head.num,
                    ComplexUnary([c], ImagPartOf, "imag").value.head.num) == c.head
  {
  }

  // ------------------------------------------------------------------ lists

  /** A non-empty list is its first item joined with the rest. */
  lemma FirstJoinRest(xs: seq<Expr>)
    requires xs != []
    ensures Join([MakeList([First([ListExpr(xs)]).value]).value, Rest([ListExpr(xs)]).value]) == Ok(ListExpr(xs))
  {
    assert [xs[0]] + xs[1..] == xs;
  }

  /** `length` of a joined list is the sum of the lengths. */
  lemma LengthOfJoin(a: seq<Expr>, b: seq<Expr>)
    ensures Length([Join([ListExpr(a), ListExpr(b)]).value]) == Ok(Leaf(Number((|a| + |b|) as real)))
  {
  }

  /** `append` of a non-list, non-symbol value adds it as the last item. */
  lemma AppendThenLast(xs: seq<Expr>, v: Atom)
    requires !v.Symbol?
    ensures Append([ListExpr(xs), Leaf(v)]) == Ok(ListExpr(xs + [Leaf(v)]))
  {
  }

  /** `append` of a list nests it as one item, unlike `join`. */
  lemma AppendNestsJoinSplices(xs: seq<Expr>, ys: seq<Expr>)
    ensures Append([ListExpr(xs), ListExpr(ys)]) == Ok(ListExpr(xs + [ListExpr(ys)]))
    ensures Join([ListExpr(xs), ListExpr(ys)]) == Ok(ListExpr(xs + ys))
  {
  }

  /** The values `range` produces start at the start and never pass the
      end, and one more step would pass it. */
  lemma RangeBetween(start: real, end: real, step: real)
    requires start < end && step > 0.0
    ensures var xs := RangeValues(start, end, step);
            && xs[0] == Leaf(Number(start))
            && (forall k :: 0 <= k < |xs| ==> xs[k].head.num <= end)
            && start + |xs| as real * step > end
  {
    var xs := RangeValues(start, end, step);
    forall k | 0 <= k < |xs| ensures xs[k].head.num <= end {
      RangeBound(start, end, step, k);
    }
    RangeBound(start, end, step, |xs|);
  }

  /** Consecutive values of `range` differ by the step. */
  lemma RangeSteps(start: real, end: real, step: real)
    requires start < end && step > 0.0
    ensures var xs := RangeValues(start, end, step);
            forall k :: 0 < k < |xs| ==> xs[k].head.num == xs[k - 1].head.num + step
  {
    var xs := RangeValues(start, end, step);
    forall k | 0 < k < |xs| ensures xs[k].head.num == xs[k - 1].head.num + step {
      NextMultiple(start, step, k);
    }
  }

  lemma NextMultiple(start: real, step: real, k: int)
    ensures start + k as real * step == start + (k - 1) as real * step + step
  {
  }
}

=== FILE: builtins.dfy ===
/** The 22 built-in procedures of the table (environment.cpp): arithmetic on
    real and complex numbers, the complex accessors, and the list procedures.
    Every one takes its already evaluated arguments and either returns an
    expression or fails with the source's message. */
module Builtins {
  import opened Results
  import opened Values
  import opened Externals
  import opened Environment

  // ---------------------------------------------------------------- numbers

  predicate IsNumeric(a: Atom) {
    a.Number? || a.Complex?
  }

  /** A numeric atom as a complex number; a real has imaginary part zero. */
  function AsCx(a: Atom): Cx
    requires IsNumeric(a)
  {
    if a.Number? then Cx(a.num, 0.0) else Cx(a.re, a.im)
  }

  function CAdd(x: Cx, y: Cx): Cx {
    Cx(x.re + y.re, x.im + y.im)
  }

  function CMul(x: Cx, y: Cx): Cx {
    Cx(x.re * y.re - x.im * y.im, x.re * y.im + x.im * y.re)
  }

  function CNeg(x: Cx): Cx {
    Cx(-x.re, -x.im)
  }

  function CSub(x: Cx, y: Cx): Cx {
    Cx(x.re - y.re, x.im - y.im)
  }

  /** The squared modulus. */
  function Norm2(y: Cx): real {
    y.re * y.re + y.im * y.im
  }

  /** Exact complex division by a divisor of non-zero modulus. */
  function CDiv(x: Cx, y: Cx): Cx
    requires Norm2(y) != 0.0
  {
    Cx((x.re * y.re + x.im * y.im) / Norm2(y), (x.im * y.re - x.re * y.im) / Norm2(y))
  }

  /** Division undoes multiplication by the divisor. */
  lemma CDivThenMul(x: Cx, y: Cx)
    requires Norm2(y) != 0.0
    ensures CMul(CDiv(x, y), y) == x
  {
    var d := Norm2(y);
    var q := CDiv(x, y);
    assert q.re * d == x.re * y.re + x.im * y.im;
    assert q.im * d == x.im * y.re - x.re * y.im;
    assert CMul(q, y).re * d == x.re * d;
    assert CMul(q, y).im * d == x.im * d;
  }

  predicate AllNumeric(args: seq<Expr>) {
    forall i :: 0 <= i < |args| ==> IsNumeric(args[i].head)
  }

  predicate AnyComplex(args: seq<Expr>) {
    exists i :: 0 <= i < |args| && args[i].head.Complex?
  }

  predicate AllReal(args: seq<Expr>) {
    forall i :: 0 <= i < |args| ==> args[i].head.Number?
  }

  /** The result of an arithmetic procedure: a complex atom as soon as one
      operand was complex, and otherwise the real part alone. */
  function Numeric(c: Cx, complex: bool): Expr {
    if complex then Leaf(Complex(c.re, c.im)) else Leaf(Number(c.re))
  }

  /** The running sum the source's `add` loop accumulates, from `0`. */
  function CSum(args: seq<Expr>): Cx
    requires AllNumeric(args)
    decreases |args|
  {
    if args == [] then Cx(0.0, 0.0)
    else CAdd(CSum(args[..|args| - 1]), AsCx(args[|args| - 1].head))
  }

  /** The running product the source's `mul` loop accumulates, from `1`. */
  function CProduct(args: seq<Expr>): Cx
    requires AllNumeric(args)
    decreases |args|
  {
    if args == [] then Cx(1.0, 0.0)
    else CMul(CProduct(args[..|args| - 1]), AsCx(args[|args| - 1].head))
  }

  /** The plain sum of a sequence of reals: the reference `add` agrees with
      when no operand is complex. */
  function RealSum(xs: seq<real>): real {
    if xs == [] then 0.0 else xs[0] + RealSum(xs[1..])
  }

  function RealProduct(xs: seq<real>): real {
    if xs == [] then 1.0 else xs[0] * RealProduct(xs[1..])
  }

  /** The values of real operands. */
  function Reals(args: seq<Expr>): (xs: seq<real>)
    requires AllReal(args)
    ensures |xs| == |args| && forall i :: 0 <= i < |args| ==> args[i].head == Number(xs[i])
  {
    seq(|args|, i requires 0 <= i < |args| => args[i].head.num)
  }

  /** `add`: any number of operands, all numbers. */
  function Add(args: seq<Expr>): (r: Result<Expr>)
    ensures r.Ok? <==> AllNumeric(args)
    ensures r.Err? ==> r.error == Semantic(AddArgument)
    ensures r.Ok? ==> (r.value.head.Complex? <==> AnyComplex(args)) && r.value.tail == []
  {
    if AllNumeric(args) then Ok(Numeric(CSum(args), AnyComplex(args)))
    else Fail(AddArgument)
  }

  /** `mul`: any number of operands, all numbers. */
  function Mul(args: seq<Expr>): (r: Result<Expr>)
    ensures r.Ok? <==> AllNumeric(args)
    ensures r.Err? ==> r.error == Semantic(MulArgument)
    ensures r.Ok? ==> (r.value.head.Complex? <==> AnyComplex(args)) && r.value.tail == []
  {
    if AllNumeric(args) then Ok(Numeric(CProduct(args), AnyComplex(args)))
    else Fail(MulArgument)
  }

  /** `-`: negation of one operand, or the difference of two. */
  function SubNeg(args: seq<Expr>): (r: Result<Expr>)
    ensures r.Err? ==> r.error.Semantic?
    ensures r.Ok? <==> (|args| == 1 || |args| == 2) && AllNumeric(args)
    ensures r.Ok? ==> (r.value.head.Complex? <==> AnyComplex(args)) && r.value.tail == []
    ensures |args| == 1 && args[0].head.Number? ==> r == Ok(Leaf(Number(-args[0].head.num)))
    ensures |args| == 2 && AllReal(args) ==> r == Ok(Leaf(Number(args[0].head.num - args[1].head.num)))
    ensures |args| == 1 && !IsNumeric(args[0].head) ==> r == Fail(CallArgument("negate"))
    ensures |args| == 2 && !AllNumeric(args) ==> r == Fail(CallArgument("subtraction"))
    ensures |args| != 1 && |args| != 2 ==> r == Fail(CallArity("subtraction or negation"))
  {
    if |args| == 1 then
      if IsNumeric(args[0].head) then Ok(Numeric(CNeg(AsCx(args[0].head)), args[0].head.Complex?))
      else Fail(CallArgument("negate"))
    else if |args| == 2 then
      if IsNumeric(args[0].head) && IsNumeric(args[1].head) then
        Ok(Numeric(CSub(AsCx(args[0].head), AsCx(args[1].head)), args[0].head.Complex? || args[1].head.Complex?))
      else Fail(CallArgument("subtraction"))
    else Fail(CallArity("subtraction or negation"))
  }

  /** Quotient of two numeric operands; a zero divisor yields the floating-point
      library's value. A complex divisor is zero exactly when its squared
      modulus is. */
  function Quotient(h: Host, x: Atom, y: Atom): Cx
    requires IsNumeric(x) && IsNumeric(y)
  {
    if x.Number? && y.Number? then
      (if y.num == 0.0 then Cx(h.divByZero(x.num), 0.0) else Cx(x.num / y.num, 0.0))
    else if Norm2(AsCx(y)) == 0.0 then h.cdivByZero(AsCx(x))
    else CDiv(AsCx(x), AsCx(y))
  }

  /** `/`: the quotient of two operands, or the reciprocal of one (for a
      complex operand, its power `-1`). */
  function Div(h: Host, args: seq<Expr>): (r: Result<Expr>)
    ensures r.Err? ==> r.error.Semantic?
    ensures r.Ok? <==> (|args| == 1 || |args| == 2) && AllNumeric(args)
    ensures r.Ok? ==> (r.value.head.Complex? <==> AnyComplex(args)) && r.value.tail == []
    ensures |args| == 2 && AllReal(args) && args[1].head.num != 0.0 ==>
              r == Ok(Leaf(Number(args[0].head.num / args[1].head.num)))
    ensures |args| == 1 && args[0].head.Number? && args[0].head.num != 0.0 ==>
              r == Ok(Leaf(Number(1.0 / args[0].head.num)))
    ensures (|args| == 1 || |args| == 2) && !AllNumeric(args) ==> r == Fail(CallArgument("division"))
    ensures |args| != 1 && |args| != 2 ==> r == Fail(CallArity("division"))
  {
    if |args| == 2 then
      if IsNumeric(args[0].head) && IsNumeric(args[1].head) then
        Ok(Numeric(Quotient(h, args[0].head, args[1].head), args[0].head.Complex? || args[1].head.Complex?))
      else Fail(CallArgument("division"))
    else if |args| == 1 then
      if args[0].head.Number? then
        Ok(Numeric(Quotient(h, Number(1.0), args[0].head), false))
      else if args[0].head.Complex? then
        Ok(Numeric(h.cpow(AsCx(args[0].head), Cx(-1.0, 0.0)), true))
      else Fail(CallArgument("division"))
    else Fail(CallArity("division"))
  }

  /** `sqrt`: the library root of a non-negative number; a negative number
      `x` gives the complex `(0, 1)` when it is `-1` and `(sqrt(-x), 1)`
      otherwise, exactly as written; a complex operand uses the complex root. */
  function Sqrt(h: Host, args: seq<Expr>): (r: Result<Expr>)
    ensures r.Err? ==> r.error.Semantic?
    ensures r.Ok? <==> |args| == 1 && IsNumeric(args[0].head)
    ensures r.Ok? ==> (r.value.head.Number? <==> args[0].head.Number? && args[0].head.num >= 0.0)
    ensures |args| == 1 && args[0].head.Number? && args[0].head.num >= 0.0 ==>
              r == Ok(Leaf(Number(h.sqrt(args[0].head.num))))
    ensures |args| == 1 && args[0].head == Number(-1.0) ==> r == Ok(Leaf(Complex(0.0, 1.0)))
    ensures |args| == 1 && args[0].head.Number? && args[0].head.num < 0.0 && args[0].head.num != -1.0 ==>
              r == Ok(Leaf(Complex(h.sqrt(-args[0].head.num), 1.0)))
    ensures |args| == 1 && !IsNumeric(args[0].head) ==> r == Fail(CallArgument("square root"))
    ensures |args| != 1 ==> r == Fail(CallArity("square root"))
  {
    if |args| != 1 then Fail(CallArity("square root"))
    else match args[0].head
      case Number(x) =>
        if x >= 0.0 then Ok(Leaf(Number(h.sqrt(x))))
        else if x == -1.0 then Ok(Leaf(Complex(0.0, 1.0)))
        else Ok(Leaf(Complex(h.sqrt(-x), 1.0)))
      case Complex(re, im) =>
        var c := h.csqrt(Cx(re, im));
        Ok(Leaf(Complex(c.re, c.im)))
      case _ => Fail(CallArgument("square root"))
  }

  /** `^`: the library power of two operands. */
  function Expo(h: Host, args: seq<Expr>): (r: Result<Expr>)
    ensures r.Err? ==> r.error.Semantic?
    ensures r.Ok? <==> |args| == 2 && AllNumeric(args)
    ensures r.Ok? ==> (r.value.head.Complex? <==> AnyComplex(args)) && r.value.tail == []
    ensures |args| == 2 && AllReal(args) ==> r == Ok(Leaf(Number(h.pow(args[0].head.num, args[1].head.num))))
    ensures |args| == 2 && !AllNumeric(args) ==> r == Fail(CallArgument("exponential"))
    ensures |args| != 2 ==> r == Fail(CallArity("exponential"))
  {
    if |args| != 2 then Fail(CallArity("exponential"))
    else if !(IsNumeric(args[0].head) && IsNumeric(args[1].head)) then
      Fail(CallArgument("exponential"))
    else if args[0].head.Number? && args[1].head.Number? then
      Ok(Leaf(Number(h.pow(args[0].head.num, args[1].head.num))))
    else
      Ok(Numeric(h.cpow(AsCx(args[0].head), AsCx(args[1].head)), true))
  }

  /** The shape shared by `ln`, `sin`, `cos` and `tan`: one real operand,
      mapped through a library function; `what` names the procedure in the
      messages. */
  function RealUnary(args: seq<Expr>, f: real -> real, what: string): (r: Result<Expr>)
    ensures r.Err? ==> r.error.Semantic?
    ensures r.Ok? <==> |args| == 1 && args[0].head.Number?
    ensures r.Ok? ==> r.value == Leaf(Number(f(args[0].head.num)))
    ensures |args| != 1 ==> r == Fail(CallArity(what))
    ensures |args| == 1 && !args[0].head.Number? ==> r == Fail(CallArgument(what))
  {
    if |args| != 1 then Fail(CallArity(what))
    else if args[0].head.Number? then Ok(Leaf(Number(f(args[0].head.num))))
    else Fail(CallArgument(what))
  }

  /** `ln`: additionally refuses a non-positive operand. */
  function Ln(h: Host, args: seq<Expr>): (r: Result<Expr>)
    ensures r.Err? ==> r.error.Semantic?
    ensures r.Ok? <==> |args| == 1 && args[0].head.Number? && args[0].head.num > 0.0
    ensures r.Ok? ==> r.value == Leaf(Number(h.log(args[0].head.num)))
    ensures |args| == 1 && args[0].head.Number? && args[0].head.num <= 0.0 ==>
              r == Fail(LnDomain)
  {
    if |args| == 1 && args[0].head.Number? && args[0].head.num <= 0.0 then
      Fail(LnDomain)
    else RealUnary(args, h.log, "natural logarithm")
  }

  /** The shape shared by `real`, `imag`, `mag`, `arg` and `conj`: one
      complex operand (a real is refused). */
  function ComplexUnary(args: seq<Expr>, f: Cx -> Atom, what: string): (r: Result<Expr>)
    ensures r.Err? ==> r.error.Semantic?
    ensures r.Ok? <==> |args| == 1 && args[0].head.Complex?
    ensures r.Ok? ==> r.value == Leaf(f(AsCx(args[0].head)))
    ensures |args| != 1 ==> r == Fail(CallArity(what))
    ensures |args| == 1 && !args[0].head.Complex? ==> r == Fail(CallArgument(what))
  {
    if |args| != 1 then Fail(CallArity(what))
    else if args[0].head.Complex? then Ok(Leaf(f(AsCx(args[0].head))))
    else Fail(CallArgument(what))
  }

  function RealPartOf(c: Cx): Atom { Number(c.re) }
  function ImagPartOf(c: Cx): Atom { Number(c.im) }
  function Conjugate(c: Cx): Atom { Complex(c.re, -c.im) }

  // ------------------------------------------------------------------ lists

  /** `list`: its arguments, in order. */
  function MakeList(args: seq<Expr>): (r: Result<Expr>)
    ensures r.Ok? && IsList(r.value) && r.value.tail == args
  {
    Ok(ListExpr(args))
  }

  function First(args: seq<Expr>): (r: Result<Expr>)
    ensures r.Err? ==> r.error.Semantic?
    ensures r.Ok? <==> |args| == 1 && IsList(args[0]) && |args[0].tail| > 0
    ensures r.Ok? ==> r.value == args[0].tail[0]
    ensures |args| != 1 ==> r == Fail(CallArity("first"))
    ensures |args| == 1 && !IsList(args[0]) ==> r == Fail(NotList("first"))
    ensures |args| == 1 && IsList(args[0]) && args[0].tail == [] ==> r == Fail(EmptyList("first"))
  {
    if |args| != 1 then Fail(CallArity("first"))
    else if !IsList(args[0]) then Fail(NotList("first"))
    else if args[0].tail == [] then Fail(EmptyList("first"))
    else Ok(args[0].tail[0])
  }

  function Rest(args: seq<Expr>): (r: Result<Expr>)
    ensures r.Err? ==> r.error.Semantic?
    ensures r.Ok? <==> |args| == 1 && IsList(args[0]) && |args[0].tail| > 0
    ensures r.Ok? ==> IsList(r.value) && [args[0].tail[0]] + r.value.tail == args[0].tail
    ensures |args| != 1 ==> r == Fail(CallArity("rest"))
    ensures |args| == 1 && !IsList(args[0]) ==> r == Fail(NotList("rest"))
    ensures |args| == 1 && IsList(args[0]) && args[0].tail == [] ==> r == Fail(EmptyList("rest"))
  {
    if |args| != 1 then Fail(CallArity("rest"))
    else if !IsList(args[0]) then Fail(NotList("rest"))
    else if args[0].tail == [] then Fail(EmptyList("rest"))
    else Ok(ListExpr(args[0].tail[1..]))
  }

  function Length(args: seq<Expr>): (r: Result<Expr>)
    ensures r.Err? ==> r.error.Semantic?
    ensures r.Ok? <==> |args| == 1 && IsList(args[0])
    ensures r.Ok? ==> r.value == Leaf(Number(|args[0].tail| as real))
    ensures |args| != 1 ==> r == Fail(CallArity("length"))
    ensures |args| == 1 && !IsList(args[0]) ==> r == Fail(NotList("length"))
  {
    if |args| != 1 then Fail(CallArity("length"))
    else if !IsList(args[0]) then Fail(NotList("length"))
    else Ok(Leaf(Number(|args[0].tail| as real)))
  }

  /** What `append` adds after the first list's items: a list argument as a
      single nested list, any non-symbol as its bare head, and nothing for
      any other symbol. */
  function Appended(x: Expr): (r: seq<Expr>)
    ensures IsList(x) ==> r == [ListExpr(x.tail)]
    ensures !x.head.Symbol? ==> r == [Leaf(x.head)]
    ensures x.head.Symbol? && !IsList(x) ==> r == []
  {
    if IsList(x) then [ListExpr(x.tail)]
    else if !x.head.Symbol? then [Leaf(x.head)]
    else []
  }

  function Append(args: seq<Expr>): (r: Result<Expr>)
    ensures r.Err? ==> r.error.Semantic?
    ensures r.Ok? <==> |args| == 2 && IsList(args[0])
    ensures r.Ok? ==> |r.value.tail| == |args[0].tail| + (if args[1].head.Symbol? && !IsList(args[1]) then 0 else 1)
    ensures r.Ok? ==> IsList(r.value) && r.value.tail[..|args[0].tail|] == args[0].tail
    ensures r.Ok? && IsList(args[1]) ==> r.value.tail[|args[0].tail|] == ListExpr(args[1].tail)
    ensures r.Ok? && !args[1].head.Symbol? ==> r.value.tail[|args[0].tail|] == Leaf(args[1].head)
    ensures |args| != 2 ==> r == Fail(CallArity("append"))
    ensures |args| == 2 && !IsList(args[0]) ==> r == Fail(FirstNotList("append"))
  {
    if |args| != 2 then Fail(CallArity("append"))
    else if !IsList(args[0]) then Fail(FirstNotList("append"))
    else Ok(ListExpr(args[0].tail + Appended(args[1])))
  }

  function Join(args: seq<Expr>): (r: Result<Expr>)
    ensures r.Err? ==> r.error.Semantic?
    ensures r.Ok? <==> |args| == 2 && IsList(args[0]) && IsList(args[1])
    ensures r.Ok? ==> IsList(r.value) && r.value.tail == args[0].tail + args[1].tail
    ensures |args| != 2 ==> r == Fail(CallArity("join"))
    ensures |args| == 2 && !IsList(args[0]) ==> r == Fail(FirstNotList("join"))
    ensures |args| == 2 && IsList(args[0]) && !IsList(args[1]) ==> r == Fail(SecondNotList("join"))
  {
    if |args| != 2 then Fail(CallArity("join"))
    else if !IsList(args[0]) then Fail(FirstNotList("join"))
    else if !IsList(args[1]) then Fail(SecondNotList("join"))
    else Ok(ListExpr(args[0].tail + args[1].tail))
  }

  // ------------------------------------------------------------------ range

  /** How many times the source's `for (i = start; i <= end; i += step)`
      loop body runs, with exact arithmetic. */
  function RangeCount(start: real, end: real, step: real): (n: nat)
    requires start <= end && step > 0.0
    ensures n >= 1
  {
    ((end - start) / step).Floor + 1
  }

  /** The `k`-th value of the loop variable is below the bound exactly for
      the `RangeCount` values the loop emits. */
  lemma RangeBound(start: real, end: real, step: real, k: nat)
    requires start <= end && step > 0.0
    ensures start + k as real * step <= end <==> k < RangeCount(start, end, step)
  {
    var q := (end - start) / step;
    assert q * step == end - start;
    if k < RangeCount(start, end, step) {
      assert k as real <= q;
      assert k as real * step <= q * step;
    } else {
      assert k as real > q;
      assert k as real * step > q * step;
    }
  }

  /** The loop's values `start, start + step, ...` while not above `end`. */
  function RangeValues(start: real, end: real, step: real): (xs: seq<Expr>)
    requires start <= end && step > 0.0
    ensures |xs| == RangeCount(start, end, step)
    ensures forall k :: 0 <= k < |xs| ==> xs[k] == Leaf(Number(start + k as real * step))
  {
    seq(RangeCount(start, end, step), k requires k >= 0 => Leaf(Number(start + k as real * step)))
  }

  /** `range`: three numbers, the first below the second, a positive step. */
  function Range(args: seq<Expr>): (r: Result<Expr>)
    ensures r.Err? ==> r.error.Semantic?
    ensures r.Ok? <==> |args| == 3 && AllReal(args) && args[0].head.num < args[1].head.num && args[2].head.num > 0.0
    ensures r.Ok? ==> IsList(r.value) && r.value.tail == RangeValues(args[0].head.num, args[1].head.num, args[2].head.num)
    ensures |args| != 3 ==> r == Fail(CallArity("range"))
    ensures |args| == 3 && !AllReal(args) ==> r == Fail(CallArgument("range"))
    ensures |args| == 3 && AllReal(args) && args[0].head.num >= args[1].head.num ==>
              r == Fail(RangeOrder)
    ensures |args| == 3 && AllReal(args) && args[0].head.num < args[1].head.num && args[2].head.num <= 0.0 ==>
              r == Fail(RangeStep)
  {
    if |args| != 3 then Fail(CallArity("range"))
    else if !(args[0].head.Number? && args[1].head.Number? && args[2].head.Number?) then
      Fail(CallArgument("range"))
    else if !(args[0].head.num < args[1].head.num) then
      Fail(RangeOrder)
    else if !(args[2].head.num > 0.0) then
      Fail(RangeStep)
    else Ok(ListExpr(RangeValues(args[0].head.num, args[1].head.num, args[2].head.num)))
  }

  /** The source's loop, run step by step: it emits exactly `RangeValues`. */
  method RangeLoop(start: real, end: real, step: real) returns (xs: seq<Expr>)
    requires start < end && step > 0.0
    ensures xs == RangeValues(start, end, step)
  {
    xs := [];
    var i := start;
    RangeBound(start, end, step, 0);
    while i <= end
      invariant i == start + |xs| as real * step
      invariant |xs| <= RangeCount(start, end, step)
      invariant xs == RangeValues(start, end, step)[..|xs|]
      decreases RangeCount(start, end, step) - |xs|
    {
      RangeBound(start, end, step, |xs|);
      ghost var all := RangeValues(start, end, step);
      assert |xs| < |all|;
      assert all[|xs|] == Leaf(Number(start + |xs| as real * step));
      assert all[..|xs| + 1] == all[..|xs|] + [all[|xs|]];
      xs := xs + [Leaf(Number(i))];
      i := i + step;
    }
    RangeBound(start, end, step, |xs|);
  }

  // --------------------------------------------------------------- dispatch

  predicate IsArithmetic(b: Builtin) {
    b.Add? || b.SubNeg? || b.Mul? || b.Div? || b.Sqrt? || b.Expo? || b.Ln?
  }

  predicate IsUnary(b: Builtin) {
    b.Sin? || b.Cos? || b.Tan? || b.RealPart? || b.ImagPart? || b.Mag? || b.Arg? || b.Conj?
  }

  /** Calling the built-in stored in a procedure slot. */
  function CallBuiltin(h: Host, b: Builtin, args: seq<Expr>): (r: Result<Expr>)
    ensures r.Err? ==> r.error.Semantic?
  {
    if IsArithmetic(b) then CallArithmetic(h, b, args)
    else if IsUnary(b) then CallUnary(h, b, args)
    else CallListProcedure(b, args)
  }

  function CallArithmetic(h: Host, b: Builtin, args: seq<Expr>): (r: Result<Expr>)
    requires IsArithmetic(b)
    ensures r.Err? ==> r.error.Semantic?
  {
    match b
    case Add => Add(args)
    case SubNeg => SubNeg(args)
    case Mul => Mul(args)
    case Div => Div(h, args)
    case Sqrt => Sqrt(h, args)
    case Expo => Expo(h, args)
    case Ln => Ln(h, args)
  }

  function CallUnary(h: Host, b: Builtin, args: seq<Expr>): (r: Result<Expr>)
    requires IsUnary(b)
    ensures r.Err? ==> r.error.Semantic?
  {
    match b
    case Sin => RealUnary(args, h.sin, "trigonometric sine")
    case Cos => RealUnary(args, h.cos, "trigonometric cosine")
    case Tan => RealUnary(args, h.tan, "trigonometric tangent ")
    case RealPart => ComplexUnary(args, RealPartOf, "real")
    case ImagPart => ComplexUnary(args, ImagPartOf, "imag")
    case Mag => ComplexUnary(args, c => Number(h.mag(c)), "mag")
    case Arg => ComplexUnary(args, c => Number(h.arg(c)), "arg")
    case Conj => ComplexUnary(args, Conjugate, "conj")
  }

  function CallListProcedure(b: Builtin, args: seq<Expr>): (r: Result<Expr>)
    requires !IsArithmetic(b) && !IsUnary(b)
    ensures r.Err? ==> r.error.Semantic?
  {
    match b
    case MakeList => MakeList(args)
    case First => First(args)
    case Rest => Rest(args)
    case Length => Length(args)
    case Append => Append(args)
    case Join => Join(args)
    case Range => Range(args)
  }
}

=== FILE: consumer.dfy ===
/** The consumer loop of consumer.hpp: it takes input lines one at a time,
    stops on a control word, and answers every other line with exactly one
    output item — a value or an error message. The two queues are plain
    sequences here, and parsing is a parameter. */
module ConsumerLoop {
  import opened Results
  import opened Values
  import opened Externals
  import opened Environment
  import opened Evaluator

  const ParseError: string := "Error: Invalid Expression. Could not parse."

  /** The control words that end the loop. */
  predicate IsStop(line: string) {
    line == "%stop" || line == "%reset" || line == "%exit"
  }

  /** How a run of the loop ended: on a control word, by running out of
      input (the real loop would wait for more), or because an evaluation
      ran out of fuel. */
  datatype Ending = Stopped | Waiting | OutOfFuel

  /** The table after the run, the output items in order, and how many
      input lines were taken. */
  datatype Session = Session(env: Env, out: seq<Expr>, read: nat, ending: Ending)

  /** What `Interpreter::evaluate` does with a parsed line and the table. */
  type Evaluate = (Expr, Env) -> Out<Expr>

  /** The consumer over the evaluator of this model. */
  function ModelEvaluate(h: Host, fuel: nat): Evaluate {
    (e, env) => Eval(h, e, env, fuel)
  }

  /** The answer to one line that is not a control word. */
  datatype Reply = Answer(env: Env, item: Expr) | NoFuel(env: Env)

  function Respond(eval: Evaluate, parse: string -> Option<Expr>, line: string, env: Env): (r: Reply)
    ensures parse(line).None? ==> r == Answer(env, Leaf(Symbol(ParseError)))
    ensures parse(line).Some? ==>
      var o := eval(parse(line).value, env);
      && r.env == o.env
      && (o.res.Ok? ==> r == Answer(o.env, o.res.value))
      && (o.res.Err? && o.res.error.Semantic? ==> r == Answer(o.env, Leaf(Symbol(Text(o.res.error.msg)))))
      && (r.NoFuel? <==> o.res == Err(Exhausted))
  {
    match parse(line)
    case None => Answer(env, Leaf(Symbol(ParseError)))
    case Some(ast) =>
      var o := eval(ast, env);
      match o.res
      case Ok(v) => Answer(o.env, v)
      case Err(Semantic(msg)) => Answer(o.env, Leaf(Symbol(Text(msg))))
      case Err(Exhausted) => NoFuel(o.env)
  }

  /** Number of `%start` lines. */
  function StartCount(lines: seq<string>): nat
    decreases |lines|
  {
    if lines == [] then 0 else (if lines[0] == "%start" then 1 else 0) + StartCount(lines[1..])
  }

  /** `Consumer::operator()` over a finite input. */
  function Run(eval: Evaluate, parse: string -> Option<Expr>, lines: seq<string>, env: Env): (r: Session)
    ensures r.read <= |lines|
    ensures r.ending == Stopped ==> 0 < r.read && IsStop(lines[r.read - 1])
    ensures forall i :: 0 <= i < r.read - 1 ==> !IsStop(lines[i])
    ensures r.ending == Waiting ==> r.read == |lines| && |r.out| == |lines| - StartCount(lines)
    decreases |lines|
  {
    if lines == [] then Session(env, [], 0, Waiting)
    else if IsStop(lines[0]) then Session(env, [], 1, Stopped)
    else
      var rest := lines[1..];
      if lines[0] == "%start" then
        var s := Run(eval, parse, rest, env);
        s.(read := s.read + 1)
      else
        match Respond(eval, parse, lines[0], env)
        case NoFuel(env2) => Session(env2, [], 1, OutOfFuel)
        case Answer(env2, item) =>
          var s := Run(eval, parse, rest, env2);
          s.(out := [item] + s.out, read := s.read + 1)
  }

  /** The loop as the source writes it. */
  method Consume(eval: Evaluate, parse: string -> Option<Expr>, lines: seq<string>, env0: Env)
    returns (session: Session)
    ensures session == Run(eval, parse, lines, env0)
  {
    var env := env0;
    var out: seq<Expr> := [];
    var i := 0;
    while i < |lines|
      invariant 0 <= i <= |lines|
      invariant var rest := Run(eval, parse, lines[i..], env);
                Run(eval, parse, lines, env0) == Session(rest.env, out + rest.out, i + rest.read, rest.ending)
    {
      var line := lines[i];
      assert lines[i..][0] == line && lines[i..][1..] == lines[i + 1..];
      if IsStop(line) {
        assert out + [] == out;
        return Session(env, out, i + 1, Stopped);
      } else if line != "%start" {
        var reply := Respond(eval, parse, line, env);
        if reply.NoFuel? {
          assert out + [] == out;
          return Session(reply.env, out, i + 1, OutOfFuel);
        }
        assert forall tail: seq<Expr> :: out + ([reply.item] + tail) == (out + [reply.item]) + tail;
        out := out + [reply.item];
        env := reply.env;
      }
      i := i + 1;
    }
    assert out + [] == out;
    session := Session(env, out, i, Waiting);
  }

  /** Once the loop has ended, whatever input follows is never read. */
  lemma {:induction false} LaterInputUnread(eval: Evaluate, parse: string -> Option<Expr>, lines: seq<string>,
                                           more: seq<string>, env: Env)
    requires Run(eval, parse, lines, env).ending != Waiting
    ensures Run(eval, parse, lines + more, env) == Run(eval, parse, lines, env)
    decreases |lines|
  {
    assert (lines + more)[0] == lines[0] && (lines + more)[1..] == lines[1..] + more;
    if !IsStop(lines[0]) {
      if lines[0] == "%start" {
        LaterInputUnread(eval, parse, lines[1..], more, env);
      } else if Respond(eval, parse, lines[0], env).Answer? {
        LaterInputUnread(eval, parse, lines[1..], more, Respond(eval, parse, lines[0], env).env);
      }
    }
  }

  /** A run over two inputs in turn is the first run followed by the second,
      started from the table the first left: outputs keep input order. */
  lemma {:induction false} RunConcat(eval: Evaluate, parse: string -> Option<Expr>, a: seq<string>, b: seq<string>,
                                     env: Env)
    requires Run(eval, parse, a, env).ending == Waiting
    ensures ConcatLaw(eval, parse, a, b, env)
    decreases |a|
  {
    if a == [] {
      assert a + b == b;
    } else {
      var env2 := if a[0] == "%start" then env else Respond(eval, parse, a[0], env).env;
      RunConcat(eval, parse, a[1..], b, env2);
      ConcatStep(eval, parse, a, b, env, env2);
    }
  }

  ghost predicate ConcatLaw(eval: Evaluate, parse: string -> Option<Expr>, a: seq<string>, b: seq<string>, env: Env) {
    var ra := Run(eval, parse, a, env);
    var rb := Run(eval, parse, b, ra.env);
    Run(eval, parse, a + b, env) == Session(rb.env, ra.out + rb.out, |a| + rb.read, rb.ending)
  }

  lemma {:induction false} ConcatStep(eval: Evaluate, parse: string -> Option<Expr>, a: seq<string>, b: seq<string>,
                                      env: Env, env2: Env)
    requires a != [] && Run(eval, parse, a, env).ending == Waiting
    requires env2 == if a[0] == "%start" then env else Respond(eval, parse, a[0], env).env
    requires ConcatLaw(eval, parse, a[1..], b, env2)
    ensures ConcatLaw(eval, parse, a, b, env)
  {
    if a[0] == "%start" {
      ConcatStart(eval, parse, a, b, env);
    } else {
      ConcatAnswer(eval, parse, a, b, env);
    }
  }

  lemma {:induction false} ConcatStart(eval: Evaluate, parse: string -> Option<Expr>, a: seq<string>, b: seq<string>,
                                       env: Env)
    requires a != [] && a[0] == "%start"
    requires ConcatLaw(eval, parse, a[1..], b, env)
    ensures ConcatLaw(eval, parse, a, b, env)
  {
    var ab := a + b;
    assert ab[0] == a[0] && ab[1..] == a[1..] + b;
    StartStep(eval, parse, a, env);
    StartStep(eval, parse, ab, env);
  }

  lemma {:induction false} ConcatAnswer(eval: Evaluate, parse: string -> Option<Expr>, a: seq<string>, b: seq<string>,
                                        env: Env)
    requires a != [] && !IsStop(a[0]) && a[0] != "%start"
    requires Respond(eval, parse, a[0], env).Answer?
    requires ConcatLaw(eval, parse, a[1..], b, Respond(eval, parse, a[0], env).env)
    ensures ConcatLaw(eval, parse, a, b, env)
  {
    var ab := a + b;
    assert ab[0] == a[0] && ab[1..] == a[1..] + b;
    var reply := Respond(eval, parse, a[0], env);
    var ra := Run(eval, parse, a[1..], reply.env);
    var rb := Run(eval, parse, b, ra.env);
    AnswerStep(eval, parse, a, env);
    AnswerStep(eval, parse, ab, env);
    PrependItem(reply.item, ra, Run(eval, parse, a, env), Run(eval, parse, ab[1..], reply.env),
                Run(eval, parse, ab, env), rb, |a| - 1);
  }

  /** Answering one more line first puts its item in front of the outputs
      of the rest. */
  lemma PrependItem(x: Expr, s1: Session, sa: Session, s2: Session, sab: Session, rb: Session, n: nat)
    requires sa == s1.(out := [x] + s1.out, read := s1.read + 1)
    requires s2 == Session(rb.env, s1.out + rb.out, n + rb.read, rb.ending)
    requires sab == s2.(out := [x] + s2.out, read := s2.read + 1)
    ensures sab == Session(rb.env, sa.out + rb.out, n + 1 + rb.read, rb.ending)
  {
    assert [x] + (s1.out + rb.out) == ([x] + s1.out) + rb.out;
  }

  lemma {:induction false} StartStep(eval: Evaluate, parse: string -> Option<Expr>, lines: seq<string>, env: Env)
    requires lines != [] && lines[0] == "%start"
    ensures var s := Run(eval, parse, lines[1..], env);
            Run(eval, parse, lines, env) == s.(read := s.read + 1)
  {
  }

  lemma {:induction false} AnswerStep(eval: Evaluate, parse: string -> Option<Expr>, lines: seq<string>, env: Env)
    requires lines != [] && !IsStop(lines[0]) && lines[0] != "%start"
    requires Respond(eval, parse, lines[0], env).Answer?
    ensures var reply := Respond(eval, parse, lines[0], env);
            var s := Run(eval, parse, lines[1..], reply.env);
            Run(eval, parse, lines, env) == s.(out := [reply.item] + s.out, read := s.read + 1)
  {
  }

  /** `%start` is taken and answered with nothing. */
  lemma StartIsSilent(eval: Evaluate, parse: string -> Option<Expr>, lines: seq<string>, env: Env)
    ensures var r := Run(eval, parse, ["%start"] + lines, env);
            var s := Run(eval, parse, lines, env);
            r.out == s.out && r.env == s.env && r.read == s.read + 1 && r.ending == s.ending
  {
    assert (["%start"] + lines)[1..] == lines;
  }

  /** A line that does not parse is answered with the parse error, and the
      loop goes on with the table unchanged. */
  lemma ParseFailureReported(eval: Evaluate, parse: string -> Option<Expr>, line: string, lines: seq<string>,
                             env: Env)
    requires !IsStop(line) && line != "%start" && parse(line).None?
    ensures Run(eval, parse, [line] + lines, env).out == [Leaf(Symbol(ParseError))] + Run(eval, parse, lines, env).out
  {
    assert ([line] + lines)[0] == line && ([line] + lines)[1..] == lines;
  }

  /** A line whose evaluation fails is answered with the error message, and
      the loop goes on from the table the failed evaluation left. */
  lemma SemanticErrorReported(eval: Evaluate, parse: string -> Option<Expr>, line: string, lines: seq<string>,
                              env: Env, msg: Msg)
    requires !IsStop(line) && line != "%start" && parse(line).Some?
    requires eval(parse(line).value, env).res == Err(Semantic(msg))
    ensures Run(eval, parse, [line] + lines, env).out
         == [Leaf(Symbol(Text(msg)))] + Run(eval, parse, lines, eval(parse(line).value, env).env).out
  {
    assert ([line] + lines)[0] == line && ([line] + lines)[1..] == lines;
  }
}

=== FILE: environment.dfy ===
/** The symbol table (environment.cpp): one slot per name, holding a value,
    a built-in procedure, a special procedure or a closure. */
module Environment {
  import opened Results
  import opened Values
  import opened Externals

  /** The 22 built-in procedures, named after their entry in the table. */
  datatype Builtin =
    | Add | SubNeg | Mul | Div | Sqrt | Expo | Ln | Sin | Cos | Tan
    | RealPart | ImagPart | Mag | Arg | Conj
    | MakeList | First | Rest | Length | Append | Join | Range

  /** The three special procedures, which see the environment. */
  datatype Special = LambdaSpec | ApplySpec | MapSpec

  datatype Slot = ExpSlot(exp: Expr) | ProcSlot(proc: Builtin) | SpecialSlot(spec: Special) | LambSlot(lamb: Expr)

  type Env = map<string, Slot>

  /** What `get_proc` hands back: the stored built-in, or the default
      procedure (which returns the None expression). */
  datatype Proc = DefaultProc | BuiltinProc(builtin: Builtin)

  function BuiltinName(b: Builtin): string {
    match b
    case Add => "+"
    case SubNeg => "-"
    case Mul => "*"
    case Div => "/"
    case Sqrt => "sqrt"
    case Expo => "^"
    case Ln => "ln"
    case Sin => "sin"
    case Cos => "cos"
    case Tan => "tan"
    case RealPart => "real"
    case ImagPart => "imag"
    case Mag => "mag"
    case Arg => "arg"
    case Conj => "conj"
    case MakeList => "list"
    case First => "first"
    case Rest => "rest"
    case Length => "length"
    case Append => "append"
    case Join => "join"
    case Range => "range"
  }

  function SpecialName(s: Special): string {
    match s
    case LambdaSpec => "lambda"
    case ApplySpec => "apply"
    case MapSpec => "map"
  }

  predicate IsKnown(env: Env, a: Atom) {
    a.Symbol? && a.name in env
  }

  predicate IsExp(env: Env, a: Atom) {
    a.Symbol? && a.name in env && env[a.name].ExpSlot?
  }

  predicate IsProc(env: Env, a: Atom) {
    a.Symbol? && a.name in env && env[a.name].ProcSlot?
  }

  predicate IsLamb(env: Env, a: Atom) {
    a.Symbol? && a.name in env && env[a.name].LambSlot?
  }

  /** A name holds at most one kind of slot. The table keeps one slot per
      name, so this holds by the shape of `Slot` alone; it is stated because
      the source keeps a type tag beside each entry and relies on it. */
  lemma SlotKindsExclusive(env: Env, a: Atom)
    ensures IsExp(env, a) ==> !IsProc(env, a) && !IsLamb(env, a)
    ensures IsProc(env, a) ==> !IsLamb(env, a)
    ensures IsExp(env, a) || IsProc(env, a) || IsLamb(env, a) ==> IsKnown(env, a)
  {
  }

  function GetExp(env: Env, a: Atom): (r: Expr)
    ensures !IsExp(env, a) ==> r == NoneExpr
    ensures IsExp(env, a) ==> ExpSlot(r) == env[a.name]
  {
    if IsExp(env, a) then env[a.name].exp else NoneExpr
  }

  function GetLamb(env: Env, a: Atom): (r: Expr)
    ensures !IsLamb(env, a) ==> r == NoneExpr
    ensures IsLamb(env, a) ==> LambSlot(r) == env[a.name]
  {
    if IsLamb(env, a) then env[a.name].lamb else NoneExpr
  }

  function GetProc(env: Env, a: Atom): (r: Proc)
    ensures r.BuiltinProc? <==> IsProc(env, a)
    ensures r.BuiltinProc? ==> env[a.name] == ProcSlot(r.builtin)
  {
    if IsProc(env, a) then BuiltinProc(env[a.name].proc) else DefaultProc
  }

  /** `get_spec`; the source dereferences the slot unchecked, so the caller
      must know a special procedure is stored there. */
  function GetSpec(env: Env, a: Atom): (r: Special)
    requires a.Symbol? && a.name in env && env[a.name].SpecialSlot?
    ensures env[a.name] == SpecialSlot(r)
  {
    env[a.name].spec
  }

  /** The common body of `add_exp` and `add_lamb`: refuse non-symbols and
      names already present in any slot kind. */
  function AddSlot(env: Env, a: Atom, s: Slot): (r: Result<Env>)
    ensures r.Ok? <==> a.Symbol? && a.name !in env
    ensures r.Ok? ==> r.value.Keys == env.Keys + {a.name} && r.value[a.name] == s
    ensures r.Ok? ==> forall k :: k in env ==> r.value[k] == env[k]
    ensures r.Err? ==> r.error.Semantic?
  {
    if !a.Symbol? then Fail(NonSymbol)
    else if a.name in env then Fail(Overwrite)
    else Ok(env[a.name := s])
  }

  function AddExp(env: Env, a: Atom, e: Expr): (r: Result<Env>)
    ensures r.Ok? <==> a.Symbol? && a.name !in env
    ensures r.Ok? ==> r.value.Keys == env.Keys + {a.name} && r.value[a.name] == ExpSlot(e)
    ensures r.Ok? ==> forall k :: k in env ==> r.value[k] == env[k]
  {
    AddSlot(env, a, ExpSlot(e))
  }

  function AddLamb(env: Env, a: Atom, e: Expr): (r: Result<Env>)
    ensures r.Ok? <==> a.Symbol? && a.name !in env
    ensures r.Ok? ==> r.value.Keys == env.Keys + {a.name} && r.value[a.name] == LambSlot(e)
    ensures r.Ok? ==> forall k :: k in env ==> r.value[k] == env[k]
  {
    AddSlot(env, a, LambSlot(e))
  }

  /** `rm_exp`: erase the entry, whatever it holds; erasing a missing name
      is undefined behaviour in the source, so it is excluded. */
  function RmExp(env: Env, a: Atom): (r: Env)
    requires a.Symbol? && a.name in env
    ensures r.Keys == env.Keys - {a.name}
    ensures forall k :: k in r ==> r[k] == env[k]
  {
    env - {a.name}
  }

  /** Adding a binding and then removing it gives back the table. */
  lemma AddThenRemove(env: Env, a: Atom, e: Expr)
    requires AddExp(env, a, e).Ok?
    ensures RmExp(AddExp(env, a, e).value, a) == env
  {
  }

  /** Removing a value binding and adding it back gives back the table. */
  lemma RemoveThenAdd(env: Env, a: Atom)
    requires IsExp(env, a)
    ensures AddExp(RmExp(env, a), a, env[a.name].exp) == Ok(env)
  {
    assert AddExp(RmExp(env, a), a, env[a.name].exp).value == env;
  }

  /** Every built-in, in the order `reset` installs them. */
  const AllBuiltins: seq<Builtin> := [
    Add, SubNeg, Mul, Div, Sqrt, Expo, Ln, Sin, Cos, Tan, RealPart, ImagPart, Mag, Arg, Conj,
    MakeList, First, Rest, Length, Append, Join, Range]

  const AllSpecials: seq<Special> := [LambdaSpec, ApplySpec, MapSpec]

  function ConstantTable(h: Host): (r: Env)
    ensures forall k :: k in r ==> r[k].ExpSlot? && r[k].exp == Leaf(r[k].exp.head) && (r[k].exp.head.Number? || r[k].exp.head.Complex?)
  {
    map[
      "pi" := ExpSlot(Leaf(Number(h.pi))),
      "-pi" := ExpSlot(Leaf(Number(-h.pi))),
      "e" := ExpSlot(Leaf(Number(h.e))),
      "I" := ExpSlot(Leaf(Complex(0.0, 1.0))),
      "-I" := ExpSlot(Leaf(Complex(0.0, -1.0)))
    ]
  }

  /** The table holding each of `bs` under its name, entered one after
      another as `reset` does. */
  function Install(bs: seq<Builtin>): (r: Env)
    ensures forall k :: k in r ==> r[k].ProcSlot? && BuiltinName(r[k].proc) == k
    ensures forall i :: 0 <= i < |bs| ==> BuiltinName(bs[i]) in r
    decreases |bs|
  {
    if bs == [] then map[]
    else Install(bs[..|bs| - 1])[BuiltinName(bs[|bs| - 1]) := ProcSlot(bs[|bs| - 1])]
  }

  function BuiltinTable(): Env {
    Install(AllBuiltins)
  }

  /** Every entry of `Install(bs)` is the procedure slot of a built-in of
      `bs` stored under that built-in's name. */
  lemma {:induction false} InstallEntries(bs: seq<Builtin>, k: string)
    requires k in Install(bs)
    ensures exists b :: b in bs && k == BuiltinName(b) && Install(bs)[k] == ProcSlot(b)
    decreases |bs|
  {
    var last := bs[|bs| - 1];
    if k != BuiltinName(last) {
      InstallEntries(bs[..|bs| - 1], k);
      var b :| b in bs[..|bs| - 1] && k == BuiltinName(b) && Install(bs[..|bs| - 1])[k] == ProcSlot(b);
      assert b in bs;
    } else {
      assert last in bs;
    }
  }

  /** Every built-in of `bs` is found under its name. */
  lemma {:induction false} InstallFinds(bs: seq<Builtin>, b: Builtin)
    requires b in bs
    ensures BuiltinName(b) in Install(bs) && Install(bs)[BuiltinName(b)] == ProcSlot(b)
    decreases |bs|
  {
    var last := bs[|bs| - 1];
    if b != last {
      assert b in bs[..|bs| - 1] by {
        var i :| 0 <= i < |bs| && bs[i] == b;
        assert i < |bs| - 1;
        assert bs[..|bs| - 1][i] == b;
      }
      InstallFinds(bs[..|bs| - 1], b);
      BuiltinNamesDistinct(b, last);
    }
  }

  function SpecialTable(): Env {
    map["lambda" := SpecialSlot(LambdaSpec), "apply" := SpecialSlot(ApplySpec), "map" := SpecialSlot(MapSpec)]
  }

  /** The table `reset` installs after clearing: the constants, the
      built-ins and the three special procedures. */
  function DefaultEnv(h: Host): (r: Env)
    ensures forall k :: k in r ==> (r[k].ExpSlot? <==> k in ConstantTable(h))
    ensures forall k :: k in r ==> !r[k].LambSlot?
    ensures forall k :: k in r && r[k].ProcSlot? ==> BuiltinName(r[k].proc) == k
  {
    LayeredTables(BuiltinTable(), SpecialTable(), ConstantTable(h));
    BuiltinTable() + SpecialTable() + ConstantTable(h)
  }

  /** Built-ins, then specials, then values, each layer overriding the one
      below. */
  lemma LayeredTables(b: Env, sp: Env, c: Env)
    requires forall k :: k in b ==> b[k].ProcSlot? && BuiltinName(b[k].proc) == k
    requires forall k :: k in sp ==> sp[k].SpecialSlot?
    requires forall k :: k in c ==> c[k].ExpSlot?
    ensures var r := b + sp + c;
            && (forall k :: k in r ==> (r[k].ExpSlot? <==> k in c))
            && (forall k :: k in r ==> !r[k].LambSlot?)
            && (forall k :: k in r && r[k].ProcSlot? ==> BuiltinName(r[k].proc) == k)
  {
  }

  /** `reset` installs every built-in under its own name. */
  lemma DefaultEnvBuiltins(h: Host, b: Builtin)
    ensures BuiltinName(b) in DefaultEnv(h) && DefaultEnv(h)[BuiltinName(b)] == ProcSlot(b)
  {
    BuiltinListed(b);
    InstallFinds(AllBuiltins, b);
    ConstantNotBuiltin(h, b);
  }

  lemma BuiltinListed(b: Builtin)
    ensures b in AllBuiltins && BuiltinName(b) !in SpecialTable()
  {
  }

  /** `reset` installs the three special procedures under their names. */
  lemma DefaultEnvSpecials(h: Host, s: Special)
    ensures SpecialName(s) in DefaultEnv(h) && DefaultEnv(h)[SpecialName(s)] == SpecialSlot(s)
  {
    assert SpecialName(s) in SpecialTable() && SpecialName(s) !in ConstantTable(h);
  }

  lemma ConstantNotBuiltin(h: Host, b: Builtin)
    ensures BuiltinName(b) !in ConstantTable(h)
  {
  }

  /** The five constants are installed as value bindings. */
  lemma DefaultEnvConstants(h: Host)
    ensures DefaultEnv(h)["pi"] == ExpSlot(Leaf(Number(h.pi)))
    ensures DefaultEnv(h)["-pi"] == ExpSlot(Leaf(Number(-h.pi)))
    ensures DefaultEnv(h)["e"] == ExpSlot(Leaf(Number(h.e)))
    ensures DefaultEnv(h)["I"] == ExpSlot(Leaf(Complex(0.0, 1.0)))
    ensures DefaultEnv(h)["-I"] == ExpSlot(Leaf(Complex(0.0, -1.0)))
  {
    ConstantWins(h, "pi");
    ConstantWins(h, "-pi");
    ConstantWins(h, "e");
    ConstantWins(h, "I");
    ConstantWins(h, "-I");
  }

  /** No built-in or special procedure shares a constant's name, so each
      constant is found as `reset` entered it. */
  lemma ConstantWins(h: Host, k: string)
    requires k in ConstantTable(h)
    ensures DefaultEnv(h)[k] == ConstantTable(h)[k]
  {
  }

  /** Nothing else is installed: every entry of the fresh table is a
      built-in under its own name, a special procedure or a constant value. */
  lemma DefaultEnvOnly(h: Host, k: string)
    requires k in DefaultEnv(h)
    ensures || (exists b :: k == BuiltinName(b) && DefaultEnv(h)[k] == ProcSlot(b))
            || (k in SpecialTable() && DefaultEnv(h)[k].SpecialSlot?)
            || (k in ConstantTable(h) && DefaultEnv(h)[k].ExpSlot?)
  {
    if k !in ConstantTable(h) && k !in SpecialTable() {
      InstallEntries(AllBuiltins, k);
    }
  }

  /** Distinct built-ins have distinct names, so the table holds all 22. */
  lemma BuiltinNamesDistinct(b1: Builtin, b2: Builtin)
    ensures BuiltinName(b1) == BuiltinName(b2) ==> b1 == b2
  {
  }
}

=== FILE: evaluator.dfy ===
/** The tree-walking evaluator (expression.cpp) and the special procedures
    `apply` and `map` (environment.cpp). The environment is threaded through
    every call: an evaluation returns the environment as it stands afterwards
    together with either a value or an error, so the bindings an error leaves
    behind (the source throws without cleaning up) are kept. */
module Evaluator {
  import opened Results
  import opened Values
  import opened Externals
  import opened Environment
  import opened Builtins

  /** The environment after an evaluation step, and its outcome. */
  datatype Out<T> = Out(env: Env, res: Result<T>)

  /** Every built-in, special procedure and closure binding of `env` is still
      there, unchanged, in `env2`: evaluation only ever adds, removes or
      rebinds plain values, and adds closures. */
  predicate Keeps(env: Env, env2: Env) {
    forall k :: k in env && !env[k].ExpSlot? ==> k in env2 && env2[k] == env[k]
  }

  // ---------------------------------------------------------------- leaves

  /** `handle_lookup`: a bound value, a string literal or a number. */
  function Lookup(a: Atom, env: Env): (r: Result<Expr>)
    ensures r.Ok? <==> IsExp(env, a) || IsStringLiteral(a) || a.Number?
    ensures IsExp(env, a) ==> r == Ok(env[a.name].exp)
    ensures !IsExp(env, a) && (IsStringLiteral(a) || a.Number?) ==> r == Ok(Leaf(a))
    ensures a.Symbol? && r.Err? ==> r == Fail(UnknownSymbol)
    ensures !a.Symbol? && r.Err? ==> r == Fail(InvalidTerminal)
  {
    if a.Symbol? then
      if IsExp(env, a) then Ok(GetExp(env, a))
      else if IsStringLiteral(a) then Ok(Leaf(a))
      else Fail(UnknownSymbol)
    else if a.Number? then Ok(Leaf(a))
    else Fail(InvalidTerminal)
  }

  // --------------------------------------------------------------- closures

  /** Names a closure parameter may not take, besides the built-ins. */
  predicate IsReservedParam(name: string) {
    name == "define" || name == "begin" || name == "lambda" || name == "apply" || name == "map"
  }

  /** The parameter atoms of a parameter specification `(x y z)`: the parser
      makes `x` the head and `y z` the children. */
  function ParamHeads(spec: Expr): (r: seq<Atom>)
    ensures |r| == |spec.tail| + 1 && r[0] == spec.head
    ensures forall i :: 0 <= i < |spec.tail| ==> r[i + 1] == spec.tail[i].head
  {
    [spec.head] + seq(|spec.tail|, i requires 0 <= i < |spec.tail| => spec.tail[i].head)
  }

  predicate AllSymbols(atoms: seq<Atom>) {
    forall i :: 0 <= i < |atoms| ==> atoms[i].Symbol?
  }

  /** A parameter is refused when it names a special form, `apply`, `map` or
      a built-in procedure. */
  predicate ForbiddenParam(env: Env, a: Atom) {
    IsReservedParam(SymbolText(a)) || IsProc(env, a)
  }

  /** No parameter is refused. */
  predicate NoneForbidden(env: Env, heads: seq<Atom>) {
    forall i :: 0 <= i < |heads| ==> !ForbiddenParam(env, heads[i])
  }

  /** `handle_lambda`, also used by `define` with a `lambda` right-hand side:
      validate the parameters and build the closure value. */
  function MakeClosure(tail: seq<Expr>, env: Env): (r: Result<Expr>)
    ensures r.Ok? <==> |tail| == 2 && AllSymbols(ParamHeads(tail[0])) && NoneForbidden(env, ParamHeads(tail[0]))
    ensures r.Ok? ==> r.value.head == Symbol("lambda") && ClosureBodies(r.value) == [tail[1]]
    ensures r.Ok? ==> |ClosureParams(r.value)| == |tail[0].tail| + 1
    ensures r.Ok? ==> forall i :: 0 <= i < |ClosureParams(r.value)| ==> ClosureParams(r.value)[i] == Leaf(ParamHeads(tail[0])[i])
    ensures r.Ok? ==> r.value.props == map[] && |r.value.tail| == 2 && r.value.tail[0] == ListExpr(ClosureParams(r.value))
    ensures |tail| != 2 ==> r == Fail(LambdaArity)
    ensures |tail| == 2 && !AllSymbols(ParamHeads(tail[0])) ==> r == Fail(ParamNotSymbol)
    ensures |tail| == 2 && AllSymbols(ParamHeads(tail[0])) && !NoneForbidden(env, ParamHeads(tail[0])) ==> r == Fail(ReservedParam)
    ensures r.Err? ==> r.error.Semantic?
  {
    if |tail| != 2 then Fail(LambdaArity)
    else
      var heads := ParamHeads(tail[0]);
      if !AllSymbols(heads) then Fail(ParamNotSymbol)
      else if !NoneForbidden(env, heads) then Fail(ReservedParam)
      else
        var clo := Closure(ParamLeaves(heads), tail[1]);
        assert ClosureParams(clo) == ParamLeaves(heads) && ClosureBodies(clo) == [tail[1]];
        Ok(clo)
  }

  /** The parameter atoms as leaf expressions. */
  function ParamLeaves(heads: seq<Atom>): (r: seq<Expr>)
    ensures |r| == |heads| && forall i :: 0 <= i < |heads| ==> r[i] == Leaf(heads[i])
  {
    seq(|heads|, i requires 0 <= i < |heads| => Leaf(heads[i]))
  }

  /** The names of a list of parameters. */
  function ParamNames(params: seq<Expr>): set<string> {
    if params == [] then {} else {SymbolText(params[0].head)} + ParamNames(params[1..])
  }

  /** Binding the arguments of a closure call, left to right: a parameter
      that names a value has that value saved and replaced; any other
      parameter is added, which fails if the name holds a procedure or a
      closure. `bound` holds the names this call has already bound: such a
      name is rebound without being saved, so that `saved` only ever holds
      bindings that existed before the call. On success the result is the
      saved bindings. */
  function Bind(env: Env, params: seq<Expr>, args: seq<Expr>, bound: set<string>, saved: map<string, Expr>)
    : (r: Out<map<string, Expr>>)
    requires |params| == |args|
    ensures Keeps(env, r.env)
    decreases |params|
  {
    if params == [] then Out(env, Ok(saved))
    else
      var a := params[0].head;
      if IsExp(env, a) then
        var saved2 := if a.name in bound then saved else saved[a.name := env[a.name].exp];
        Bind(AddExp(RmExp(env, a), a, args[0]).value, params[1..], args[1..], bound + {a.name}, saved2)
      else
        var added := AddExp(env, a, args[0]);
        if added.Err? then Out(env, Err(added.error))
        else Bind(added.value, params[1..], args[1..], bound + {a.name}, saved)
  }

  /** The binding loop exactly as the source writes it: every parameter that
      names a value has that value saved, even when this very call bound it
      a moment earlier. */
  function BindAsWritten(env: Env, params: seq<Expr>, args: seq<Expr>, saved: map<string, Expr>)
    : (r: Out<map<string, Expr>>)
    requires |params| == |args|
    ensures Keeps(env, r.env)
    decreases |params|
  {
    if params == [] then Out(env, Ok(saved))
    else
      var a := params[0].head;
      if IsExp(env, a) then
        BindAsWritten(AddExp(RmExp(env, a), a, args[0]).value, params[1..], args[1..], saved[a.name := env[a.name].exp])
      else
        var added := AddExp(env, a, args[0]);
        if added.Err? then Out(env, Err(added.error))
        else BindAsWritten(added.value, params[1..], args[1..], saved)
  }

  /** Remove every parameter that names a value. */
  function Unbind(env: Env, params: seq<Expr>): (r: Env)
    ensures Keeps(env, r)
    decreases |params|
  {
    if params == [] then env
    else
      var a := params[0].head;
      Unbind(if IsExp(env, a) then RmExp(env, a) else env, params[1..])
  }

  /** Add the saved bindings back; a name already present would be refused. */
  function Restore(env: Env, saved: map<string, Expr>): (r: Result<Env>)
    ensures r.Ok? <==> forall k :: k in saved ==> k !in env
    ensures r.Ok? ==> r.value.Keys == env.Keys + saved.Keys
    ensures r.Ok? ==> forall k :: k in r.value ==> r.value[k] == if k in saved then ExpSlot(saved[k]) else env[k]
    ensures r.Ok? ==> Keeps(env, r.value)
  {
    if exists k :: k in saved && k in env then Fail(Overwrite)
    else Ok(map k | k in env.Keys + saved.Keys :: if k in saved then ExpSlot(saved[k]) else env[k])
  }

  /** What the binding loop keeps true, relative to the table `env0` the
      call started from: the names bound so far hold values, every other
      name is untouched, and `saved` holds exactly the earlier values of the
      bound names that had one. */
  ghost predicate BindInv(env0: Env, env: Env, bound: set<string>, saved: map<string, Expr>) {
    && (forall k :: k in saved <==> k in bound && k in env0)
    && (forall k :: k in saved ==> env0[k] == ExpSlot(saved[k]))
    && (forall k :: k !in bound ==> (k in env <==> k in env0))
    && (forall k :: k !in bound && k in env ==> env[k] == env0[k])
    && (forall k :: k in bound ==> k in env && env[k].ExpSlot?)
  }

  lemma {:induction false} BindKeepsInv(env0: Env, env: Env, params: seq<Expr>, args: seq<Expr>,
                                         bound: set<string>, saved: map<string, Expr>)
    requires |params| == |args| && BindInv(env0, env, bound, saved)
    requires Bind(env, params, args, bound, saved).res.Ok?
    ensures var r := Bind(env, params, args, bound, saved);
            BindInv(env0, r.env, bound + ParamNames(params), r.res.value)
    ensures forall i :: 0 <= i < |params| ==> params[i].head.Symbol?
    decreases |params|
  {
    if params != [] {
      var a := params[0].head;
      var tail := params[1..];
      if IsExp(env, a) {
        var saved2 := if a.name in bound then saved else saved[a.name := env[a.name].exp];
        var env2 := AddExp(RmExp(env, a), a, args[0]).value;
        RebindKeepsInv(env0, env, a, args[0], bound, saved);
        BindKeepsInv(env0, env2, tail, args[1..], bound + {a.name}, saved2);
      } else {
        var env2 := AddExp(env, a, args[0]).value;
        AddKeepsInv(env0, env, a, args[0], bound, saved);
        BindKeepsInv(env0, env2, tail, args[1..], bound + {a.name}, saved);
      }
      assert bound + {a.name} + ParamNames(tail) == bound + ParamNames(params);
    }
    BindNeedsSymbols(env, params, args, bound, saved);
  }

  /** A binding loop that succeeds met only symbols as parameters. */
  lemma {:induction false} BindNeedsSymbols(env: Env, params: seq<Expr>, args: seq<Expr>, bound: set<string>,
                                            saved: map<string, Expr>)
    requires |params| == |args| && Bind(env, params, args, bound, saved).res.Ok?
    ensures forall i :: 0 <= i < |params| ==> params[i].head.Symbol?
    decreases |params|
  {
    if params != [] {
      var a := params[0].head;
      var tail := params[1..];
      if IsExp(env, a) {
        var saved2 := if a.name in bound then saved else saved[a.name := env[a.name].exp];
        BindNeedsSymbols(AddExp(RmExp(env, a), a, args[0]).value, tail, args[1..], bound + {a.name}, saved2);
      } else {
        BindNeedsSymbols(AddExp(env, a, args[0]).value, tail, args[1..], bound + {a.name}, saved);
      }
      forall i | 0 <= i < |params| ensures params[i].head.Symbol? {
        if i > 0 { assert params[i] == tail[i - 1]; }
      }
    }
  }

  /** Rebinding a name that holds a value saves that value, unless this
      call bound the name itself. */
  lemma RebindKeepsInv(env0: Env, env: Env, a: Atom, e: Expr, bound: set<string>, saved: map<string, Expr>)
    requires BindInv(env0, env, bound, saved) && IsExp(env, a)
    ensures BindInv(env0, AddExp(RmExp(env, a), a, e).value, bound + {a.name},
                    if a.name in bound then saved else saved[a.name := env[a.name].exp])
  {
  }

  /** Adding a fresh name saves nothing. */
  lemma AddKeepsInv(env0: Env, env: Env, a: Atom, e: Expr, bound: set<string>, saved: map<string, Expr>)
    requires BindInv(env0, env, bound, saved) && AddExp(env, a, e).Ok?
    ensures BindInv(env0, AddExp(env, a, e).value, bound + {a.name}, saved)
  {
  }

  /** Unbinding removes exactly the parameter names, when each of them that
      is present holds a value. */
  lemma {:induction false} UnbindRemovesNames(env: Env, params: seq<Expr>)
    requires forall i :: 0 <= i < |params| ==> params[i].head.Symbol?
    requires forall k :: k in ParamNames(params) && k in env ==> env[k].ExpSlot?
    ensures Unbind(env, params) == env - ParamNames(params)
    decreases |params|
  {
    if params != [] {
      var a := params[0].head;
      var env2 := if IsExp(env, a) then RmExp(env, a) else env;
      forall i | 0 <= i < |params[1..]| ensures params[1..][i].head.Symbol? {
        assert params[1..][i] == params[i + 1];
      }
      UnbindRemovesNames(env2, params[1..]);
      assert env2 - ParamNames(params[1..]) == env - ParamNames(params);
    }
  }

  /** A successful binding, followed by unbinding and restoring, gives back
      the table the call started from. */
  lemma BindThenRestore(env: Env, params: seq<Expr>, args: seq<Expr>)
    requires |params| == |args| && Bind(env, params, args, {}, map[]).res.Ok?
    ensures var b := Bind(env, params, args, {}, map[]);
            Restore(Unbind(b.env, params), b.res.value) == Ok(env)
  {
    var b := Bind(env, params, args, {}, map[]);
    assert BindInv(env, env, {}, map[]);
    BindKeepsInv(env, env, params, args, {}, map[]);
    assert {} + ParamNames(params) == ParamNames(params);
    UnbindRemovesNames(b.env, params);
    var u := Unbind(b.env, params);
    var rs := Restore(u, b.res.value);
    assert rs.Ok?;
    assert rs.value.Keys == env.Keys;
    assert rs.value == env;
  }

  // -------------------------------------------------------------- procedures

  /** Calling what `get_proc` returned. */
  function CallProc(h: Host, p: Proc, args: seq<Expr>): (r: Result<Expr>)
    ensures p.DefaultProc? ==> r == Ok(NoneExpr)
    ensures p.BuiltinProc? ==> r == CallBuiltin(h, p.builtin, args)
  {
    match p
    case DefaultProc => Ok(NoneExpr)
    case BuiltinProc(b) => CallBuiltin(h, b, args)
  }

  /** `map` with a built-in: the procedure applied to each item alone. */
  function MapProc(h: Host, p: Proc, xs: seq<Expr>): (r: Result<seq<Expr>>)
    ensures r.Ok? <==> forall i :: 0 <= i < |xs| ==> CallProc(h, p, [xs[i]]).Ok?
    ensures r.Ok? ==> |r.value| == |xs| && forall i :: 0 <= i < |xs| ==> r.value[i] == CallProc(h, p, [xs[i]]).value
    decreases |xs|
  {
    if xs == [] then Ok([])
    else
      var first := CallProc(h, p, [xs[0]]);
      if first.Err? then Err(first.error)
      else
        var rest := MapProc(h, p, xs[1..]);
        if rest.Err? then Err(rest.error)
        else
          TailIndex(xs);
          Ok([first.value] + rest.value)
  }

  lemma TailIndex(xs: seq<Expr>)
    requires xs != []
    ensures forall i :: 1 <= i < |xs| ==> xs[i] == xs[1..][i - 1]
  {
  }

  // ---------------------------------------------------------------- eval

  /** `Expression::eval`, bounded by `fuel`: every call consumes one unit, and
      running out yields `Exhausted`. */
  function Eval(h: Host, e: Expr, env: Env, fuel: nat): (r: Out<Expr>)
    ensures Keeps(env, r.env)
    decreases fuel, 0, 0
  {
    if fuel == 0 then Out(env, Err(Exhausted))
    else
      var f := fuel - 1;
      var name := SymbolText(e.head);
      if e.tail == [] && name != "list" then Out(env, Lookup(e.head, env))
      else if name == "begin" then HandleBegin(h, e.tail, env, f)
      else if name == "define" then HandleDefine(h, e.tail, env, f)
      else if name == "lambda" then Out(env, MakeClosure(e.tail, env))
      else if name == "apply" || name == "map" then
        if |e.tail[0].tail| > 0 && SymbolText(e.tail[0].head) != "lambda" then
          Out(env, Fail(FormNotProcedure))
        else ApplyOp(h, e.head, e.tail, env, f)
      else if name == "continuous-plot" then
        var o := EvalArgs(h, e.tail[1..], env, f);
        if o.res.Err? then Out(o.env, Err(o.res.error))
        else Out(o.env, h.continuousPlot([e.tail[0]] + o.res.value))
      else
        var o := EvalArgs(h, e.tail, env, f);
        if o.res.Err? then Out(o.env, Err(o.res.error))
        else if name == "set-property" then Out(o.env, SetProperty(o.res.value))
        else if name == "get-property" then Out(o.env, GetProperty(o.res.value))
        else if name == "discrete-plot" then Out(o.env, h.discretePlot(o.res.value))
        else ApplyOp(h, e.head, o.res.value, o.env, f)
  }

  /** Evaluate expressions left to right, each in the table the previous
      one left; stop at the first error. */
  function EvalArgs(h: Host, es: seq<Expr>, env: Env, fuel: nat): (r: Out<seq<Expr>>)
    ensures Keeps(env, r.env)
    ensures r.res.Ok? ==> |r.res.value| == |es|
    decreases fuel, 1, |es|
  {
    if es == [] then Out(env, Ok([]))
    else
      var first := Eval(h, es[0], env, fuel);
      if first.res.Err? then Out(first.env, Err(first.res.error))
      else
        var rest := EvalArgs(h, es[1..], first.env, fuel);
        if rest.res.Err? then Out(rest.env, Err(rest.res.error))
        else Out(rest.env, Ok([first.res.value] + rest.res.value))
  }

  /** `handle_begin`: the value of the last expression, or None for none. */
  function HandleBegin(h: Host, es: seq<Expr>, env: Env, fuel: nat): (r: Out<Expr>)
    ensures Keeps(env, r.env)
    decreases fuel, 2, 0
  {
    var o := EvalArgs(h, es, env, fuel);
    if o.res.Err? then Out(o.env, Err(o.res.error))
    else if o.res.value == [] then Out(o.env, Ok(NoneExpr))
    else Out(o.env, Ok(o.res.value[|o.res.value| - 1]))
  }

  /** `handle_define`. A `lambda` right-hand side is bound as a closure; any
      other is evaluated first and then bound as a value, which fails if the
      name is already taken, except that a `set-property` right-hand side may
      replace an existing value. */
  function HandleDefine(h: Host, tail: seq<Expr>, env: Env, fuel: nat): (r: Out<Expr>)
    ensures Keeps(env, r.env)
    ensures r.res.Ok? ==>
      && |tail| == 2 && tail[0].head.Symbol?
      && tail[0].head.name != "define" && tail[0].head.name != "begin" && tail[0].head.name != "lambda"
      && !IsProc(env, tail[0].head)
    ensures r.res.Ok? ==> tail[0].head.name in r.env
                          && (r.env[tail[0].head.name] == ExpSlot(r.res.value) || r.env[tail[0].head.name] == LambSlot(r.res.value))
    ensures r.res.Ok? && SymbolText(tail[1].head) == "lambda" ==>
      tail[0].head.name !in env && r.env == env[tail[0].head.name := LambSlot(r.res.value)]
    ensures r.res.Err? && |tail| == 2 && tail[0].head.Symbol? && SymbolText(tail[1].head) == "lambda" ==> r.env == env
    ensures r.res.Ok? && SymbolText(tail[1].head) != "lambda" && SymbolText(tail[1].head) != "set-property" ==>
      var o := Eval(h, tail[1], env, fuel);
      tail[0].head.name !in o.env && r.env == o.env[tail[0].head.name := ExpSlot(r.res.value)]
    ensures |tail| != 2 ==> r == Out(env, Fail(DefineArity))
    ensures |tail| == 2 && !tail[0].head.Symbol? ==> r == Out(env, Fail(DefineNotSymbol))
    ensures |tail| == 2 && tail[0].head.Symbol? && tail[0].head.name in {"define", "begin", "lambda"} ==>
      r == Out(env, Fail(RedefineSpecial))
    ensures |tail| == 2 && tail[0].head.Symbol? && tail[0].head.name !in {"define", "begin", "lambda"} && IsProc(env, tail[0].head) ==>
      r == Out(env, Fail(RedefineBuiltin))
    decreases fuel, 2, 1
  {
    if |tail| != 2 then Out(env, Fail(DefineArity))
    else if !tail[0].head.Symbol? then Out(env, Fail(DefineNotSymbol))
    else
      var a := tail[0].head;
      if a.name == "define" || a.name == "begin" || a.name == "lambda" then
        Out(env, Fail(RedefineSpecial))
      else if IsProc(env, a) then
        Out(env, Fail(RedefineBuiltin))
      else if SymbolText(tail[1].head) == "lambda" then DefineLambda(tail[1].tail, a, env)
      else DefineValue(h, a, tail[1], env, fuel)
  }

  /** `define` of a name to the value of an evaluated right-hand side. A
      `set-property` right-hand side may replace an existing value binding;
      any other may not. */
  function DefineValue(h: Host, a: Atom, rhs: Expr, env: Env, fuel: nat): (r: Out<Expr>)
    requires a.Symbol?
    ensures Keeps(env, r.env)
    ensures r.res.Ok? ==> a.name in r.env && r.env[a.name] == ExpSlot(r.res.value)
    ensures var o := Eval(h, rhs, env, fuel);
            && (o.res.Err? ==> r == o)
            && (o.res.Ok? && (SymbolText(rhs.head) != "set-property" || !IsExp(o.env, a)) ==>
                  if a.name in o.env then r == Out(o.env, Fail(Overwrite))
                  else r == Out(o.env[a.name := ExpSlot(o.res.value)], o.res))
            && (o.res.Ok? && SymbolText(rhs.head) == "set-property" && IsExp(o.env, a) ==>
                  r == Out(o.env[a.name := ExpSlot(o.res.value)], o.res))
    decreases fuel, 2, 0
  {
    var o := Eval(h, rhs, env, fuel);
    if o.res.Err? then o
    else if SymbolText(rhs.head) == "set-property" && IsExp(o.env, a) then
      Out(AddExp(RmExp(o.env, a), a, o.res.value).value, o.res)
    else
      var added := AddExp(o.env, a, o.res.value);
      if added.Err? then Out(o.env, Err(added.error)) else Out(added.value, o.res)
  }

  /** `define` of a name to a closure: the name must be fresh, and the
      table is unchanged when the closure or the binding fails. */
  function DefineLambda(lam: seq<Expr>, a: Atom, env: Env): (r: Out<Expr>)
    requires a.Symbol?
    ensures r.res.Ok? ==> a.name !in env && r.env == env[a.name := LambSlot(r.res.value)]
    ensures r.res.Err? ==> r.env == env
  {
    var c := MakeClosure(lam, env);
    if c.Err? then Out(env, Err(c.error))
    else
      var added := AddLamb(env, a, c.value);
      if added.Err? then Out(env, Err(added.error)) else Out(added.value, Ok(c.value))
  }

  /** The closure bodies, each evaluated as the `lambda` special procedure
      does: in the current table, which is put back afterwards when the body
      succeeds (and left as it is when it fails). */
  function EvalBodies(h: Host, bodies: seq<Expr>, env: Env, fuel: nat): (r: Out<seq<Expr>>)
    ensures Keeps(env, r.env)
    ensures r.res.Ok? ==> r.env == env && |r.res.value| == |bodies|
    decreases fuel, 2, |bodies|
  {
    if bodies == [] then Out(env, Ok([]))
    else
      var first := Eval(h, bodies[0], env, fuel);
      if first.res.Err? then Out(first.env, Err(first.res.error))
      else
        var rest := EvalBodies(h, bodies[1..], env, fuel);
        if rest.res.Err? then rest
        else Out(env, Ok([first.res.value] + rest.res.value))
  }

  /** A closure call: check the number of arguments, bind, evaluate every
      body, unbind, restore; the results of all bodies. */
  function CallClosureAll(h: Host, clo: Expr, args: seq<Expr>, env: Env, fuel: nat): (r: Out<seq<Expr>>)
    ensures Keeps(env, r.env)
    ensures r.res.Ok? ==> r.env == env && |r.res.value| == |ClosureBodies(clo)|
    ensures |args| != |ClosureParams(clo)| ==> r == Out(env, Fail(CallArity("procedure")))
    decreases fuel, 3, 0
  {
    var params := ClosureParams(clo);
    if |args| != |params| then Out(env, Fail(CallArity("procedure")))
    else
      var b := Bind(env, params, args, {}, map[]);
      if b.res.Err? then Out(b.env, Err(b.res.error))
      else
        var o := EvalBodies(h, ClosureBodies(clo), b.env, fuel);
        if o.res.Err? then Out(o.env, Err(o.res.error))
        else
          BindThenRestore(env, params, args);
          Out(Restore(Unbind(b.env, params), b.res.value).value, Ok(o.res.value))
  }

  /** A closure call's value: that of its last body, or None. */
  function CallClosure(h: Host, clo: Expr, args: seq<Expr>, env: Env, fuel: nat): (r: Out<Expr>)
    ensures Keeps(env, r.env)
    ensures r.res.Ok? ==> r.env == env
    decreases fuel, 4, 0
  {
    var o := CallClosureAll(h, clo, args, env, fuel);
    if o.res.Err? then Out(o.env, Err(o.res.error))
    else if o.res.value == [] then Out(o.env, Ok(NoneExpr))
    else Out(o.env, Ok(o.res.value[|o.res.value| - 1]))
  }

  /** `map` with a closure: a closure without parameters contributes nothing;
      otherwise each item is passed alone, and every body's value is
      collected. */
  function MapClosure(h: Host, clo: Expr, xs: seq<Expr>, env: Env, fuel: nat): (r: Out<seq<Expr>>)
    ensures Keeps(env, r.env)
    ensures r.res.Ok? ==> r.env == env
    ensures ClosureParams(clo) == [] ==> r == Out(env, Ok([]))
    ensures |ClosureParams(clo)| > 1 && xs != [] ==> r == Out(env, Fail(CallArity("procedure")))
    decreases fuel, 4, |xs|
  {
    if ClosureParams(clo) == [] || xs == [] then Out(env, Ok([]))
    else
      var first := CallClosureAll(h, clo, [xs[0]], env, fuel);
      if first.res.Err? then Out(first.env, Err(first.res.error))
      else
        var rest := MapClosure(h, clo, xs[1..], env, fuel);
        if rest.res.Err? then rest
        else Out(env, Ok(first.res.value + rest.res.value))
  }

  /** A successful `map` of a closure with parameters has one result per
      item and body. */
  lemma {:induction false} MapClosureLength(h: Host, clo: Expr, xs: seq<Expr>, env: Env, fuel: nat)
    requires MapClosure(h, clo, xs, env, fuel).res.Ok? && |ClosureParams(clo)| > 0
    ensures |MapClosure(h, clo, xs, env, fuel).res.value| == |xs| * |ClosureBodies(clo)|
    decreases |xs|
  {
    if xs != [] {
      MapClosureCons(h, clo, xs, env, fuel);
      MapClosureLength(h, clo, xs[1..], env, fuel);
      MulSucc(|xs[1..]|, |ClosureBodies(clo)|);
    }
  }

  lemma MapClosureCons(h: Host, clo: Expr, xs: seq<Expr>, env: Env, fuel: nat)
    requires MapClosure(h, clo, xs, env, fuel).res.Ok? && |ClosureParams(clo)| > 0 && xs != []
    ensures MapClosure(h, clo, xs[1..], env, fuel).res.Ok?
    ensures |MapClosure(h, clo, xs, env, fuel).res.value|
         == |ClosureBodies(clo)| + |MapClosure(h, clo, xs[1..], env, fuel).res.value|
  {
  }

  lemma MulSucc(n: nat, k: nat)
    ensures (n + 1) * k == k + n * k
  {
  }

  /** The call `map` makes for each item: the closure on that item alone,
      from the same table. */
  function ItemCalls(h: Host, clo: Expr, xs: seq<Expr>, env: Env, fuel: nat): (r: seq<Out<seq<Expr>>>)
    ensures |r| == |xs|
    ensures forall i :: 0 <= i < |xs| ==> r[i] == CallClosureAll(h, clo, [xs[i]], env, fuel)
    ensures forall i :: 0 <= i < |xs| && r[i].res.Ok? ==> |r[i].res.value| == |ClosureBodies(clo)|
  {
    seq(|xs|, i requires 0 <= i < |xs| => CallClosureAll(h, clo, [xs[i]], env, fuel))
  }

  /** The values of several calls laid end to end, in order; a failed call
      contributes nothing. */
  function Joined(os: seq<Out<seq<Expr>>>): seq<Expr>
    decreases |os|
  {
    if os == [] then [] else (if os[0].res.Ok? then os[0].res.value else []) + Joined(os[1..])
  }

  /** `m` is what running `calls` one after another gives: it succeeds
      exactly when every call does, gives their values end to end, and
      otherwise ends as the first failing call. */
  predicate ItemByItem(m: Out<seq<Expr>>, calls: seq<Out<seq<Expr>>>) {
    && (m.res.Ok? <==> forall i :: 0 <= i < |calls| ==> calls[i].res.Ok?)
    && (m.res.Ok? ==> m.res.value == Joined(calls))
    && (m.res.Err? ==> exists i :: 0 <= i < |calls| && m == calls[i] && forall j :: 0 <= j < i ==> calls[j].res.Ok?)
  }

  /** `map` of a closure with parameters calls it on each item alone, in
      order, from the same table. */
  lemma {:induction false} MapClosureItems(h: Host, clo: Expr, xs: seq<Expr>, env: Env, fuel: nat)
    requires |ClosureParams(clo)| > 0
    ensures ItemByItem(MapClosure(h, clo, xs, env, fuel), ItemCalls(h, clo, xs, env, fuel))
    decreases |xs|
  {
    if xs != [] {
      ItemCallsTail(h, clo, xs, env, fuel);
      MapClosureItems(h, clo, xs[1..], env, fuel);
      MapClosureStep(h, clo, xs, env, fuel);
      ItemByItemCons(ItemCalls(h, clo, xs, env, fuel), MapClosure(h, clo, xs[1..], env, fuel), MapClosure(h, clo, xs, env, fuel), env);
    }
  }

  /** Running one more call in front keeps `ItemByItem`. */
  lemma ItemByItemCons(calls: seq<Out<seq<Expr>>>, mr: Out<seq<Expr>>, m: Out<seq<Expr>>, env: Env)
    requires calls != [] && ItemByItem(mr, calls[1..])
    requires m == if calls[0].res.Err? then calls[0] else if mr.res.Err? then mr else Out(env, Ok(calls[0].res.value + mr.res.value))
    ensures ItemByItem(m, calls)
  {
    if calls[0].res.Ok? && mr.res.Err? {
      var i :| 0 <= i < |calls[1..]| && mr == calls[1..][i] && forall j :: 0 <= j < i ==> calls[1..][j].res.Ok?;
      FirstFailureShift(calls, i);
      assert m == calls[i + 1];
    } else if calls[0].res.Ok? {
      assert Joined(calls) == calls[0].res.value + Joined(calls[1..]);
      forall i | 0 <= i < |calls|
        ensures calls[i].res.Ok?
      {
        if i > 0 {
          assert calls[i] == calls[1..][i - 1];
        }
      }
    } else {
      assert m == calls[0];
    }
  }

  lemma ItemCallsTail(h: Host, clo: Expr, xs: seq<Expr>, env: Env, fuel: nat)
    requires xs != []
    ensures ItemCalls(h, clo, xs[1..], env, fuel) == ItemCalls(h, clo, xs, env, fuel)[1..]
  {
    var calls := ItemCalls(h, clo, xs, env, fuel);
    var rest := ItemCalls(h, clo, xs[1..], env, fuel);
    forall i | 0 <= i < |rest|
      ensures rest[i] == calls[1..][i]
    {
      assert xs[1..][i] == xs[i + 1];
    }
  }

  /** One step of `MapClosure`, in terms of the first item's call. */
  lemma MapClosureStep(h: Host, clo: Expr, xs: seq<Expr>, env: Env, fuel: nat)
    requires |ClosureParams(clo)| > 0 && xs != []
    ensures var first := ItemCalls(h, clo, xs, env, fuel)[0];
            var mr := MapClosure(h, clo, xs[1..], env, fuel);
            MapClosure(h, clo, xs, env, fuel)
              == if first.res.Err? then first else if mr.res.Err? then mr else Out(env, Ok(first.res.value + mr.res.value))
  {
  }

  /** A failure first met at `i` in the tail is first met at `i + 1`. */
  lemma FirstFailureShift(calls: seq<Out<seq<Expr>>>, i: nat)
    requires calls != [] && calls[0].res.Ok? && i < |calls| - 1
    requires forall j :: 0 <= j < i ==> calls[1..][j].res.Ok?
    ensures forall j :: 0 <= j < i + 1 ==> calls[j].res.Ok?
  {
    forall j | 0 <= j < i + 1
      ensures calls[j].res.Ok?
    {
      if j > 0 {
        assert calls[j] == calls[1..][j - 1];
      }
    }
  }

  /** Calls that each give exactly one value, laid end to end, give one value
      per call, in order. */
  lemma {:induction false} JoinedSingles(os: seq<Out<seq<Expr>>>)
    requires forall i :: 0 <= i < |os| ==> os[i].res.Ok? && |os[i].res.value| == 1
    ensures |Joined(os)| == |os|
    ensures forall i :: 0 <= i < |os| ==> Joined(os)[i] == os[i].res.value[0]
    decreases |os|
  {
    if os != [] {
      var tail := os[1..];
      assert forall i :: 0 <= i < |tail| ==> tail[i] == os[i + 1];
      JoinedSingles(tail);
      var j := Joined(tail);
      assert os[0].res.value == [os[0].res.value[0]];
      assert Joined(os) == [os[0].res.value[0]] + j;
      forall i | 0 <= i < |os|
        ensures Joined(os)[i] == os[i].res.value[0]
      {
        if i > 0 {
          assert Joined(os)[i] == j[i - 1];
          assert os[i] == tail[i - 1];
        }
      }
    }
  }

  /** A closure with parameters and one body, as `lambda` builds: a
      successful `map` gives one value per item, the i-th being the
      closure's value on the i-th item alone. */
  lemma MapClosureOneBody(h: Host, clo: Expr, xs: seq<Expr>, env: Env, fuel: nat)
    requires |ClosureParams(clo)| > 0 && |ClosureBodies(clo)| == 1
    requires MapClosure(h, clo, xs, env, fuel).res.Ok?
    ensures var v := MapClosure(h, clo, xs, env, fuel).res.value;
            && |v| == |xs|
            && forall i :: 0 <= i < |xs| ==>
                 CallClosureAll(h, clo, [xs[i]], env, fuel).res.Ok? && v[i] == CallClosureAll(h, clo, [xs[i]], env, fuel).res.value[0]
  {
    MapClosureItems(h, clo, xs, env, fuel);
    JoinedSingles(ItemCalls(h, clo, xs, env, fuel));
  }

  /** The `apply` special procedure, given its unevaluated arguments. */
  function SpecialApply(h: Host, args: seq<Expr>, env: Env, fuel: nat): (r: Out<Expr>)
    ensures Keeps(env, r.env)
    ensures |args| != 2 ==> r == Out(env, Fail(CallArity("apply")))
    ensures |args| == 2 && !IsProc(env, args[0].head) && !IsLamb(env, args[0].head) ==>
      r == Out(env, Fail(FirstNotProcedure("apply")))
    ensures |args| == 2 && (IsProc(env, args[0].head) || IsLamb(env, args[0].head)) && SymbolText(args[1].head) != "list" ==>
      r == Out(env, Fail(SecondNotList("apply")))
    decreases fuel, 5, 0
  {
    if |args| != 2 then Out(env, Fail(CallArity("apply")))
    else if IsProc(env, args[0].head) then
      if SymbolText(args[1].head) == "list" then
        var o := EvalArgs(h, args[1].tail, env, fuel);
        if o.res.Err? then Out(o.env, Err(o.res.error))
        else Out(o.env, CallProc(h, GetProc(o.env, args[0].head), o.res.value))
      else Out(env, Fail(SecondNotList("apply")))
    else if IsLamb(env, args[0].head) then
      if SymbolText(args[1].head) == "list" then
        var o := EvalArgs(h, args[1].tail, env, fuel);
        if o.res.Err? then Out(o.env, Err(o.res.error))
        else CallClosure(h, GetLamb(o.env, args[0].head), o.res.value, o.env, fuel)
      else Out(env, Fail(SecondNotList("apply")))
    else Out(env, Fail(FirstNotProcedure("apply")))
  }

  /** The `map` special procedure, given its unevaluated arguments. */
  function SpecialMap(h: Host, args: seq<Expr>, env: Env, fuel: nat): (r: Out<Expr>)
    ensures Keeps(env, r.env)
    ensures |args| != 2 ==> r == Out(env, Fail(CallArity("map")))
    ensures |args| == 2 && !IsProc(env, args[0].head) && !IsLamb(env, args[0].head) ==>
      r == Out(env, Fail(FirstNotProcedure("map")))
    ensures |args| == 2 && IsProc(env, args[0].head) && SymbolText(args[1].head) != "list" ==>
      r == Out(env, Fail(SecondNotList("map")))
    ensures |args| == 2 && IsLamb(env, args[0].head) && SymbolText(args[1].head) !in {"list", "List", "range"} ==>
      r == Out(env, Fail(SecondNotList("map")))
    ensures r.res.Ok? ==> IsList(r.res.value)
    decreases fuel, 5, 0
  {
    if |args| != 2 then Out(env, Fail(CallArity("map")))
    else if IsProc(env, args[0].head) then
      if SymbolText(args[1].head) == "list" then
        var o := EvalArgs(h, args[1].tail, env, fuel);
        if o.res.Err? then Out(o.env, Err(o.res.error))
        else
          var m := MapProc(h, GetProc(o.env, args[0].head), o.res.value);
          if m.Err? then Out(o.env, Err(m.error)) else Out(o.env, Ok(ListExpr(m.value)))
      else Out(env, Fail(SecondNotList("map")))
    else if IsLamb(env, args[0].head) then
      var kind := SymbolText(args[1].head);
      if kind == "list" || kind == "List" then
        var o := EvalArgs(h, args[1].tail, env, fuel);
        if o.res.Err? then Out(o.env, Err(o.res.error))
        else
          var m := MapClosure(h, GetLamb(o.env, args[0].head), o.res.value, o.env, fuel);
          if m.res.Err? then Out(m.env, Err(m.res.error)) else Out(m.env, Ok(ListExpr(m.res.value)))
      else if kind == "range" then
        var values := CallProc(h, GetProc(env, Symbol("range")), args[1].tail);
        if values.Err? then Out(env, Err(values.error))
        else
          var m := MapClosure(h, GetLamb(env, args[0].head), values.value.tail, env, fuel);
          if m.res.Err? then Out(m.env, Err(m.res.error)) else Out(m.env, Ok(ListExpr(m.res.value)))
      else Out(env, Fail(SecondNotList("map")))
    else Out(env, Fail(FirstNotProcedure("map")))
  }

  /** The free function `apply(op, args, env)`: a built-in, a closure, or
      one of the special procedures `apply` and `map`. */
  function ApplyOp(h: Host, op: Atom, args: seq<Expr>, env: Env, fuel: nat): (r: Out<Expr>)
    ensures Keeps(env, r.env)
    ensures !op.Symbol? ==> r == Out(env, Fail(OperatorNotSymbol))
    ensures IsProc(env, op) ==> r == Out(env, CallBuiltin(h, env[op.name].proc, args))
    ensures op.Symbol? && !IsProc(env, op) && !IsLamb(env, op) && op.name != "apply" && op.name != "map" ==>
      r == Out(env, Fail(NotAProcedure))
    ensures IsLamb(env, op) && r.res.Ok? ==> r.env == env
    decreases fuel, 6, 0
  {
    if !op.Symbol? then Out(env, Fail(OperatorNotSymbol))
    else if IsProc(env, op) then Out(env, CallProc(h, GetProc(env, op), args))
    else if IsLamb(env, op) then CallClosure(h, GetLamb(env, op), args, env, fuel)
    else if op.name == "apply" then SpecialApply(h, args, env, fuel)
    else if op.name == "map" then SpecialMap(h, args, env, fuel)
    else Out(env, Fail(NotAProcedure))
  }
}

=== FILE: evaluator_laws.dfy ===
/** Laws of the evaluator: how its forms relate to one another, and what a
    closure call does to the symbol table. */
module EvaluatorLaws {
  import opened Results
  import opened Values
  import opened Externals
  import opened Environment
  import opened Builtins
  import opened Evaluator

  /** The expression `(name args...)`. */
  function Form(name: string, args: seq<Expr>): Expr {
    Expr(Symbol(name), args, map[])
  }

  /** After any evaluation that starts from the table `reset` installs, every
      built-in and special procedure is still there. */
  lemma DefaultsSurvive(h: Host, e: Expr, fuel: nat, b: Builtin, s: Special)
    ensures var env := Eval(h, e, DefaultEnv(h), fuel).env;
            && BuiltinName(b) in env && env[BuiltinName(b)] == ProcSlot(b)
            && SpecialName(s) in env && env[SpecialName(s)] == SpecialSlot(s)
  {
    DefaultEnvBuiltins(h, b);
    DefaultEnvSpecials(h, s);
  }

  /** Numbers evaluate to themselves. */
  lemma NumberSelfEvaluates(h: Host, x: real, env: Env, fuel: nat)
    requires fuel > 0
    ensures Eval(h, Leaf(Number(x)), env, fuel) == Out(env, Ok(Leaf(Number(x))))
  {
  }

  /** A leaf evaluates by lookup: a value binding gives its value, a string
      literal gives itself, and any other symbol is unknown. */
  lemma LeafEvaluation(h: Host, a: Atom, env: Env, fuel: nat)
    requires fuel > 0 && SymbolText(a) != "list"
    ensures var r := Eval(h, Leaf(a), env, fuel);
            && r.env == env
            && (IsExp(env, a) ==> r.res == Ok(env[a.name].exp))
            && (!IsExp(env, a) && IsStringLiteral(a) ==> r.res == Ok(Leaf(a)))
            && (a.Symbol? && !IsExp(env, a) && !IsStringLiteral(a) ==> r.res == Fail(UnknownSymbol))
  {
  }

  /** `(begin)` has no children, so it is looked up as the symbol `begin`;
      the None value `handle_begin` would give is never reached. */
  lemma EmptyBeginIsLookup(h: Host, env: Env, fuel: nat)
    requires fuel > 0 && !IsExp(env, Symbol("begin"))
    ensures Eval(h, Form("begin", []), env, fuel) == Out(env, Fail(UnknownSymbol))
  {
  }

  /** `begin` evaluates its children in order, threading the table, and
      gives the value of the last one. */
  lemma BeginGivesLast(h: Host, es: seq<Expr>, env: Env, fuel: nat)
    requires fuel > 0 && es != []
    ensures var r := Eval(h, Form("begin", es), env, fuel);
            var o := EvalArgs(h, es, env, fuel - 1);
            && r.env == o.env
            && (o.res.Ok? ==> r.res == Ok(o.res.value[|es| - 1]))
            && (o.res.Err? ==> r.res == Err(o.res.error))
  {
  }

  /** `(begin e)` is `e`. */
  lemma BeginSingle(h: Host, e: Expr, env: Env, fuel: nat)
    requires fuel > 0
    ensures Eval(h, Form("begin", [e]), env, fuel) == Eval(h, e, env, fuel - 1)
  {
    var o := Eval(h, e, env, fuel - 1);
    assert [e][1..] == [];
    if o.res.Ok? {
      assert EvalArgs(h, [], o.env, fuel - 1) == Out(o.env, Ok([]));
      assert [e][0] == e && [o.res.value] + [] == [o.res.value];
      assert EvalArgs(h, [e], env, fuel - 1) == Out(o.env, Ok([o.res.value]));
    } else {
      assert EvalArgs(h, [e], env, fuel - 1) == Out(o.env, Err(o.res.error));
    }
  }

  /** `(define x rhs)` for an admissible name goes to the closure branch
      or the value branch of `define`. */
  lemma DefineDispatch(h: Host, x: string, rhs: Expr, env: Env, fuel: nat)
    requires fuel > 0 && x != "define" && x != "begin" && x != "lambda" && !IsProc(env, Symbol(x))
    ensures Eval(h, Form("define", [Leaf(Symbol(x)), rhs]), env, fuel)
         == if SymbolText(rhs.head) == "lambda" then DefineLambda(rhs.tail, Symbol(x), env)
            else DefineValue(h, Symbol(x), rhs, env, fuel - 1)
  {
    var tail := [Leaf(Symbol(x)), rhs];
    assert Eval(h, Form("define", tail), env, fuel) == HandleDefine(h, tail, env, fuel - 1);
  }

  /** A value bound by `define` is what the name then evaluates to. */
  lemma DefineThenLookup(h: Host, x: string, rhs: Expr, env: Env, fuel: nat)
    requires fuel > 0 && x != "list" && SymbolText(rhs.head) != "lambda"
    requires Eval(h, Form("define", [Leaf(Symbol(x)), rhs]), env, fuel).res.Ok?
    ensures var r := Eval(h, Form("define", [Leaf(Symbol(x)), rhs]), env, fuel);
            Eval(h, Leaf(Symbol(x)), r.env, 1) == Out(r.env, r.res)
  {
    var r := Eval(h, Form("define", [Leaf(Symbol(x)), rhs]), env, fuel);
    LeafValue(h, x, r.env);
  }

  /** A leaf naming a value binding evaluates to that value. */
  lemma LeafValue(h: Host, x: string, env: Env)
    requires x != "list" && x in env && env[x].ExpSlot?
    ensures Eval(h, Leaf(Symbol(x)), env, 1) == Out(env, Ok(env[x].exp))
  {
  }

  /** `define` with a `lambda` right-hand side binds the name to the closure
      it returns. */
  lemma DefineLambdaBindsClosure(h: Host, x: string, params: Expr, body: Expr, env: Env, fuel: nat)
    requires fuel > 0
    requires Eval(h, Form("define", [Leaf(Symbol(x)), Form("lambda", [params, body])]), env, fuel).res.Ok?
    ensures var r := Eval(h, Form("define", [Leaf(Symbol(x)), Form("lambda", [params, body])]), env, fuel);
            && IsLamb(r.env, Symbol(x)) && r.env[x] == LambSlot(r.res.value)
            && ClosureBodies(r.res.value) == [body]
            && r.env == env[x := LambSlot(r.res.value)]
  {
    DefineDispatch(h, x, Form("lambda", [params, body]), env, fuel);
  }

  /** `define` with a right-hand side other than `lambda` and `set-property`
      refuses a built-in's name before evaluating anything, and otherwise
      succeeds exactly when the name is unbound once the right-hand side has
      been evaluated; a bound name is the overwrite error. */
  lemma DefineRefusesBoundName(h: Host, x: string, rhs: Expr, env: Env, fuel: nat)
    requires fuel > 0 && x != "define" && x != "begin" && x != "lambda"
    requires SymbolText(rhs.head) != "lambda" && SymbolText(rhs.head) != "set-property"
    ensures var o := Eval(h, rhs, env, fuel - 1);
            var r := Eval(h, Form("define", [Leaf(Symbol(x)), rhs]), env, fuel);
            && (IsProc(env, Symbol(x)) ==> r == Out(env, Fail(RedefineBuiltin)))
            && (!IsProc(env, Symbol(x)) && o.res.Err? ==> r == o)
            && (!IsProc(env, Symbol(x)) && o.res.Ok? && x in o.env ==> r == Out(o.env, Fail(Overwrite)))
            && (!IsProc(env, Symbol(x)) && o.res.Ok? && x !in o.env ==>
                  r == Out(o.env[x := ExpSlot(o.res.value)], o.res))
  {
    var tail := [Leaf(Symbol(x)), rhs];
    if IsProc(env, Symbol(x)) {
      assert Eval(h, Form("define", tail), env, fuel) == HandleDefine(h, tail, env, fuel - 1);
    } else {
      DefineDispatch(h, x, rhs, env, fuel);
    }
  }

  /** A name holding a closure, a built-in or a special procedure can never
      be redefined, whatever the right-hand side: only value bindings are
      ever replaced. */
  lemma DefineRefusesProcedureName(h: Host, x: string, rhs: Expr, env: Env, fuel: nat)
    requires fuel > 0 && x in env && !env[x].ExpSlot?
    ensures Eval(h, Form("define", [Leaf(Symbol(x)), rhs]), env, fuel).res.Err?
  {
    var tail := [Leaf(Symbol(x)), rhs];
    assert Eval(h, Form("define", tail), env, fuel) == HandleDefine(h, tail, env, fuel - 1);
    if x != "define" && x != "begin" && x != "lambda" && !IsProc(env, Symbol(x)) && SymbolText(rhs.head) != "lambda" {
      var o := Eval(h, rhs, env, fuel - 1);
      assert x in o.env && !IsExp(o.env, Symbol(x));
    }
  }

  /** Redefining a value binding with a number is the overwrite error, and
      the table is left as it was. */
  lemma DefineNumberRefused(h: Host, x: string, v: real, env: Env, fuel: nat)
    requires fuel > 1 && IsExp(env, Symbol(x)) && x != "define" && x != "begin" && x != "lambda"
    ensures Eval(h, Form("define", [Leaf(Symbol(x)), Leaf(Number(v))]), env, fuel)
         == Out(env, Fail(Overwrite))
  {
    DefineRefusesBoundName(h, x, Leaf(Number(v)), env, fuel);
    assert Eval(h, Leaf(Number(v)), env, fuel - 1) == Out(env, Ok(Leaf(Number(v))));
  }

  /** A `set-property` right-hand side may rebind an existing value: the
      name then holds the new value. */
  lemma SetPropertyRebinds(h: Host, x: string, args: seq<Expr>, env: Env, fuel: nat)
    requires fuel > 1 && x != "define" && x != "begin" && x != "lambda" && !IsProc(env, Symbol(x))
    requires var o := Eval(h, Form("set-property", args), env, fuel - 1); o.res.Ok? && IsExp(o.env, Symbol(x))
    ensures var o := Eval(h, Form("set-property", args), env, fuel - 1);
            var r := Eval(h, Form("define", [Leaf(Symbol(x)), Form("set-property", args)]), env, fuel);
            r.res == o.res && r.env == o.env[x := ExpSlot(o.res.value)]
  {
    DefineDispatch(h, x, Form("set-property", args), env, fuel);
    SetPropertyValue(h, x, Form("set-property", args), env, fuel - 1);
  }

  lemma SetPropertyValue(h: Host, x: string, rhs: Expr, env: Env, fuel: nat)
    requires SymbolText(rhs.head) == "set-property"
    requires var o := Eval(h, rhs, env, fuel); o.res.Ok? && IsExp(o.env, Symbol(x))
    ensures var o := Eval(h, rhs, env, fuel);
            DefineValue(h, Symbol(x), rhs, env, fuel) == Out(o.env[x := ExpSlot(o.res.value)], o.res)
  {
    var o := Eval(h, rhs, env, fuel);
    var a := Symbol(x);
    assert AddExp(RmExp(o.env, a), a, o.res.value).value == o.env[x := ExpSlot(o.res.value)];
  }

  /** A procedure call evaluates every argument, left to right, before the
      procedure is looked at. */
  lemma CallEvaluatesArgumentsFirst(h: Host, name: string, es: seq<Expr>, env: Env, fuel: nat)
    requires fuel > 0 && es != []
    requires name != "begin" && name != "define" && name != "lambda" && name != "apply" && name != "map"
    requires name != "continuous-plot" && name != "set-property" && name != "get-property" && name != "discrete-plot"
    ensures var o := EvalArgs(h, es, env, fuel - 1);
            var r := Eval(h, Form(name, es), env, fuel);
            && (o.res.Err? ==> r == Out(o.env, Err(o.res.error)))
            && (o.res.Ok? ==> r == ApplyOp(h, Symbol(name), o.res.value, o.env, fuel - 1))
  {
  }

  /** `apply` and `map` refuse a first argument that is a call other than a
      `lambda` form, before anything is evaluated. */
  lemma ProcedureArgumentChecked(h: Host, name: string, f: Expr, rest: seq<Expr>, env: Env, fuel: nat)
    requires fuel > 0 && (name == "apply" || name == "map")
    requires f.tail != [] && SymbolText(f.head) != "lambda"
    ensures Eval(h, Form(name, [f] + rest), env, fuel) == Out(env, Fail(FormNotProcedure))
  {
  }

  lemma BuiltinNameNotForm(b: Builtin)
    ensures var n := BuiltinName(b);
            && n != "begin" && n != "define" && n != "lambda" && n != "apply" && n != "map"
            && n != "continuous-plot" && n != "set-property" && n != "get-property" && n != "discrete-plot"
  {
  }

  /** `(apply f (list es...))` with a built-in `f` is the call `(f es...)`. */
  lemma ApplyIsCall(h: Host, b: Builtin, es: seq<Expr>, env: Env, fuel: nat)
    requires fuel > 0 && es != []
    requires BuiltinName(b) in env && env[BuiltinName(b)] == ProcSlot(b)
    requires "apply" in env && env["apply"].SpecialSlot?
    ensures Eval(h, Form("apply", [Leaf(Symbol(BuiltinName(b))), Form("list", es)]), env, fuel)
         == Eval(h, Form(BuiltinName(b), es), env, fuel)
  {
    BuiltinNameNotForm(b);
    var o := EvalArgs(h, es, env, fuel - 1);
    var args := [Leaf(Symbol(BuiltinName(b))), Form("list", es)];
    SpecialDispatch(h, "apply", args, env, fuel);
    if o.res.Ok? {
      assert Eval(h, Form(BuiltinName(b), es), env, fuel) == ApplyOp(h, Symbol(BuiltinName(b)), o.res.value, o.env, fuel - 1);
    }
  }

  /** `(apply f x)` and `(map f x)` with a leaf `f` go to the special
      procedure of that name, unevaluated, when the table binds it as one. */
  lemma SpecialDispatch(h: Host, name: string, args: seq<Expr>, env: Env, fuel: nat)
    requires fuel > 0 && (name == "apply" || name == "map") && args != [] && args[0].tail == []
    requires name in env && env[name].SpecialSlot?
    ensures Eval(h, Form(name, args), env, fuel)
         == if name == "apply" then SpecialApply(h, args, env, fuel - 1) else SpecialMap(h, args, env, fuel - 1)
  {
    assert Eval(h, Form(name, args), env, fuel) == ApplyOp(h, Symbol(name), args, env, fuel - 1);
  }

  /** `(map f x)` with a built-in `f` applies `f` to each
      evaluated item alone, and fails exactly when one of those calls does. */
  lemma MapIsPointwise(h: Host, b: Builtin, es: seq<Expr>, env: Env, fuel: nat)
    requires fuel > 0
    requires BuiltinName(b) in env && env[BuiltinName(b)] == ProcSlot(b)
    requires "map" in env && env["map"].SpecialSlot?
    ensures var r := Eval(h, Form("map", [Leaf(Symbol(BuiltinName(b))), Form("list", es)]), env, fuel);
            var o := EvalArgs(h, es, env, fuel - 1);
            && r.env == o.env
            && (r.res.Ok? <==> o.res.Ok? && forall i :: 0 <= i < |es| ==> CallBuiltin(h, b, [o.res.value[i]]).Ok?)
            && (r.res.Ok? ==> r.res.value == ListExpr(seq(|es|, i requires 0 <= i < |es| => CallBuiltin(h, b, [o.res.value[i]]).value)))
  {
    var args := [Leaf(Symbol(BuiltinName(b))), Form("list", es)];
    SpecialDispatch(h, "map", args, env, fuel);
    MapOfBuiltin(h, b, es, env, fuel - 1);
    var o := EvalArgs(h, es, env, fuel - 1);
    if o.res.Ok? {
      MapBuiltinItems(h, b, o.res.value);
    }
  }

  /** Mapping a built-in over values, item by item. */
  lemma MapBuiltinItems(h: Host, b: Builtin, xs: seq<Expr>)
    ensures var m := MapProc(h, BuiltinProc(b), xs);
            && (m.Ok? <==> forall i :: 0 <= i < |xs| ==> CallBuiltin(h, b, [xs[i]]).Ok?)
            && (m.Ok? ==> m.value == seq(|xs|, i requires 0 <= i < |xs| => CallBuiltin(h, b, [xs[i]]).value))
  {
    var m := MapProc(h, BuiltinProc(b), xs);
    if m.Ok? {
      assert m.value == seq(|xs|, i requires 0 <= i < |xs| => CallBuiltin(h, b, [xs[i]]).value);
    }
  }

  /** The `map` special procedure over a built-in and a `list` form. */
  lemma MapOfBuiltin(h: Host, b: Builtin, es: seq<Expr>, env: Env, fuel: nat)
    requires BuiltinName(b) in env && env[BuiltinName(b)] == ProcSlot(b)
    ensures var o := EvalArgs(h, es, env, fuel);
            var r := SpecialMap(h, [Leaf(Symbol(BuiltinName(b))), Form("list", es)], env, fuel);
            && (o.res.Err? ==> r == Out(o.env, Err(o.res.error)))
            && (o.res.Ok? ==> r.env == o.env && var m := MapProc(h, BuiltinProc(b), o.res.value);
                              r.res == if m.Err? then Err(m.error) else Ok(ListExpr(m.value)))
  {
  }

  /** `MapClosure` of a closure with parameters and one body, item by item. */
  lemma ClosureMapValues(h: Host, clo: Expr, xs: seq<Expr>, env: Env, fuel: nat)
    requires |ClosureParams(clo)| > 0 && |ClosureBodies(clo)| == 1
    ensures var m := MapClosure(h, clo, xs, env, fuel);
            var calls := ItemCalls(h, clo, xs, env, fuel);
            && (m.res.Ok? <==> forall i :: 0 <= i < |xs| ==> calls[i].res.Ok?)
            && (m.res.Ok? ==> m.env == env && |m.res.value| == |xs| && forall i :: 0 <= i < |xs| ==> m.res.value[i] == calls[i].res.value[0])
  {
    MapClosureItems(h, clo, xs, env, fuel);
    if MapClosure(h, clo, xs, env, fuel).res.Ok? {
      MapClosureOneBody(h, clo, xs, env, fuel);
    }
  }

  /** The `map` special procedure over a closure and a `list` or `List`
      form. */
  lemma MapOfClosure(h: Host, f: string, kind: string, es: seq<Expr>, env: Env, fuel: nat)
    requires (kind == "list" || kind == "List") && f in env && env[f].LambSlot?
    ensures var o := EvalArgs(h, es, env, fuel);
            var r := SpecialMap(h, [Leaf(Symbol(f)), Form(kind, es)], env, fuel);
            && (o.res.Err? ==> r == Out(o.env, Err(o.res.error)))
            && (o.res.Ok? ==> var m := MapClosure(h, env[f].lamb, o.res.value, o.env, fuel);
                              r == if m.res.Err? then Out(m.env, Err(m.res.error)) else Out(m.env, Ok(ListExpr(m.res.value))))
  {
    var o := EvalArgs(h, es, env, fuel);
    if o.res.Ok? {
      assert GetLamb(o.env, Symbol(f)) == env[f].lamb;
    }
  }

  /** `map` with `f` bound to a closure that has parameters and one body, as
      `lambda` builds, over a `list` or `List` form: the items are evaluated
      first, then the closure is called on each item alone from the table
      they left; the map succeeds exactly when every call does, and gives one
      value per item, in item order. (`SpecialDispatch` takes a `map` form to
      this procedure.) */
  lemma MapClosureIsPointwise(h: Host, f: string, kind: string, es: seq<Expr>, env: Env, fuel: nat)
    requires kind == "list" || kind == "List"
    requires f in env && env[f].LambSlot?
    requires |ClosureParams(env[f].lamb)| > 0 && |ClosureBodies(env[f].lamb)| == 1
    ensures var r := SpecialMap(h, [Leaf(Symbol(f)), Form(kind, es)], env, fuel);
            var o := EvalArgs(h, es, env, fuel);
            && (o.res.Err? ==> r == Out(o.env, Err(o.res.error)))
            && (o.res.Ok? ==>
                  var calls := ItemCalls(h, env[f].lamb, o.res.value, o.env, fuel);
                  && (r.res.Ok? <==> forall i :: 0 <= i < |es| ==> calls[i].res.Ok?)
                  && (r.res.Ok? ==>
                        && r.env == o.env && IsList(r.res.value) && |r.res.value.tail| == |es|
                        && forall i :: 0 <= i < |es| ==> r.res.value.tail[i] == calls[i].res.value[0]))
  {
    MapOfClosure(h, f, kind, es, env, fuel);
    var o := EvalArgs(h, es, env, fuel);
    if o.res.Ok? {
      ClosureMapValues(h, env[f].lamb, o.res.value, o.env, fuel);
    }
  }

  /** `map` of a closure over a `range` form: the range is computed from its
      unevaluated arguments, and the closure is then called on each value
      alone, giving one value per range value, in order. */
  lemma MapClosureOverRange(h: Host, args: seq<Expr>, env: Env, fuel: nat)
    requires |args| == 2 && IsLamb(env, args[0].head) && SymbolText(args[1].head) == "range"
    requires "range" in env && env["range"] == ProcSlot(Range)
    requires |ClosureParams(env[args[0].head.name].lamb)| > 0 && |ClosureBodies(env[args[0].head.name].lamb)| == 1
    ensures var r := SpecialMap(h, args, env, fuel);
            var v := Builtins.Range(args[1].tail);
            && (v.Err? ==> r == Out(env, Err(v.error)))
            && (v.Ok? ==>
                  var calls := ItemCalls(h, env[args[0].head.name].lamb, v.value.tail, env, fuel);
                  && (r.res.Ok? <==> forall i :: 0 <= i < |v.value.tail| ==> calls[i].res.Ok?)
                  && (r.res.Ok? ==>
                        && r.env == env && IsList(r.res.value) && |r.res.value.tail| == |v.value.tail|
                        && forall i :: 0 <= i < |v.value.tail| ==> r.res.value.tail[i] == calls[i].res.value[0]))
  {
    assert CallProc(h, GetProc(env, Symbol("range")), args[1].tail) == Builtins.Range(args[1].tail);
    var v := Builtins.Range(args[1].tail);
    if v.Ok? {
      var clo := env[args[0].head.name].lamb;
      MapClosureItems(h, clo, v.value.tail, env, fuel);
      if MapClosure(h, clo, v.value.tail, env, fuel).res.Ok? {
        MapClosureOneBody(h, clo, v.value.tail, env, fuel);
      }
    }
  }

  /** Calling a one-parameter closure whose parameter is unbound evaluates
      the body with the parameter bound to the argument. */
  lemma CallBindsParameter(h: Host, x: string, body: Expr, v: Expr, env: Env, fuel: nat)
    requires x !in env
    ensures CallClosure(h, Closure([Leaf(Symbol(x))], body), [v], env, fuel).res
         == Eval(h, body, env[x := ExpSlot(v)], fuel).res
  {
    var clo := Closure([Leaf(Symbol(x))], body);
    assert ClosureParams(clo) == [Leaf(Symbol(x))];
    assert ClosureBodies(clo) == [body];
    var env2 := env[x := ExpSlot(v)];
    assert AddExp(env, Symbol(x), v).value == env2;
    assert [Leaf(Symbol(x))][1..] == [] && [v][1..] == [];
    assert Bind(env, [Leaf(Symbol(x))], [v], {}, map[]) == Out(env2, Ok(map[]));
    assert [body][1..] == [];
    var o := Eval(h, body, env2, fuel);
    if o.res.Ok? {
      assert EvalBodies(h, [], env2, fuel) == Out(env2, Ok([]));
      assert [body][0] == body && [o.res.value] + [] == [o.res.value];
      assert EvalBodies(h, [body], env2, fuel).res == Ok([o.res.value]);
      assert CallClosureAll(h, clo, [v], env, fuel).res == Ok([o.res.value]);
    } else {
      assert EvalBodies(h, [body], env2, fuel).res == Err(o.res.error);
      assert CallClosureAll(h, clo, [v], env, fuel).res == Err(o.res.error);
    }
  }

  /** A successful closure call leaves the table exactly as it found it, for
      any parameters and arguments. */
  lemma ClosureCallRestoresEnv(h: Host, clo: Expr, args: seq<Expr>, env: Env, fuel: nat)
    requires |args| == |ClosureParams(clo)|
    requires Bind(env, ClosureParams(clo), args, {}, map[]).res.Ok?
    requires EvalBodies(h, ClosureBodies(clo), Bind(env, ClosureParams(clo), args, {}, map[]).env, fuel).res.Ok?
    ensures CallClosureAll(h, clo, args, env, fuel).env == env
    ensures CallClosureAll(h, clo, args, env, fuel).res
         == EvalBodies(h, ClosureBodies(clo), Bind(env, ClosureParams(clo), args, {}, map[]).env, fuel).res
  {
    BindThenRestore(env, ClosureParams(clo), args);
  }

  // ------------------------------------------------ repeated parameter names

  /** The names of `params` in order. */
  predicate DistinctNames(params: seq<Expr>) {
    forall i, j :: 0 <= i < j < |params| ==> SymbolText(params[i].head) != SymbolText(params[j].head)
  }

  /** With distinct parameter names, the binding loop as written and the
      corrected one agree. */
  lemma {:induction false} BindAgreesOnDistinct(env: Env, params: seq<Expr>, args: seq<Expr>,
                                                bound: set<string>, saved: map<string, Expr>)
    requires |params| == |args| && DistinctNames(params)
    requires forall i :: 0 <= i < |params| ==> SymbolText(params[i].head) !in bound
    ensures BindAsWritten(env, params, args, saved) == Bind(env, params, args, bound, saved)
    decreases |params|
  {
    if params != [] {
      var a := params[0].head;
      var tail := params[1..];
      assert DistinctNames(tail) by {
        forall i, j | 0 <= i < j < |tail| ensures SymbolText(tail[i].head) != SymbolText(tail[j].head) {
          assert tail[i] == params[i + 1] && tail[j] == params[j + 1];
        }
      }
      assert forall i :: 0 <= i < |tail| ==> SymbolText(tail[i].head) !in bound + {SymbolText(a)} by {
        forall i | 0 <= i < |tail| ensures SymbolText(tail[i].head) !in bound + {SymbolText(a)} {
          assert tail[i] == params[i + 1];
        }
      }
      if IsExp(env, a) {
        var env2 := AddExp(RmExp(env, a), a, args[0]).value;
        BindAgreesOnDistinct(env2, tail, args[1..], bound + {a.name}, saved[a.name := env[a.name].exp]);
      } else {
        var added := AddExp(env, a, args[0]);
        if added.Ok? {
          BindAgreesOnDistinct(added.value, tail, args[1..], bound + {a.name}, saved);
        }
      }
    }
  }

  /** The source's binding loop saves a name's value again when the same
      closure repeats a parameter name, so the value bound by the first
      occurrence is "restored" after the call: calling `(lambda (x x) ...)`
      in a table without `x` leaves `x` bound. */
  lemma DuplicateParameterLeaksBinding(a0: Expr, a1: Expr)
    ensures var params := [Leaf(Symbol("x")), Leaf(Symbol("x"))];
            var b := BindAsWritten(map[], params, [a0, a1], map[]);
            && b.res.Ok?
            && Restore(Unbind(b.env, params), b.res.value) == Ok(map["x" := ExpSlot(a0)])
  {
    var params := [Leaf(Symbol("x")), Leaf(Symbol("x"))];
    var env1: Env := map["x" := ExpSlot(a0)];
    assert AddExp(map[], Symbol("x"), a0) == Ok(env1);
    assert params[1..] == [Leaf(Symbol("x"))];
    var env2: Env := map["x" := ExpSlot(a1)];
    assert AddExp(RmExp(env1, Symbol("x")), Symbol("x"), a1).value == env2;
    var b := BindAsWritten(map[], params, [a0, a1], map[]);
    assert b == Out(env2, Ok(map["x" := a0]));
    assert RmExp(env2, Symbol("x")) == map[];
    assert Unbind(env2, params) == map[];
    var back := Restore(map[], map["x" := a0]);
    assert back.Ok? && back.value.Keys == {"x"};
    assert back.value == map["x" := ExpSlot(a0)];
  }

  /** The corrected binding loop saves nothing on that input, and the call
      leaves the table empty. */
  lemma DuplicateParameterRestored(a0: Expr, a1: Expr)
    ensures var params := [Leaf(Symbol("x")), Leaf(Symbol("x"))];
            var b := Bind(map[], params, [a0, a1], {}, map[]);
            && b.res.Ok?
            && Restore(Unbind(b.env, params), b.res.value) == Ok(map[])
  {
    var params := [Leaf(Symbol("x")), Leaf(Symbol("x"))];
    assert AddExp(map[], Symbol("x"), a0).Ok?;
    BindThenRestore(map[], params, [a0, a1]);
  }
}

=== FILE: externals.dfy ===
/** What the interpreter core calls but this model does not define: the
    floating-point library (transcendental functions and the two constants
    `pi` and `e`), the value of a division by zero, and the plot builders.
    Every property proved here holds for every choice of these. */
module Externals {
  import opened Results
  import opened Values

  /** A complex number by its real and imaginary parts. */
  datatype Cx = Cx(re: real, im: real)

  datatype Host = Host(
    pi: real,
    e: real,
    sqrt: real -> real,
    csqrt: Cx -> Cx,
    pow: (real, real) -> real,
    cpow: (Cx, Cx) -> Cx,
    log: real -> real,
    sin: real -> real,
    cos: real -> real,
    tan: real -> real,
    mag: Cx -> real,
    arg: Cx -> real,
    /** The IEEE value of `x / 0`, which `real` cannot hold. */
    divByZero: real -> real,
    /** The IEEE value of a complex quotient whose divisor is zero. */
    cdivByZero: Cx -> Cx,
    /** The builder behind `discrete-plot`, given its evaluated arguments. */
    discretePlot: seq<Expr> -> Result<Expr>,
    /** The builder behind `continuous-plot`, given the unevaluated first
        argument followed by the evaluated others. */
    continuousPlot: seq<Expr> -> Result<Expr>)
}

=== FILE: results.dfy ===
/** Failure-compatible results for the interpreter.

    Every failure of the interpreter core is a `SemanticError` carrying a
    message; the model adds one more failure, `Exhausted`, for an evaluation
    that ran out of its recursion budget (the source would recurse without
    bound instead). */
module Results {

  datatype Error = Semantic(msg: Msg) | Exhausted

  /** What a `SemanticError` reports. Most messages follow a few patterns
      that name the procedure (`what`); `Text` spells every one exactly as
      the source does. */
  datatype Msg =
    | CallArity(what: string)
    | CallArgument(what: string)
    | NotList(what: string)
    | FirstNotList(what: string)
    | SecondNotList(what: string)
    | EmptyList(what: string)
    | FirstNotProcedure(what: string)
    | AddArgument
    | MulArgument
    | LnDomain
    | RangeOrder
    | RangeStep
    | PropertyKey
    | NonSymbol
    | Overwrite
    | UnknownSymbol
    | InvalidTerminal
    | DefineArity
    | DefineNotSymbol
    | RedefineSpecial
    | RedefineBuiltin
    | LambdaArity
    | ParamNotSymbol
    | ReservedParam
    | OperatorNotSymbol
    | NotAProcedure
    | FormNotProcedure

  /** The text of a message, as `SemanticError::what()` returns it: every
      message but the two about adding to the table starts with "Error". */
  function Text(m: Msg): (r: string)
    ensures |r| > 0 && (r[0] == 'E' <==> !m.NonSymbol? && !m.Overwrite?)
  {
    if m.NonSymbol? then Attempt("add non-symbol to environment")
    else if m.Overwrite? then Attempt("overwrite symbol in environemnt")
    else if m.FormNotProcedure? then Headed(": first argument must be a procedure.")
    else if InCallFamily(m) then CallText(m)
    else DuringText(m)
  }

  /** The messages of a failing built-in or special procedure. */
  predicate InCallFamily(m: Msg) {
    || m.CallArity? || m.CallArgument? || m.NotList? || m.FirstNotList? || m.SecondNotList?
    || m.EmptyList? || m.FirstNotProcedure? || m.AddArgument? || m.MulArgument? || m.LnDomain?
    || m.RangeOrder? || m.RangeStep? || m.PropertyKey?
  }

  /** `Error in call to …` messages. */
  function CallText(m: Msg): (r: string)
    requires InCallFamily(m)
    ensures |r| > 0 && r[0] == 'E'
  {
    match m
    case CallArity(what) => InCall(what, ": invalid number of arguments.")
    case CallArgument(what) => InCall(what, ": invalid argument.")
    case NotList(what) => InCall(what, ": argument must be a list.")
    case FirstNotList(what) => InCall(what, ": first argument must be a list.")
    case SecondNotList(what) => InCall(what, ": second argument must be a list.")
    case EmptyList(what) => InCall(what, ": list is empty.")
    case FirstNotProcedure(what) => InCall(what, ": first argument must be a procedure.")
    case AddArgument => InCall("add", ", invalid argument.")
    case MulArgument => InCall("mul", ", invalid argument.")
    case LnDomain => InCall("natural logarithm", ": argument must be positive.")
    case RangeOrder => InCall("range", ": first argument must be < second argument.")
    case RangeStep => InCall("range", ": Increment must be positive.")
    case PropertyKey => InCall("set-property", ": first argument not a string.")
  }

  /** `Error during evaluation: …` messages. */
  function DuringText(m: Msg): (r: string)
    requires !InCallFamily(m) && !m.NonSymbol? && !m.Overwrite? && !m.FormNotProcedure?
    ensures |r| > 0 && r[0] == 'E'
  {
    match m
    case UnknownSymbol => During("unknown symbol")
    case InvalidTerminal => During("Invalid type in terminal expression")
    case DefineArity => During("invalid number of arguments to define")
    case DefineNotSymbol => During("first argument to define not symbol")
    case RedefineSpecial => During("attempt to redefine a special-form")
    case RedefineBuiltin => During("attempt to redefine a built-in procedure")
    case LambdaArity => During("invalid number of arguments to lambda")
    case ParamNotSymbol => During("first argument not symbol")
    case ReservedParam => During("attempt to set parameter as a special-form or built-in procedure.")
    case OperatorNotSymbol => During("procedure name not symbol")
    case NotAProcedure => During("symbol does not name a procedure")
  }

  /** `Error in call to <what><problem>`. */
  function InCall(what: string, problem: string): (r: string)
    ensures |r| > 0 && r[0] == 'E'
  {
    Headed(" in call to " + what + problem)
  }

  /** `Error during evaluation: <problem>`. */
  function During(problem: string): (r: string)
    ensures |r| > 0 && r[0] == 'E'
  {
    Headed(" during evaluation: " + problem)
  }

  /** `Error<rest>`. */
  function Headed(rest: string): (r: string)
    ensures |r| > 0 && r[0] == 'E'
  {
    "Error" + rest
  }

  /** `Attempt to <what>`. */
  function Attempt(what: string): (r: string)
    ensures |r| > 0 && r[0] == 'A'
  {
    "Attempt to " + what
  }

  datatype Result<+T> = Ok(value: T) | Err(error: Error) {

    predicate IsFailure() {
      Err?
    }

    function PropagateFailure<U>(): Result<U>
      requires Err?
    {
      Err(error)
    }

    function Extract(): T
      requires Ok?
    {
      value
    }
  }

  /** The result of throwing `SemanticError(msg)`. */
  function Fail<T>(msg: Msg): Result<T> {
    Err(Semantic(msg))
  }

  datatype Option<+T> = None | Some(value: T)
}

=== FILE: tokenizer.dfy ===
/** The scanner of token.cpp: a character stream becomes a sequence of
    parentheses, string delimiters and strings. */
module Tokenizer {

  datatype Token = Open | Close | Delim | Str(text: string)

  /** `Token::asString`. */
  function TokenText(t: Token): (r: string)
    ensures t.Str? ==> r == t.text
    ensures !t.Str? ==> |r| == 1
    ensures !t.Str? ==> (r[0] == '(' <==> t == Open) && (r[0] == ')' <==> t == Close) && (r[0] == '"' <==> t == Delim)
  {
    match t
    case Open => "("
    case Close => ")"
    case Delim => "\""
    case Str(s) => s
  }

  /** `isspace` in the C locale. */
  predicate IsSpace(c: char) {
    c == ' ' || c == '\t' || c == '\n' || c == '\r' || c == '\U{000B}' || c == '\U{000C}'
  }

  /** A character that the scanner only ever adds to the pending text. */
  predicate IsPlain(c: char) {
    !IsSpace(c) && c != '(' && c != ')' && c != ';' && c != '"'
  }

  /** The scanner's state between two characters: the tokens so far, the
      pending text, whether a string literal is open, and whether the rest
      of the line is a comment. */
  datatype Lexer = Lexer(tokens: seq<Token>, pending: string, inDelim: bool, inComment: bool)

  const Start: Lexer := Lexer([], "", false, false)

  /** `store_ifnot_empty`: emit the pending text as a string, if any. */
  function Flush(st: Lexer): (r: Lexer)
    ensures r.pending == "" && r.inDelim == st.inDelim && r.inComment == st.inComment
    ensures st.pending == "" ==> r.tokens == st.tokens
    ensures st.pending != "" ==> r.tokens == st.tokens + [Str(st.pending)]
  {
    if st.pending == "" then st else st.(tokens := st.tokens + [Str(st.pending)], pending := "")
  }

  function Emit(st: Lexer, t: Token): Lexer {
    st.(tokens := st.tokens + [t])
  }

  /** One character of the scanning loop. */
  function Step(st: Lexer, c: char): (r: Lexer)
    ensures |st.tokens| <= |r.tokens| <= |st.tokens| + 2 && r.tokens[..|st.tokens|] == st.tokens
    ensures st.inComment ==> r.tokens == st.tokens && r.pending == st.pending && r.inDelim == st.inDelim
  {
    if st.inComment then (if c == '\n' then st.(inComment := false) else st)
    else if c == ';' then st.(inComment := true)
    else if c == '(' then Emit(Flush(st), Open)
    else if c == ')' then Emit(Flush(st), Close)
    else if c == '"' then
      if !st.inDelim then Emit(Flush(st), Delim).(pending := "\"", inDelim := true)
      else Emit(Flush(st.(pending := st.pending + "\"")), Delim).(inDelim := false)
    else if IsSpace(c) && !st.inDelim then Flush(st)
    else st.(pending := st.pending + [c])
  }

  /** The loop over a whole input, from a given state. */
  function Feed(st: Lexer, s: string): (r: Lexer)
    ensures |st.tokens| <= |r.tokens| <= |st.tokens| + 2 * |s|
    ensures r.tokens[..|st.tokens|] == st.tokens
    decreases |s|
  {
    if s == [] then st else Feed(Step(st, s[0]), s[1..])
  }

  /** `tokenize`: run the loop, then flush what is pending at the end. */
  function Tokenize(s: string): (r: seq<Token>)
    ensures forall i :: 0 <= i < |r| && r[i].Str? ==> r[i].text != ""
  {
    FeedNoEmptyText(Start, s);
    Flush(Feed(Start, s)).tokens
  }

  lemma {:induction false} FeedConcat(st: Lexer, a: string, b: string)
    ensures Feed(st, a + b) == Feed(Feed(st, a), b)
    decreases |a|
  {
    if a == [] {
      assert a + b == b;
    } else {
      assert (a + b)[0] == a[0] && (a + b)[1..] == a[1..] + b;
      assert Feed(st, a + b) == Feed(Step(st, a[0]), a[1..] + b);
      FeedConcat(Step(st, a[0]), a[1..], b);
    }
  }

  /** The scanning loop, written as the source writes it. */
  method TokenizeLoop(s: string) returns (tokens: seq<Token>)
    ensures tokens == Tokenize(s)
  {
    var st := Start;
    var i := 0;
    while i < |s|
      invariant 0 <= i <= |s|
      invariant st == Feed(Start, s[..i])
    {
      FeedConcat(Start, s[..i], [s[i]]);
      assert s[..i + 1] == s[..i] + [s[i]];
      st := Step(st, s[i]);
      i := i + 1;
    }
    assert s[..i] == s;
    st := Flush(st);
    tokens := st.tokens;
  }

  // ----------------------------------------------------------- no empty text

  predicate NoEmptyText(ts: seq<Token>) {
    forall i :: 0 <= i < |ts| ==> ts[i].Str? ==> ts[i].text != ""
  }

  lemma {:induction false} FeedNoEmptyText(st: Lexer, s: string)
    requires NoEmptyText(st.tokens)
    ensures NoEmptyText(Feed(st, s).tokens)
    decreases |s|
  {
    if s != [] {
      FeedNoEmptyText(Step(st, s[0]), s[1..]);
    }
  }

  /** No string token is empty. */
  lemma NoEmptyStrings(s: string)
    ensures forall i :: 0 <= i < |Tokenize(s)| ==> Tokenize(s)[i].Str? ==> Tokenize(s)[i].text != ""
  {
    FeedNoEmptyText(Start, s);
  }

  // ------------------------------------------------------------- whitespace

  predicate SpaceFree(w: string) {
    forall i :: 0 <= i < |w| ==> !IsSpace(w[i])
  }

  predicate SpaceFreeTokens(ts: seq<Token>) {
    forall i :: 0 <= i < |ts| ==> ts[i].Str? ==> SpaceFree(ts[i].text)
  }

  lemma {:induction false} FeedSpaceFree(st: Lexer, s: string)
    requires !st.inDelim && SpaceFree(st.pending) && SpaceFreeTokens(st.tokens)
    requires forall i :: 0 <= i < |s| ==> s[i] != '"'
    ensures var r := Feed(st, s); !r.inDelim && SpaceFree(r.pending) && SpaceFreeTokens(r.tokens)
    decreases |s|
  {
    if s != [] {
      var next := Step(st, s[0]);
      assert SpaceFree(next.pending) by {
        if !st.inComment && IsPlain(s[0]) {
          assert next.pending == st.pending + [s[0]];
        }
      }
      FeedSpaceFree(next, s[1..]);
    }
  }

  /** Outside string literals, whitespace only separates tokens: an input
      without quotes gives string tokens without whitespace. */
  lemma SpacesSeparate(s: string)
    requires forall i :: 0 <= i < |s| ==> s[i] != '"'
    ensures forall i :: 0 <= i < |Tokenize(s)| ==> Tokenize(s)[i].Str? ==> SpaceFree(Tokenize(s)[i].text)
  {
    FeedSpaceFree(Start, s);
  }

  // --------------------------------------------------------------- comments

  lemma {:induction false} FeedComment(st: Lexer, c: string)
    requires st.inComment && forall i :: 0 <= i < |c| ==> c[i] != '\n'
    ensures Feed(st, c) == st
    decreases |c|
  {
    if c != [] {
      FeedComment(st, c[1..]);
    }
  }

  /** A comment, from `;` to the end of its line, contributes nothing: not
      even a separation between the text before and after it. */
  lemma CommentInvisible(a: string, c: string, b: string)
    requires !Feed(Start, a).inComment
    requires forall i :: 0 <= i < |c| ==> c[i] != '\n'
    ensures Tokenize(a + [';'] + c + ['\n'] + b) == Tokenize(a + b)
  {
    var line := [';'] + c + ['\n'];
    assert a + [';'] + c + ['\n'] + b == a + (line + b);
    FeedConcat(Start, a, line + b);
    CommentLineSkipped(Feed(Start, a), c, b);
    FeedConcat(Start, a, b);
  }

  /** From outside a comment, a whole comment line leaves the state as it was. */
  lemma CommentLineSkipped(st: Lexer, c: string, b: string)
    requires !st.inComment
    requires forall i :: 0 <= i < |c| ==> c[i] != '\n'
    ensures Feed(st, [';'] + c + ['\n'] + b) == Feed(st, b)
  {
    CommentLineState(st, c);
    FeedConcat(st, [';'] + c + ['\n'], b);
  }

  lemma CommentLineState(st: Lexer, c: string)
    requires !st.inComment
    requires forall i :: 0 <= i < |c| ==> c[i] != '\n'
    ensures Feed(st, [';'] + c + ['\n']) == st
  {
    assert [';'] + c + ['\n'] == [';'] + (c + ['\n']);
    FeedConcat(st, [';'], c + ['\n']);
    assert Feed(st, [';']) == Feed(Step(st, ';'), []);
    CommentBodyState(st.(inComment := true), c);
  }

  lemma CommentBodyState(st: Lexer, c: string)
    requires st.inComment
    requires forall i :: 0 <= i < |c| ==> c[i] != '\n'
    ensures Feed(st, c + ['\n']) == st.(inComment := false)
  {
    FeedConcat(st, c, ['\n']);
    FeedComment(st, c);
    assert Feed(st, ['\n']) == Feed(Step(st, '\n'), []);
  }

  /** A comment running to the end of the input contributes nothing. */
  lemma TrailingCommentInvisible(a: string, c: string)
    requires !Feed(Start, a).inComment
    requires forall i :: 0 <= i < |c| ==> c[i] != '\n'
    ensures Tokenize(a + [';'] + c) == Tokenize(a)
  {
    var st := Feed(Start, a);
    FeedConcat(Start, a, [';'] + c);
    assert a + [';'] + c == a + ([';'] + c);
    FeedConcat(st, [';'], c);
    FeedComment(st.(inComment := true), c);
  }

  // ------------------------------------------------------ string literals

  lemma {:induction false} FeedQuoted(st: Lexer, w: string)
    requires st.inDelim && !st.inComment
    requires forall i :: 0 <= i < |w| ==> w[i] != '"' && w[i] != '(' && w[i] != ')' && w[i] != ';'
    ensures Feed(st, w) == st.(pending := st.pending + w)
    decreases |w|
  {
    if w != [] {
      FeedQuoted(st.(pending := st.pending + [w[0]]), w[1..]);
      assert st.pending + [w[0]] + w[1..] == st.pending + w;
    }
  }

  /** A quoted text without parentheses or comments is one string token,
      quotes and whitespace included, between two delimiters. */
  lemma QuotedString(w: string)
    requires forall i :: 0 <= i < |w| ==> w[i] != '"' && w[i] != '(' && w[i] != ')' && w[i] != ';'
    ensures Tokenize(['"'] + w + ['"']) == [Delim, Str(['"'] + w + ['"']), Delim]
  {
    var st1 := Feed(Start, ['"']);
    assert st1 == Lexer([Delim], "\"", true, false);
    FeedConcat(Start, ['"'], w + ['"']);
    assert ['"'] + w + ['"'] == ['"'] + (w + ['"']);
    FeedConcat(st1, w, ['"']);
    FeedQuoted(st1, w);
  }

  // ----------------------------------------------------------- parentheses

  function CountChar(s: string, c: char): nat
    decreases |s|
  {
    if s == [] then 0 else (if s[|s| - 1] == c then 1 else 0) + CountChar(s[..|s| - 1], c)
  }

  function CountToken(ts: seq<Token>, t: Token): nat
    decreases |ts|
  {
    if ts == [] then 0 else (if ts[|ts| - 1] == t then 1 else 0) + CountToken(ts[..|ts| - 1], t)
  }

  lemma CountTokenSnoc(ts: seq<Token>, x: Token, t: Token)
    ensures CountToken(ts + [x], t) == CountToken(ts, t) + (if x == t then 1 else 0)
  {
    assert (ts + [x])[..|ts|] == ts;
  }

  lemma CountCharSnoc(s: string, x: char, c: char)
    ensures CountChar(s + [x], c) == CountChar(s, c) + (if x == c then 1 else 0)
  {
    assert (s + [x])[..|s|] == s;
  }

  /** One step adds an OPEN (CLOSE) token exactly for a `(` (`)`) outside
      a comment. */
  lemma StepCounts(st: Lexer, c: char, t: Token)
    requires t == Open || t == Close
    ensures CountToken(Step(st, c).tokens, t)
         == CountToken(st.tokens, t) + (if !st.inComment && c == TokenText(t)[0] then 1 else 0)
  {
    if st.inComment || c == ';' || (!IsSpace(c) && IsPlain(c)) || (IsSpace(c) && st.inDelim) {
    } else if c == '(' || c == ')' {
      FlushCounts(st, t);
      CountTokenSnoc(Flush(st).tokens, if c == '(' then Open else Close, t);
    } else if c == '"' {
      if !st.inDelim {
        FlushCounts(st, t);
        CountTokenSnoc(Flush(st).tokens, Delim, t);
      } else {
        FlushCounts(st.(pending := st.pending + "\""), t);
        CountTokenSnoc(Flush(st.(pending := st.pending + "\"")).tokens, Delim, t);
      }
    } else {
      FlushCounts(st, t);
    }
  }

  lemma FlushCounts(st: Lexer, t: Token)
    requires t == Open || t == Close
    ensures CountToken(Flush(st).tokens, t) == CountToken(st.tokens, t)
  {
    if st.pending != "" {
      CountTokenSnoc(st.tokens, Str(st.pending), t);
    }
  }

  lemma {:induction false} FeedCounts(st: Lexer, s: string, t: Token)
    requires t == Open || t == Close
    requires !st.inComment && forall i :: 0 <= i < |s| ==> s[i] != ';'
    ensures CountToken(Feed(st, s).tokens, t) == CountToken(st.tokens, t) + CountChar(s, TokenText(t)[0])
    ensures !Feed(st, s).inComment
    decreases |s|
  {
    if s != [] {
      var c := TokenText(t)[0];
      var st1 := Step(st, s[0]);
      StepCounts(st, s[0], t);
      assert forall i :: 0 <= i < |s[1..]| ==> s[1..][i] != ';' by {
        forall i | 0 <= i < |s[1..]|
          ensures s[1..][i] != ';'
        {
          assert s[1..][i] == s[i + 1];
        }
      }
      FeedCounts(st1, s[1..], t);
      assert Feed(st, s) == Feed(st1, s[1..]);
      CountCharCons(s, c);
    }
  }

  lemma CountCharCons(s: string, c: char)
    requires s != []
    ensures CountChar(s, c) == (if s[0] == c then 1 else 0) + CountChar(s[1..], c)
  {
    assert s == [s[0]] + s[1..];
    CountCharPrefix([s[0]], s[1..], c);
  }

  lemma {:induction false} CountCharPrefix(a: string, b: string, c: char)
    ensures CountChar(a + b, c) == CountChar(a, c) + CountChar(b, c)
    decreases |b|
  {
    if b == [] {
      assert a + b == a;
    } else {
      assert a + b == (a + b[..|b| - 1]) + [b[|b| - 1]];
      assert b == b[..|b| - 1] + [b[|b| - 1]];
      CountCharPrefix(a, b[..|b| - 1], c);
      CountCharSnoc(a + b[..|b| - 1], b[|b| - 1], c);
      CountCharSnoc(b[..|b| - 1], b[|b| - 1], c);
    }
  }

  /** Without comments, every `(` gives exactly one OPEN token and every `)`
      exactly one CLOSE token, inside string literals too. */
  lemma ParensEmitTokens(s: string)
    requires forall i :: 0 <= i < |s| ==> s[i] != ';'
    ensures CountToken(Tokenize(s), Open) == CountChar(s, '(')
    ensures CountToken(Tokenize(s), Close) == CountChar(s, ')')
  {
    TokenizeCounts(s, Open);
    TokenizeCounts(s, Close);
  }

  lemma TokenizeCounts(s: string, t: Token)
    requires t == Open || t == Close
    requires forall i :: 0 <= i < |s| ==> s[i] != ';'
    ensures CountToken(Tokenize(s), t) == CountChar(s, TokenText(t)[0])
  {
    FeedCounts(Start, s, t);
    FlushCounts(Feed(Start, s), t);
  }

  // ------------------------------------------- whitespace inside literals

  /** The token at index `i` lies inside a string literal: an odd number of
      delimiters come before it. */
  predicate InLiteral(ts: seq<Token>, i: nat)
    requires i <= |ts|
  {
    CountToken(ts[..i], Delim) % 2 == 1
  }

  /** Every string token holding whitespace lies inside a literal. */
  predicate SpacesQuoted(ts: seq<Token>) {
    forall i :: 0 <= i < |ts| && ts[i].Str? && !SpaceFree(ts[i].text) ==> InLiteral(ts, i)
  }

  /** What the scanning loop keeps true for every input: a literal is open
      exactly when an odd number of delimiters were emitted, text pending
      outside a literal has no whitespace, and only tokens inside literals
      hold whitespace. */
  predicate LiteralInv(st: Lexer) {
    && (st.inDelim <==> CountToken(st.tokens, Delim) % 2 == 1)
    && (!st.inDelim ==> SpaceFree(st.pending))
    && SpacesQuoted(st.tokens)
  }

  lemma SpacesQuotedSnoc(ts: seq<Token>, t: Token)
    requires SpacesQuoted(ts)
    requires t.Str? && !SpaceFree(t.text) ==> CountToken(ts, Delim) % 2 == 1
    ensures SpacesQuoted(ts + [t])
  {
    forall i | 0 <= i < |ts| + 1 && (ts + [t])[i].Str? && !SpaceFree((ts + [t])[i].text)
      ensures InLiteral(ts + [t], i)
    {
      if i < |ts| {
        assert (ts + [t])[..i] == ts[..i];
        assert InLiteral(ts, i);
      } else {
        assert (ts + [t])[..i] == ts;
      }
    }
  }

  lemma FlushInv(st: Lexer)
    requires LiteralInv(st)
    ensures LiteralInv(Flush(st))
  {
    if st.pending != "" {
      SpacesQuotedSnoc(st.tokens, Str(st.pending));
      CountTokenSnoc(st.tokens, Str(st.pending), Delim);
    }
  }

  /** Emitting a parenthesis after a flush keeps the invariant. */
  lemma ParenInv(st: Lexer, t: Token)
    requires LiteralInv(st) && (t == Open || t == Close)
    ensures LiteralInv(Emit(Flush(st), t))
  {
    FlushInv(st);
    SpacesQuotedSnoc(Flush(st).tokens, t);
    CountTokenSnoc(Flush(st).tokens, t, Delim);
  }

  /** A quote outside a comment opens or closes a literal and emits one
      delimiter, so the parity still tells whether a literal is open. */
  lemma QuoteInv(st: Lexer)
    requires LiteralInv(st) && !st.inComment
    ensures LiteralInv(Step(st, '"'))
  {
    if st.inDelim {
      CloseQuoteInv(st);
    } else {
      OpenQuoteInv(st);
    }
  }

  lemma OpenQuoteInv(st: Lexer)
    requires LiteralInv(st) && !st.inComment && !st.inDelim
    ensures LiteralInv(Emit(Flush(st), Delim).(pending := "\"", inDelim := true))
  {
    FlushInv(st);
    SpacesQuotedSnoc(Flush(st).tokens, Delim);
    CountTokenSnoc(Flush(st).tokens, Delim, Delim);
  }

  lemma CloseQuoteInv(st: Lexer)
    requires LiteralInv(st) && !st.inComment && st.inDelim
    ensures LiteralInv(Emit(Flush(st.(pending := st.pending + "\"")), Delim).(inDelim := false))
  {
    var st1 := st.(pending := st.pending + "\"");
    FlushInv(st1);
    SpacesQuotedSnoc(Flush(st1).tokens, Delim);
    CountTokenSnoc(Flush(st1).tokens, Delim, Delim);
  }

  lemma StepInv(st: Lexer, c: char)
    requires LiteralInv(st)
    ensures LiteralInv(Step(st, c))
  {
    if st.inComment || c == ';' {
    } else if c == '(' || c == ')' {
      ParenInv(st, if c == '(' then Open else Close);
    } else if c == '"' {
      QuoteInv(st);
    } else if IsSpace(c) && !st.inDelim {
      FlushInv(st);
    } else if !st.inDelim {
      var p := st.pending + [c];
      assert SpaceFree(p) by {
        forall i | 0 <= i < |p| ensures !IsSpace(p[i]) {
          if i < |st.pending| { assert p[i] == st.pending[i]; }
        }
      }
    }
  }

  lemma {:induction false} FeedInv(st: Lexer, s: string)
    requires LiteralInv(st)
    ensures LiteralInv(Feed(st, s))
    decreases |s|
  {
    if s != [] {
      StepInv(st, s[0]);
      FeedInv(Step(st, s[0]), s[1..]);
    }
  }

  /** For every input, whitespace reaches a string token only inside a
      string literal: any token holding whitespace has an odd number of
      delimiters before it. */
  lemma SpacesOnlyInLiterals(s: string)
    ensures forall i :: 0 <= i < |Tokenize(s)| && Tokenize(s)[i].Str? && !SpaceFree(Tokenize(s)[i].text) ==>
              CountToken(Tokenize(s)[..i], Delim) % 2 == 1
  {
    FeedInv(Start, s);
    FlushInv(Feed(Start, s));
    assert SpacesQuoted(Tokenize(s));
  }

  // --------------------------------------------------------- text in order

  /** The characters of the string tokens, in order. */
  function TextOf(ts: seq<Token>): string
    decreases |ts|
  {
    if ts == [] then [] else TextOf(ts[..|ts| - 1]) + (if ts[|ts| - 1].Str? then ts[|ts| - 1].text else [])
  }

  /** The characters of a plain input that the scanner keeps as text. */
  function Kept(s: string): string
    decreases |s|
  {
    if s == [] then [] else (if IsPlain(s[0]) then [s[0]] else []) + Kept(s[1..])
  }

  /** Whether a string literal is open after reading `c`. */
  function NextQuoted(c: char, quoted: bool, comment: bool): bool {
    if !comment && c == '"' then !quoted else quoted
  }

  /** Whether a comment is open after reading `c`. */
  function NextComment(c: char, comment: bool): bool {
    if comment then c != '\n' else c == ';'
  }

  /** What one character contributes to the text: nothing inside a comment,
      nothing for `;` or a parenthesis, nothing for whitespace outside a
      string literal, and the character itself otherwise, quotes included. */
  function KeptChar(c: char, quoted: bool, comment: bool): string {
    if comment || c == ';' || c == '(' || c == ')' || (IsSpace(c) && !quoted) then [] else [c]
  }

  /** The characters the scanner keeps as text, in order, reading `s` from
      the given string-literal and comment modes. */
  function KeptIn(s: string, quoted: bool, comment: bool): string
    decreases |s|
  {
    if s == [] then []
    else KeptChar(s[0], quoted, comment) + KeptIn(s[1..], NextQuoted(s[0], quoted, comment), NextComment(s[0], comment))
  }

  lemma TextOfSnoc(ts: seq<Token>, t: Token)
    ensures TextOf(ts + [t]) == TextOf(ts) + (if t.Str? then t.text else [])
  {
    assert (ts + [t])[..|ts|] == ts;
  }

  lemma {:induction false} FeedKeepsText(st: Lexer, s: string)
    ensures var r := Feed(st, s);
            TextOf(r.tokens) + r.pending == TextOf(st.tokens) + st.pending + KeptIn(s, st.inDelim, st.inComment)
    decreases |s|
  {
    if s != [] {
      var c, rest := s[0], s[1..];
      var next := Step(st, c);
      StepKeepsText(st, c);
      FeedKeepsText(next, rest);
      KeptInCons(s, st.inDelim, st.inComment);
      TextThrough(TextOf(st.tokens) + st.pending, TextOf(next.tokens) + next.pending,
                  TextOf(Feed(next, rest).tokens) + Feed(next, rest).pending,
                  KeptChar(c, st.inDelim, st.inComment), KeptIn(rest, next.inDelim, next.inComment));
    }
  }

  lemma KeptInCons(s: string, quoted: bool, comment: bool)
    requires s != []
    ensures KeptIn(s, quoted, comment)
         == KeptChar(s[0], quoted, comment) + KeptIn(s[1..], NextQuoted(s[0], quoted, comment), NextComment(s[0], comment))
  {
  }

  lemma KeptCons(s: string)
    requires s != []
    ensures Kept(s) == (if IsPlain(s[0]) then [s[0]] else []) + Kept(s[1..])
  {
  }

  /** Text added in two steps is added as one. */
  lemma TextThrough(a: string, b: string, c: string, k: string, k2: string)
    requires b == a + k && c == b + k2
    ensures c == a + (k + k2)
  {
  }

  lemma FlushKeepsText(st: Lexer)
    ensures TextOf(Flush(st).tokens) == TextOf(st.tokens) + st.pending
  {
    if st.pending != "" {
      TextOfSnoc(st.tokens, Str(st.pending));
    }
  }

  /** One step moves between the modes as `NextQuoted` and `NextComment`
      say, and adds to the text exactly what `KeptChar` says. */
  lemma StepKeepsText(st: Lexer, c: char)
    ensures var r := Step(st, c);
            && r.inDelim == NextQuoted(c, st.inDelim, st.inComment)
            && r.inComment == NextComment(c, st.inComment)
            && TextOf(r.tokens) + r.pending == TextOf(st.tokens) + st.pending + KeptChar(c, st.inDelim, st.inComment)
  {
    if st.inComment || c == ';' {
    } else if c == '(' || c == ')' {
      EmitKeepsText(st, if c == '(' then Open else Close);
    } else if c == '"' {
      QuoteKeepsText(st);
    } else if IsSpace(c) && !st.inDelim {
      FlushKeepsText(st);
    }
  }

  /** Emitting a non-string token after a flush keeps the text. */
  lemma EmitKeepsText(st: Lexer, t: Token)
    requires !t.Str?
    ensures TextOf(Emit(Flush(st), t).tokens) == TextOf(st.tokens) + st.pending
  {
    FlushKeepsText(st);
    TextOfSnoc(Flush(st).tokens, t);
  }

  /** A quote, opening or closing a literal, adds itself to the text. */
  lemma QuoteKeepsText(st: Lexer)
    requires !st.inComment
    ensures var r := Step(st, '"');
            TextOf(r.tokens) + r.pending == TextOf(st.tokens) + st.pending + "\""
  {
    if !st.inDelim {
      EmitKeepsText(st, Delim);
    } else {
      var st1 := st.(pending := st.pending + "\"");
      EmitKeepsText(st1, Delim);
    }
  }

  /** The text of the string tokens is the input read with `KeptIn`: every
      character outside comments, parentheses and whitespace between
      literals, in the original order. */
  lemma {:induction false} TextInOrder(s: string)
    ensures TextOf(Tokenize(s)) == KeptIn(s, false, false)
  {
    var st := Feed(Start, s);
    FeedKeepsText(Start, s);
    FlushKeepsText(st);
    TextThrough([], TextOf(st.tokens) + st.pending, TextOf(Flush(st).tokens), KeptIn(s, false, false), []);
  }

  /** Without quotes or comments, the kept text is the input with whitespace
      and parentheses taken out. */
  lemma {:induction false} KeptPlain(s: string, quoted: bool)
    requires forall i :: 0 <= i < |s| ==> s[i] != '"' && s[i] != ';'
    requires !quoted
    ensures KeptIn(s, quoted, false) == Kept(s)
    decreases |s|
  {
    if s != [] {
      KeptCons(s);
      KeptInCons(s, quoted, false);
      KeptPlain(s[1..], quoted);
    }
  }

  /** Without quotes or comments, the string tokens hold the input's
      characters less whitespace and parentheses, in order. */
  lemma PlainTextInOrder(s: string)
    requires forall i :: 0 <= i < |s| ==> s[i] != '"' && s[i] != ';'
    ensures TextOf(Tokenize(s)) == Kept(s)
  {
    TextInOrder(s);
    KeptPlain(s, false);
  }

  // -------------------------------------------------------------- round trip

  predicate PlainWord(w: string) {
    w != [] && forall i :: 0 <= i < |w| ==> IsPlain(w[i])
  }

  /** Token sequences that writing out and scanning again can reproduce:
      parentheses and plain words. */
  predicate Unlexable(ts: seq<Token>) {
    forall i :: 0 <= i < |ts| ==> ts[i].Open? || ts[i].Close? || (ts[i].Str? && PlainWord(ts[i].text))
  }

  /** Each token's text followed by a space. */
  function Unlex(ts: seq<Token>): string
    decreases |ts|
  {
    if ts == [] then "" else TokenText(ts[0]) + " " + Unlex(ts[1..])
  }

  lemma {:induction false} FeedWord(st: Lexer, w: string)
    requires !st.inDelim && !st.inComment
    requires forall i :: 0 <= i < |w| ==> IsPlain(w[i])
    ensures Feed(st, w) == st.(pending := st.pending + w)
    decreases |w|
  {
    if w != [] {
      FeedWord(st.(pending := st.pending + [w[0]]), w[1..]);
      assert st.pending + [w[0]] + w[1..] == st.pending + w;
    }
  }

  lemma {:induction false} FeedUnlex(st: Lexer, ts: seq<Token>)
    requires Unlexable(ts) && st.pending == "" && !st.inDelim && !st.inComment
    ensures Feed(st, Unlex(ts)) == st.(tokens := st.tokens + ts)
    decreases |ts|
  {
    if ts == [] {
      assert st.tokens + ts == st.tokens;
    } else {
      var t, rest := ts[0], ts[1..];
      assert Unlex(ts) == (TokenText(t) + " ") + Unlex(rest);
      FeedConcat(st, TokenText(t) + " ", Unlex(rest));
      FeedToken(st, t);
      var st1 := st.(tokens := st.tokens + [t]);
      UnlexableTail(ts);
      FeedUnlex(st1, rest);
      assert st.tokens + [t] + rest == st.tokens + ts;
    }
  }

  lemma UnlexableTail(ts: seq<Token>)
    requires ts != [] && Unlexable(ts)
    ensures Unlexable(ts[1..]) && (ts[0].Open? || ts[0].Close? || (ts[0].Str? && PlainWord(ts[0].text)))
  {
    forall i | 0 <= i < |ts| - 1 ensures ts[1..][i] == ts[i + 1] {}
  }

  /** One written-out token followed by a space is scanned back to it. */
  lemma {:induction false} FeedToken(st: Lexer, t: Token)
    requires t.Open? || t.Close? || (t.Str? && PlainWord(t.text))
    requires st.pending == "" && !st.inDelim && !st.inComment
    ensures Feed(st, TokenText(t) + " ") == st.(tokens := st.tokens + [t])
  {
    var w := TokenText(t);
    FeedConcat(st, w, " ");
    if t.Str? {
      FeedWord(st, w);
      assert st.pending + w == w;
      FeedSpace(st.(pending := w));
    } else {
      assert w == [w[0]] && w[1..] == [];
      assert Feed(st, w) == Step(st, w[0]);
      FeedSpace(st.(tokens := st.tokens + [t]));
    }
  }

  /** A space outside a string literal flushes what is pending. */
  lemma FeedSpace(st: Lexer)
    requires !st.inDelim && !st.inComment
    ensures Feed(st, " ") == Flush(st)
  {
    assert Feed(st, " ") == Feed(Step(st, ' '), []);
  }

  /** Writing out parentheses and plain words with spaces between them and
      scanning the text gives back the same tokens. */
  lemma UnlexThenTokenize(ts: seq<Token>)
    requires Unlexable(ts)
    ensures Tokenize(Unlex(ts)) == ts
  {
    FeedUnlex(Start, ts);
  }
}

=== FILE: values.dfy ===
/** The value model of the interpreter: atoms, expressions, structural
    equality, the property map and textual rendering (expression.cpp). */
module Values {
  import opened Results

  /** An immutable scalar tag. A symbol whose text starts with a double quote
      is a string literal. */
  datatype Atom = NoneAtom | Number(num: real) | Complex(re: real, im: real) | Symbol(name: string)

  /** A head atom, an ordered tail and a property map. */
  datatype Expr = Expr(head: Atom, tail: seq<Expr>, props: map<string, Expr>)

  /** The text of a symbol atom, and the empty string for every other atom. */
  function SymbolText(a: Atom): string {
    if a.Symbol? then a.name else ""
  }

  predicate IsStringLiteral(a: Atom) {
    a.Symbol? && |a.name| > 0 && a.name[0] == '"'
  }

  /** An expression with the given head, no children and no properties. */
  function Leaf(a: Atom): Expr {
    Expr(a, [], map[])
  }

  /** The default-constructed expression. */
  const NoneExpr: Expr := Leaf(NoneAtom)

  /** A `List`-headed expression holding `xs` in order. */
  function ListExpr(xs: seq<Expr>): Expr {
    Expr(Symbol("List"), xs, map[])
  }

  predicate IsList(e: Expr) {
    e.head == Symbol("List")
  }

  /** A closure value: `lambda` head, the parameter list, then the body. */
  function Closure(params: seq<Expr>, body: Expr): Expr {
    Expr(Symbol("lambda"), [ListExpr(params), body], map[])
  }

  /** The parameters of a closure: the children of its first child. */
  function ClosureParams(clo: Expr): seq<Expr> {
    if |clo.tail| > 0 then clo.tail[0].tail else []
  }

  /** The expressions a closure call evaluates: every child after the first. */
  function ClosureBodies(clo: Expr): seq<Expr> {
    if |clo.tail| > 0 then clo.tail[1..] else []
  }

  /** Structural equality of the source: heads and tails, never properties. */
  predicate Equal(a: Expr, b: Expr)
    ensures a == b ==> Equal(a, b)
    decreases a
  {
    a.head == b.head && |a.tail| == |b.tail|
    && forall i :: 0 <= i < |a.tail| ==> Equal(a.tail[i], b.tail[i])
  }

  /** The expression with every property map, at every depth, emptied. */
  function Strip(e: Expr): (r: Expr)
    ensures r.head == e.head && |r.tail| == |e.tail| && r.props == map[]
    decreases e
  {
    Expr(e.head, seq(|e.tail|, i requires 0 <= i < |e.tail| => Strip(e.tail[i])), map[])
  }

  /** Equality ignores the property maps: two expressions are equal exactly
      when they agree once all properties are dropped. */
  lemma {:induction false} EqualIffSameStripped(a: Expr, b: Expr)
    ensures Equal(a, b) <==> Strip(a) == Strip(b)
    decreases a
  {
    if Equal(a, b) {
      forall i | 0 <= i < |a.tail|
        ensures Strip(a).tail[i] == Strip(b).tail[i]
      {
        EqualIffSameStripped(a.tail[i], b.tail[i]);
      }
      assert Strip(a).tail == Strip(b).tail;
    }
    if Strip(a) == Strip(b) {
      forall i | 0 <= i < |a.tail|
        ensures Equal(a.tail[i], b.tail[i])
      {
        assert Strip(a).tail[i] == Strip(b).tail[i];
        EqualIffSameStripped(a.tail[i], b.tail[i]);
      }
    }
  }

  /** Equality is an equivalence relation. */
  lemma EqualIsEquivalence(a: Expr, b: Expr, c: Expr)
    ensures Equal(a, a)
    ensures Equal(a, b) ==> Equal(b, a)
    ensures Equal(a, b) && Equal(b, c) ==> Equal(a, c)
  {
    EqualIffSameStripped(a, a);
    EqualIffSameStripped(a, b);
    EqualIffSameStripped(b, a);
    EqualIffSameStripped(b, c);
    EqualIffSameStripped(a, c);
  }

  /** `set-property`: the third argument with the property named by the first
      argument set to the second. */
  function SetProperty(args: seq<Expr>): (r: Result<Expr>)
    ensures r.Ok? <==> |args| == 3 && args[0].head.Symbol?
    ensures r.Ok? ==> Equal(r.value, args[2])
    ensures r.Ok? ==> args[0].head.name in r.value.props && r.value.props[args[0].head.name] == args[1]
    ensures r.Ok? ==> forall k :: k in args[2].props && k != args[0].head.name ==> k in r.value.props && r.value.props[k] == args[2].props[k]
    ensures r.Err? ==> r.error.Semantic?
  {
    if |args| == 3 then
      if args[0].head.Symbol? then
        var x := args[2];
        EqualIffSameStripped(Expr(x.head, x.tail, x.props[args[0].head.name := args[1]]), x);
        Ok(Expr(x.head, x.tail, x.props[args[0].head.name := args[1]]))
      else Fail(PropertyKey)
    else Fail(CallArity("set-property"))
  }

  /** `get-property`: the stored property, or the None expression when the
      second argument has no property of that name. */
  function GetProperty(args: seq<Expr>): (r: Result<Expr>)
    ensures r.Ok? <==> |args| == 2 && args[0].head.Symbol?
    ensures r.Ok? && args[0].head.name in args[1].props ==> r.value == args[1].props[args[0].head.name]
    ensures r.Ok? && args[0].head.name !in args[1].props ==> r.value == NoneExpr
    ensures r.Err? ==> r.error.Semantic?
  {
    if |args| == 2 then
      if args[0].head.Symbol? then
        var key := args[0].head.name;
        if key in args[1].props then Ok(args[1].props[key]) else Ok(NoneExpr)
      else Fail(PropertyKey)
    else Fail(CallArity("set-property"))
  }

  /** Reading back a property just set returns the stored value. */
  lemma GetAfterSet(key: Atom, v: Expr, x: Expr, y: Expr)
    requires key.Symbol?
    requires SetProperty([Leaf(key), v, x]) == Ok(y)
    ensures GetProperty([Leaf(key), y]) == Ok(v)
  {
  }

  /* ---------------------------------------------------------------- */
  /* Rendering                                                          */

  /** Whether `pat` occurs in `s` at some position. */
  predicate Contains(s: string, pat: string)
    decreases |s|
  {
    |pat| <= |s| && (s[..|pat|] == pat || (|s| > 0 && Contains(s[1..], pat)))
  }

  /** The strings joined with `sep` between neighbours. */
  function JoinWith(parts: seq<string>, sep: string): string {
    if |parts| == 0 then ""
    else if |parts| == 1 then parts[0]
    else parts[0] + sep + JoinWith(parts[1..], sep)
  }

  function Concat(parts: seq<string>): string {
    if |parts| == 0 then "" else parts[0] + Concat(parts[1..])
  }

  /** The text of an expression; `show` renders a single atom (the atom
      printer is not part of this model). */
  function Render(e: Expr, show: Atom -> string): (r: string)
    ensures e.head.Complex? ==> r == show(e.head)
    ensures Contains(SymbolText(e.head), "Error") ==> r == show(e.head)
    ensures IsList(e) ==> |r| >= 2 && r[0] == '(' && r[|r| - 1] == ')'
    decreases e
  {
    var parts := seq(|e.tail|, i requires 0 <= i < |e.tail| => Render(e.tail[i], show));
    var text := SymbolText(e.head);
    if e.head.Complex? then show(e.head)
    else if Contains(text, "Error") then show(e.head)
    else if text == "List" then "(" + JoinWith(parts, " ") + ")"
    else if text == "lambda" then
      "(" + (if |parts| > 0 then parts[0] else "") + " " + (if |parts| > 0 then Concat(parts[1..]) else "") + ")"
    else if e.head.NoneAtom? then "NONE"
    else "(" + show(e.head) + (if |parts| > 0 then " " else "") + JoinWith(parts, " ") + ")"
  }

  /** Rendering sees only what equality sees: equal expressions render alike,
      whatever their property maps hold. */
  lemma {:induction false} RenderRespectsEqual(a: Expr, b: Expr, show: Atom -> string)
    requires Equal(a, b)
    ensures Render(a, show) == Render(b, show)
    decreases a
  {
    var pa := seq(|a.tail|, i requires 0 <= i < |a.tail| => Render(a.tail[i], show));
    var pb := seq(|b.tail|, i requires 0 <= i < |b.tail| => Render(b.tail[i], show));
    forall i | 0 <= i < |a.tail|
      ensures pa[i] == pb[i]
    {
      RenderRespectsEqual(a.tail[i], b.tail[i], show);
    }
    assert pa == pb;
  }

  /** A list renders as its elements' texts, space separated, in parentheses. */
  lemma RenderList(xs: seq<Expr>, show: Atom -> string)
    ensures Render(ListExpr(xs), show)
         == "(" + JoinWith(seq(|xs|, i requires 0 <= i < |xs| => Render(xs[i], show)), " ") + ")"
  {
    assert !Contains("List", "Error");
    var e := ListExpr(xs);
    assert seq(|e.tail|, i requires 0 <= i < |e.tail| => Render(e.tail[i], show))
        == seq(|xs|, i requires 0 <= i < |xs| => Render(xs[i], show));
  }

  /** A closure renders as its parameter list followed by its body. */
  lemma RenderClosure(params: seq<Expr>, body: Expr, show: Atom -> string)
    ensures Render(Closure(params, body), show)
         == "(" + Render(ListExpr(params), show) + " " + Render(body, show) + ")"
  {
    assert !Contains("mbda", "Error");
    assert "ambda"[..5][0] == 'a';
    assert "ambda"[1..] == "mbda";
    assert !Contains("ambda", "Error");
    assert "lambda"[..5][0] == 'l';
    assert "lambda"[1..] == "ambda";
    assert !Contains("lambda", "Error");
    var c := Closure(params, body);
    var parts := seq(|c.tail|, i requires 0 <= i < |c.tail| => Render(c.tail[i], show));
    assert parts[0] == Render(ListExpr(params), show);
    assert parts[1..] == [Render(body, show)];
    assert Concat(parts[1..]) == Render(body, show) + Concat([]);
  }

  /** Any other expression, an application or a plain atom, renders as its
      head atom followed by its children's texts, space separated, all in
      parentheses. */
  lemma RenderApplication(e: Expr, show: Atom -> string)
    requires !e.head.Complex? && !e.head.NoneAtom?
    requires !Contains(SymbolText(e.head), "Error")
    requires SymbolText(e.head) != "List" && SymbolText(e.head) != "lambda"
    ensures Render(e, show)
         == "(" + show(e.head) + (if |e.tail| > 0 then " " else "")
          + JoinWith(seq(|e.tail|, i requires 0 <= i < |e.tail| => Render(e.tail[i], show)), " ") + ")"
  {
  }

  /** So a lone number, string or symbol prints in parentheses. */
  lemma RenderLeaf(a: Atom, show: Atom -> string)
    requires !a.Complex? && !a.NoneAtom?
    requires !Contains(SymbolText(a), "Error")
    requires SymbolText(a) != "List" && SymbolText(a) != "lambda"
    ensures Render(Leaf(a), show) == "(" + show(a) + ")"
  {
    RenderApplication(Leaf(a), show);
  }

  /** An atom whose symbol text contains "Error" prints as the bare atom,
      whatever children it has. */
  lemma RenderError(e: Expr, show: Atom -> string)
    requires Contains(SymbolText(e.head), "Error")
    ensures Render(e, show) == show(e.head)
  {
  }

  lemma RenderNone(show: Atom -> string)
    ensures Render(NoneExpr, show) == "NONE"
  {
    assert !Contains("", "Error");
  }
}
